=== FILE: README.md ===
# hyperx, modelled in Dafny

hyperx is a small browser library on top of htmx. This project models its
deterministic core as pure Dafny functions over immutable values, and
proves properties of that model. The core covers:

- the **component registry** and how a file name becomes a component name;
- the **component loader**. This covers `joinPath`, `.hpx` name
  normalisation, the nested-before-flat file layout and the stylesheet
  beside it. It also covers `processStyles` with its selector scoping, the
  `<style>` splice, the failure policy of `loadComponent`, and the entry
  normalisation of `loadAllComponents`;
- the **configuration loader**. This covers the one-level merge with
  `DEFAULT_CONFIG` and the resolution of `rootDir` and `componentsDir`
  against the page location. It also covers the fallback configuration
  and what `getConfig()` holds afterwards;
- the two **JSON renderers**:
  - `src/jrx.ts` has `empty`/`error` fallback buckets, per-item expansion
    and a template store with a fixed lookup order across its three htmx
    event handlers;
  - `src/json-renderer/jrx.ts` is the minimal per-item interpolation;
  - both share the `{{ dotted.path }}` placeholder grammar;
- the **htmx attribute helpers** and the **template proxy setup** that
  moves a request template's `hx-` attributes onto a hidden proxy.

The modules follow the program's files. `Paths` is the `joinPath` shared
by the loader and the configuration loader; the two copies in the source
are character for character the same function. The other modules are:

- `ComponentRegistry`;
- `Styles` (`processStyles`) and `StyleBlocks` (the `<style>` match and
  splice);
- `ComponentLoader` and `ConfigLoader`;
- `Placeholders` (the shared placeholder scan and the two replacers);
- `Jrx` and `JsonRenderer`;
- `HtmxAttributes` and `TemplateProxies`.

The supporting modules are:

- `Wrappers` (`Option`);
- `Text` (string helpers, the exact JavaScript `\s` set, ASCII case
  mapping);
- `JsonValues` (a JSON datatype, JavaScript truthiness, property lookup,
  object spread and `String()` of a value).

External effects become parameters:

- `fetch` and the `HEAD` probe are function values in a `Network` record;
- `window.location` is a `Location` record;
- a response is a value of the `Response` datatype;
- the stored configuration is threaded through as `Option<Fields>`;
- `extractTemplateContent` and `isValidComponentName` are
  `src/common/utils.ts` imports that file does not define. They are
  uninterpreted function values in a `TemplateTools` record.

Some behaviours of the code worth knowing:

- `filenameToComponentName` only lower-cases. It never inserts hyphens at
  case boundaries.
- `loadAllComponents` drops an entry only when both its name and its path
  are empty.
- A `rootDir` or `componentsDir` that is not a string makes `loadConfig`
  return the defaults, while `getConfig()` keeps the merged, unresolved
  configuration that was stored just before.
- `joinPath` leaves a doubled slash behind a URL-like first part, so the
  resolved directories and the component paths carry one. For a page at
  `scheme://host/dir/page` the default root is `scheme://host//dir` and the
  default components directory `scheme://host/dir//components`.
- The selector rewrite in `processStyles` drops the `{` of every rule it
  scopes.

The loader, the configuration loader and `processStyles` are modelled as
written, with these two behaviours. Both are listed under Findings, each
with a corrected definition and its intended property proved.

## Model

| member | source | states |
|---|---|---|
| ComponentRegistry.FilenameToComponentName | src/components/component-registry.ts:89-95 | the derived name is never longer than the file name, holds no backslash and no upper-case letter, and contains a hyphen only if the file name did; for a single-line file name it holds no `/` |
| ComponentRegistry.ComponentNameOfFile | src/components/component-registry.ts:89-95 | for `dir/base.hpx` or `dir\base.HPX` (any case of the extension) the derived name is exactly the base lower-cased, hyphens as given |
| ComponentRegistry.RegisterComponent | src/components/component-registry.ts:27-61 | a registration is accepted exactly when the file name and content are non-empty, the derived name is valid and the extracted template is present and non-empty; accepted: the template is stored under the derived name, the keys grow by that name only and every other entry is unchanged; rejected: the map is unchanged |
| ComponentRegistry.GetComponentTemplate | src/components/component-registry.ts:66-68 | a template is returned exactly for a registered name, and it is the stored one |
| ComponentRegistry.HasComponent | src/components/component-registry.ts:73-75 | `hasComponent(n)` holds exactly when `getComponentTemplate(n)` returns a template |
| ComponentRegistry.Clear | src/components/component-registry.ts:80-82 | after `clear()` no name is registered |
| ComponentRegistry.RegisterPreservesInvariant | src/components/component-registry.ts:42-54 | every stored name passes the validator and every stored template is non-empty, before and after any registration |
| ComponentRegistry.RegisterThenGet | src/components/component-registry.ts:39-55 | after an accepted registration, looking up the derived name gives the extracted template |
| ComponentRegistry.RegisterIsIdempotent | src/components/component-registry.ts:27-61 | registering the same file and content twice gives the same outcome and registry as once |
| Paths.KeptParts | src/components/component-loader.ts:10 | the filter keeps no `""`, `"."` or `"./"` part and never adds one |
| Paths.StripSlashes | src/components/component-loader.ts:13 | a stripped part neither starts nor ends with `/` |
| Paths.CollapseDoubleSlashes | src/components/component-loader.ts:22 | the collapse pass never lengthens the text |
| Paths.CollapseDeletesOnlySlashes | src/components/component-loader.ts:22 | the collapse pass deletes nothing but `/` characters |
| Paths.CollapseWithoutDoubleSlash | src/components/component-loader.ts:22 | a text without `//` passes through unchanged |
| Paths.CollapseKeepsLeadingDoubleSlash | src/components/component-loader.ts:22 | a `//` at the start of the text, followed by anything but `/`, is kept, because the expression needs a character before it |
| Paths.CollapseCleanPrefix | src/components/component-loader.ts:22 | a prefix without `//` that does not run into a `//` is copied unchanged, and the pass goes on behind it |
| Paths.CollapseCleanThenDoubleSlash | src/components/component-loader.ts:22 | a `//` after a clean path whose last character is not `:` becomes `/`, and the pass resumes after it |
| Paths.CollapseAfterScheme | src/components/component-loader.ts:22 | `scheme://` is always kept, and the pass resumes behind it |
| Paths.JoinPathIgnoresFillers | src/components/component-loader.ts:8-23 | inserting `""`, `"."` or `"./"` anywhere in the parts changes neither the as-written nor the corrected join |
| Paths.JoinPathAppendToLast | src/components/component-loader.ts:8-23 | appending slash-free text to the last part appends it to the joined path |
| Paths.JoinPathIntendedAppendToLast | src/components/component-loader.ts:8-23 | for the corrected joiner, appending slash-free text to the last part appends it to the joined path, with no earlier part needed |
| Paths.JoinOfCleanPaths | src/components/component-loader.ts:21 | joining clean paths (non-empty, no `/` at either end, no `//`) with `/` gives a clean path |
| Paths.HasDoubleSlashIff | src/components/component-loader.ts:22 | a text holds `//` exactly when some position starts a pair of slashes |
| Paths.JoinPathOfUrlAlone | src/components/component-loader.ts:8-23 | a URL `scheme://rest` joined on its own comes back with a trailing `/` |
| Paths.JoinPathAfterUrl | src/components/component-loader.ts:8-23 | a URL `scheme://rest` joined with further parts gives `scheme://rest//` followed by the stripped parts joined with `/` |
| Paths.JoinPathAfterDoubledUrl | src/components/component-loader.ts:8-23 | joining onto `scheme://p//d` repairs its `//` and puts a new one in front of the joined parts: `scheme://p/d//parts` |
| Paths.JoinPathIgnoresTrailingSlash | src/components/component-loader.ts:13-17 | trailing slashes on the first part make no difference to the join |
| Paths.JoinPathAfterOrigin | src/components/component-loader.ts:16-22 | as written: `scheme://host` joined with further parts keeps `//` between the host and the first part |
| Paths.JoinPathIntendedAfterOrigin | src/components/component-loader.ts:16-22 | corrected: `scheme://host` joined with further names has exactly one `/` between the host and each name |
| Paths.JoinPathDoublesSlashAfterHost | src/common/config-loader.ts:5-20 | as written, `joinPath("http://h", "c")` is `"http://h//c"` |
| Paths.JoinPathIntendedSingleSlashAfterHost | src/common/config-loader.ts:5-20 | corrected, the same call gives `"http://h/c"` |
| Styles.ComponentClass | src/components/component-loader.ts:184 | the scope class is no longer than the component name and holds no ASCII upper-case letter |
| Styles.ComponentClassOfHpxFile | src/components/component-loader.ts:184 | the class of `base.hpx` (any case of the extension) is the base with its ASCII letters lower-cased |
| Styles.ScopeSelector | src/components/component-loader.ts:197-202 | a selector mentioning `:host` or `:root` is kept as it is; any other selector becomes exactly the scope, a space, then the selector |
| Styles.RuleHeadAt | src/components/component-loader.ts:190 | a rule head is found exactly when a non-empty brace-free run is followed by `{`, and it is that run |
| Styles.ProcessStyles | src/components/component-loader.ts:182-211 | absent or empty external CSS yields the component's styles; otherwise the external CSS as the program rewrites it, a blank line, then the component's styles |
| Styles.ProcessStylesKeepsClosingBraces | src/components/component-loader.ts:182-211 | for a component name without braces, the result holds exactly as many `}` as the external CSS and the component's styles together |
| Styles.ProcessStylesWithoutRules | src/components/component-loader.ts:182-211 | external CSS without `{` is copied unchanged, then a blank line and the component's styles |
| Styles.ProcessStylesSingleRule | src/components/component-loader.ts:182-211 | one external rule `sel{body}` for component `name` gives `.name sel body}`, its `{` dropped, then a blank line and the component's styles |
| Styles.RewriteKeepsClosingBraces | src/components/component-loader.ts:190-204 | the rewrite keeps every `}` of the stylesheet |
| Styles.RewriteWithoutRulesIsIdentity | src/components/component-loader.ts:190-204 | a stylesheet without `{` is left unchanged |
| Styles.ScopedSingleSelector | src/components/component-loader.ts:195-200 | a single trimmed selector without `:host`/`:root` becomes `scope selector` |
| Styles.HeaderOfSingleSelector | src/components/component-loader.ts:192-202 | a single plain selector's header is `scope selector` as written, and `scope selector {` when the brace is re-emitted |
| Styles.RewriteSingleRule | src/components/component-loader.ts:190-204 | one rule `sel{body}` is rewritten as its header followed by the untouched body and `}` |
| Styles.RewriteDropsRuleBrace | src/components/component-loader.ts:190-204 | as written, `sel{body}` becomes `.c sel body}`, which has lost its `{` |
| Styles.RewriteIntendedSingleRule | src/components/component-loader.ts:190-204 | corrected, `sel{body}` becomes `.c sel {body}` |
| Styles.RewriteIntendedKeepsOpeningBraces | src/components/component-loader.ts:190-204 | corrected: the rewrite keeps every `{` of the stylesheet |
| StyleBlocks.FindStyleBlock | src/components/component-loader.ts:123-124 | the match returned is at the leftmost position where the `<style>` expression matches; no earlier position matches |
| StyleBlocks.ExpandWithoutDollar | src/components/component-loader.ts:133-135 | a replacement string without `$` is inserted literally |
| StyleBlocks.ExpandMatchedPattern | src/components/component-loader.ts:133-135 | `$&` in the merged styles re-inserts the whole matched element |
| StyleBlocks.GroupReferenceIsLiteral | src/components/component-loader.ts:133-135 | `$1` is copied literally, because the expression has no capture group |
| StyleBlocks.SpliceReplacesBlock | src/components/component-loader.ts:130-136 | with a style element present, reading the spliced content's first style element gives the merged styles between two line feeds |
| StyleBlocks.SplicePrependsElement | src/components/component-loader.ts:137-139 | without a style element, a non-empty merge is prepended as the first element and reads back the same way |
| StyleBlocks.SpliceThenRead | src/components/component-loader.ts:130-140 | the splice, read back, holds the merged styles; with no element and nothing to add, there is still no element |
| ComponentLoader.Initialize | src/components/component-loader.ts:72-82 | an initialised loader is returned as it is; without a configuration, or without a `project` section, initialisation fails; otherwise the components path is read from `project.componentsDir` |
| ComponentLoader.InitializeIsIdempotent | src/components/component-loader.ts:72-82 | a second initialisation changes nothing, whatever the configuration is by then |
| ComponentLoader.PathPart | src/components/component-loader.ts:228-232 | the components path read at :80 and passed to `joinPath` here and at :252-254: an absent or falsy value joins as nothing, a string is used as it is, and any other truthy value makes `joinPath` throw |
| ComponentLoader.NormalizeName | src/components/component-loader.ts:95 | the normalised name ends with `.hpx`; a name ending with `.hpx` (case-sensitive) is kept, any other gets `.hpx` appended |
| ComponentLoader.NormalizeNameIsIdempotent | src/components/component-loader.ts:95 | normalising twice is normalising once |
| ComponentLoader.NormalizedBase | src/components/component-loader.ts:230-231 | a normalised name is its base name followed by `.hpx` |
| ComponentLoader.ComponentPath | src/components/component-loader.ts:228-244 | the nested path is chosen exactly when the existence check finds it; otherwise the flat path is returned |
| ComponentLoader.StylesheetBesideComponent | src/components/component-loader.ts:228-255 | with the program's joiner, in either layout the stylesheet path is the component path with `.css` in place of `.hpx` |
| ComponentLoader.ComponentUnderUrlDirectory | src/components/component-loader.ts:228-255 | under a URL directory `scheme://rest` the flat file is `scheme://rest//b.hpx`, the nested one `scheme://rest//b/b.hpx` and the flat stylesheet `scheme://rest//b.css` |
| ComponentLoader.ComponentUnderResolvedDirectory | src/components/component-loader.ts:228-231 | under a directory `scheme://p//d`, as the configuration loader resolves it, the flat file is `scheme://p/d//b.hpx` |
| ComponentLoader.LoadCss | src/components/component-loader.ts:160-177 | a stylesheet is returned exactly when the fetch answers with an ok status, and it is the body; every other outcome gives none |
| ComponentLoader.StylesheetFailureIsHarmless | src/components/component-loader.ts:160-177 | without a usable stylesheet the component's own styles are spliced back as they are |
| ComponentLoader.FinalContentCarriesStyles | src/components/component-loader.ts:123-140 | the registered content's first style element holds the merged styles between line feeds; with no styles at all the content is unchanged |
| ComponentLoader.LoadComponent | src/components/component-loader.ts:87-155 | a failed load leaves the registry unchanged; a successful one adds exactly the derived name; other entries never change; a failed initialisation fails the load |
| ComponentLoader.MissingFileFails | src/components/component-loader.ts:105-120 | a file that fails the existence check, an unreachable fetch or a non-ok status makes the load return false with the registry unchanged |
| ComponentLoader.FetchedComponentRegisters | src/components/component-loader.ts:104-150 | for a found and fetched component, the load succeeds exactly when the registration of its final content is accepted, and leaves the registry that registration produces |
| ComponentLoader.LoadedComponentIsServed | src/components/component-loader.ts:122-150 | after a successful load, `getComponentTemplate` of the derived name gives the template extracted from content whose first style element holds the merged styles between two line feeds |
| ComponentLoader.LoadKeepsRegistryInvariant | src/components/component-loader.ts:143-150 | loading a component keeps every stored name valid and every stored template non-empty |
| ComponentLoader.NormalizeEntry | src/components/component-loader.ts:275-284 | the entry map throws exactly on a `null` entry |
| ComponentLoader.EntryKeptIff | src/components/component-loader.ts:275-291 | a string entry is kept exactly when it is non-empty; any other entry exactly when its `name` or its `path` is truthy |
| ComponentLoader.EntryLoadsByPath | src/components/component-loader.ts:282-301 | a kept object entry is loaded by its `path`, or by its `name` when the path is falsy |
| ComponentLoader.NormalizeEntries | src/components/component-loader.ts:275-291 | the list normalisation throws exactly when some entry is `null`; otherwise every entry of the result has two truthy ends and comes from the input, and every input entry with two truthy ends is in the result |
| ComponentLoader.NormalizeSingleEntry | src/components/component-loader.ts:277-291 | a single non-null entry normalises to itself when both its ends are truthy and to nothing otherwise |
| ComponentLoader.NormalizeEntriesAppend | src/components/component-loader.ts:276-291 | the map-then-filter keeps order: the list of a concatenation is the concatenation of the lists, and it throws when either half throws |
| ComponentLoader.LoadEntry | src/components/component-loader.ts:300-308 | a failed entry load leaves the registry unchanged, and no entry load removes a name |
| ComponentLoader.LoadEach | src/components/component-loader.ts:300-308 | the success count grows by at most one per entry, and the registry only grows |
| ComponentLoader.LoadEachKeepsInvariant | src/components/component-loader.ts:300-308 | loading all entries keeps the registry invariant |
| ComponentLoader.LoadAllComponents | src/components/component-loader.ts:260-319 | the call throws exactly when initialisation fails, no configuration is stored or some configured entry is `null`; when it finishes, the total is the number of kept entries, at most that many loaded, and the registry only grew |
| ComponentLoader.LoadAll | src/components/component-loader.ts:260-319 | the loop over the normalised entries computes the same outcome as the list-order fold |
| ConfigLoader.Merge | src/common/config-loader.ts:109-120 | the merge throws exactly for a `null` body; otherwise `project` and `server` are the field-by-field merged sections |
| ConfigLoader.MergedProject | src/common/config-loader.ts:112-115 | the merged `project` always has `rootDir` and `componentsDir` |
| ConfigLoader.MergeTopLevel | src/common/config-loader.ts:109-111 | a top-level key other than `project`/`server` takes the user's value when given and keeps its default otherwise |
| ConfigLoader.MergeProjectFields | src/common/config-loader.ts:112-115 | within `project` a user field wins, a missing field keeps its default, and nothing else appears |
| ConfigLoader.ProjectObjectOverrides | src/common/config-loader.ts:112-115 | an object-valued `project` contributes exactly its own fields |
| ConfigLoader.MergeWithoutSections | src/common/config-loader.ts:109-120 | with no user sections the merged sections are the defaults |
| ConfigLoader.DropLastSegment | src/common/config-loader.ts:124 | the text from the last `/` on is removed, and a text without `/` is unchanged |
| ConfigLoader.DropLastSegmentOfAppend | src/common/config-loader.ts:124 | `dir + "/" + name`, with `name` slash-free, loses exactly `"/" + name` |
| ConfigLoader.ResolveRootDir | src/common/config-loader.ts:127-143 | a `rootDir` starting with `http` is left unchanged |
| ConfigLoader.DotSlashRootIsRelative | src/common/config-loader.ts:131-141 | `./x` and `x` resolve to the same root directory |
| ConfigLoader.RootFromDomain | src/common/config-loader.ts:123-131 | a root `/x` lies on the origin behind a doubled slash: `scheme://host//x` |
| ConfigLoader.RootBesidePage | src/common/config-loader.ts:123-141 | on a page `scheme://host/dir/page`, a plain root `x` or `./x` is `scheme://host//dir/x` |
| ConfigLoader.RootFromParent | src/common/config-loader.ts:135-138 | on a page `scheme://host/parent/dir/page`, a root `../x` is `scheme://host//parent/x` |
| ConfigLoader.DefaultRootIsPageDirectory | src/common/config-loader.ts:123-141 | on a page `scheme://host/dir/page` the default root `.` is `scheme://host//dir` |
| ConfigLoader.DefaultRootAtSiteRoot | src/common/config-loader.ts:123-141 | on a page at the top of its site the default root is the origin with a trailing `/` |
| ConfigLoader.ResolveComponentsDir | src/common/config-loader.ts:146-162 | a `componentsDir` starting with `http` is left unchanged |
| ConfigLoader.ComponentsFromDomain | src/common/config-loader.ts:148-150 | a components directory `/x` is `scheme://host//x`, whatever the root |
| ConfigLoader.ComponentsInsideRoot | src/common/config-loader.ts:151-161 | under a root `scheme://p//d`, a plain components directory `x` or `./x` is `scheme://p/d//x` |
| ConfigLoader.ComponentsInsideUrlRoot | src/common/config-loader.ts:158-161 | under a root `scheme://rest` given as a URL, a plain components directory `x` is `scheme://rest//x` |
| ConfigLoader.DefaultComponentsInsideRoot | src/common/config-loader.ts:123-162 | on a page `scheme://host/dir/page`, the default `./components` under the default root is `scheme://host/dir//components` |
| ConfigLoader.ParentComponentsBesideRoot | src/common/config-loader.ts:154-157 | under a root `scheme://p//d/e`, `../x` is `scheme://p/d//x` |
| ConfigLoader.PlainDirsBesidePage | src/common/config-loader.ts:123-162 | on a page `scheme://host/dir/page`, plain directories `x` and `c` resolve to `scheme://host//dir/x` and `scheme://host/dir/x//c` |
| ConfigLoader.Fallback | src/common/config-loader.ts:175-183 | the fallback has exactly the default configuration's top-level keys |
| ConfigLoader.FallbackDirs | src/common/config-loader.ts:177-182 | on a page `scheme://host/dir/page` the fallback's root is `scheme://host/dir` and its components directory `scheme://host/dir//components` |
| ConfigLoader.LoadConfig | src/common/config-loader.ts:98-184 | the returned configuration is the fallback or the stored one; a failed fetch or a non-ok status returns the fallback and leaves the stored configuration as it was |
| ConfigLoader.FailureKeepsStored | src/common/config-loader.ts:101-113 | a failed fetch, an unparsable body or a `null` body returns the fallback and leaves `getConfig()` as it was |
| ConfigLoader.SuccessKeepsOtherFields | src/common/config-loader.ts:109-174 | with string directories, what is returned is what `getConfig()` holds, and it is the merge apart from the two directories, which stay strings |
| ConfigLoader.LoadConfigStoresResolved | src/common/config-loader.ts:109-174 | with string directories, the returned and stored configuration is the merge with the project's two directories replaced by their resolutions |
| ConfigLoader.LoadConfigDefaultDirs | src/common/config-loader.ts:109-174 | a configuration keeping the default directories, on a page `scheme://host/dir/page`, is stored and returned with root `scheme://host//dir` and components `scheme://host/dir//components` |
| ConfigLoader.LoadConfigPlainDirs | src/common/config-loader.ts:109-174 | plain directories `x` and `c`, on a page `scheme://host/dir/page`, are stored and returned as `scheme://host//dir/x` and `scheme://host/dir/x//c` |
| ConfigLoader.LoadConfigDomainDirs | src/common/config-loader.ts:109-174 | directories `/x` and `/c` are stored and returned as `scheme://host//x` and `scheme://host//c` |
| ConfigLoader.LoadConfigAbsoluteDirs | src/common/config-loader.ts:109-174 | directories both starting with `http` are stored and returned as the merge itself |
| ConfigLoader.BadRootDirStoresMerge | src/common/config-loader.ts:127-183 | a non-string `rootDir` returns the fallback while the merged, unresolved configuration stays stored |
| JsonValues.Property | src/jrx.ts:112-115 | property lookup on `null`, a boolean or a number is undefined |
| JsonValues.Spread | src/common/config-loader.ts:109-115 | spreading an object copies its fields, and spreading a primitive adds nothing |
| JsonValues.PrintIndexRoundTrip | src/common/config-loader.ts:109-115 | printing the value of a canonical index key gives back the key |
| JsonValues.ElementMapKeys | src/common/config-loader.ts:109-115 | the keys an array spread produces are exactly the canonical indices below its length, each with its element |
| JsonValues.SpreadOfArray | src/common/config-loader.ts:109-115 | each element of an array is spread under its printed index |
| JsonValues.SpreadAgreesWithProperty | src/common/config-loader.ts:109-115 | every key an array or string spreads reads back, as a property, the element it came from |
| Placeholders.PlaceholderAt | src/jrx.ts:107-118 | a recognised placeholder spans at least five characters from `{` to `}` and has a non-empty path |
| Placeholders.PlaceholderPathChars | src/jrx.ts:107-118 | a recognised path is made of letters, digits, `_` and `.` only |
| Placeholders.PlaceholderRecognised | src/jrx.ts:107-118 | `{{`, spaces, a path, spaces, `}}` at the start of a text is recognised with exactly that path and extent |
| Placeholders.PlaceholderAtIsLocal | src/jrx.ts:107-118 | whether a placeholder starts a text depends only on the characters it spans |
| Placeholders.InterpolateWithoutBrace | src/json-renderer/jrx.ts:63-84 | a text without `{` is returned unchanged |
| Placeholders.InterpolatePlainPrefix | src/json-renderer/jrx.ts:63-84 | text before the first `{` is copied verbatim |
| Placeholders.InterpolateBraceFreeSuffix | src/json-renderer/jrx.ts:63-84 | a trailing text without braces is copied verbatim |
| Placeholders.InterpolatePlaceholder | src/json-renderer/jrx.ts:63-84 | a placeholder is replaced by the replacer's value for its path, and scanning resumes after it, so the value is never rescanned |
| Placeholders.JrxValueText | src/jrx.ts:107-118 | an undefined or `null` value anywhere on the path, or at its end, gives the empty string |
| Placeholders.RendererValueText | src/json-renderer/jrx.ts:70-82 | an undefined intermediate gives the empty string |
| Placeholders.WalkFromNothing | src/json-renderer/jrx.ts:70-82 | once a lookup reaches `undefined` or `null`, it stays undefined |
| Placeholders.WalkAppend | src/jrx.ts:107-118 | walking a path in two halves is walking it at once |
| Placeholders.ReplacersDifferOnlyOnNullLeaf | src/json-renderer/jrx.ts:70-82 | the two replacers disagree exactly on a `null` at the end of the path, where one prints `null` and the other nothing |
| Jrx.PartitionChildren | src/jrx.ts:49-56 | the extraction loop fills the same buckets as the partition |
| Jrx.InBucketMembers | src/jrx.ts:140-147 | each bucket holds only children of its kind, each taken from the children |
| Jrx.PartitionIsExact | src/jrx.ts:140-147 | every child lands in exactly one bucket, in order, so the three buckets together are the children |
| Jrx.PartitionKinds | src/jrx.ts:49-56 | only an `hx-if` of exactly `empty` or `error` diverts a child; everything else is main content |
| Jrx.Classify | src/jrx.ts:65-76 | data is empty exactly when it is an empty array; an error exactly when it is an object with a truthy `error`; everything else is normal |
| Jrx.RenderJrx | src/jrx.ts:17-91 | nothing happens exactly when there is no inner template; the hidden template is re-appended exactly on the normal path |
| Jrx.SingleItemArray | src/jrx.ts:78-86 | a normal non-array value renders as the one-item array holding it |
| Jrx.RenderItemsAppend | src/jrx.ts:78-86 | rendering the items of two arrays in turn is rendering their concatenation |
| Jrx.OutersAppend | src/jrx.ts:96-101 | serialising two runs of siblings is serialising each |
| Jrx.Fill | src/jrx.ts:187-206 | a filled clone keeps its own tags and `hx-if`; only its inner HTML is interpolated |
| Jrx.ApplyTemplateAsFill | src/jrx.ts:106-121 | interpolating the outer HTML equals filling the inner HTML when the element's own tags hold no placeholder |
| Jrx.RenderNodesAsFill | src/jrx.ts:96-101 | rendering the main elements equals serialising their filled clones, when their tags hold no placeholder |
| Jrx.RenderItemsAsFill | src/jrx.ts:166-186 | the per-item rendering equals serialising the item-major fill, when the tags hold no placeholder |
| Jrx.RenderJrxAgreesWithProcess | src/jrx.ts:127-209 | `renderJRX` and `processTemplateContent` produce the same markup when the top-level tags hold no placeholder |
| Jrx.FillAllLayout | src/jrx.ts:187-206 | a single value yields one filled clone per main element, in order |
| Jrx.FillEachLength | src/jrx.ts:166-186 | an array of n items yields n copies of the main elements |
| Jrx.FillEachAppend | src/jrx.ts:166-186 | filling from the items of two arrays in turn is filling from their concatenation |
| Jrx.FillEachLayout | src/jrx.ts:166-186 | the k-th copy of the j-th main element is that element filled from the k-th item |
| Jrx.FirstWith | src/jrx.ts:257-280 | the query finds the first template carrying the attribute value, and none is found exactly when no template carries it |
| Jrx.LastWith | src/jrx.ts:225-249 | the last template carrying the attribute value is found, and none exactly when no template carries it |
| Jrx.ScanTemplates | src/jrx.ts:225-249 | the scan loop computes the scan pass |
| Jrx.ScanPassLookup | src/jrx.ts:225-249 | a pass stores, under each non-empty key, the last template carrying it, and leaves other keys as they were |
| Jrx.StartupPriority | src/jrx.ts:215-249 | after startup a key holds the last template with that `id`, failing that with that `data-for`, failing that with that `name`; without htmx nothing is stored |
| Jrx.FirstPresent | src/jrx.ts:257-280 | the first present option of a lookup order is found exactly when one is present |
| Jrx.FirstPresentStep | src/jrx.ts:323-350 | the lookup order tries its head first and falls back to the rest |
| Jrx.BeforeRequest | src/jrx.ts:252-281 | the template found (inline, then `name=id`, then `data-for=id`) is the value stored under the element's id; when none is found the store is unchanged; no other key changes and nothing is removed |
| Jrx.AfterOnLoad | src/jrx.ts:283-377 | `shouldSwap` is false exactly when the content type contains `application/json`, the body parses and a template is found |
| Jrx.RequestThenChoose | src/jrx.ts:252-350 | for an element target that both sends the request (`evt.detail.elt`, src/jrx.ts:254) and receives the swap (`evt.detail.target`, :285), the template `beforeRequest` stores is the one `afterOnLoad` renders with; a template-handler proxy, whose requester and target differ, is not covered |
| Jrx.StoreRestoresInlineTemplate | src/jrx.ts:252-350 | when the requesting element is also the swap target, once a render has replaced an inline template, the next response still renders with it, from the store |
| Jrx.TemplateTargetRenders | src/jrx.ts:307-318 | a parsed JSON response to a template target is always rendered, with the target itself, into a new container |
| JsonRenderer.RenderJsonWithTemplate | src/json-renderer/jrx.ts:9-57 | a target without a template is left alone; markup is only ever added before the template, never removed; a template target stays visible and an inner template is hidden |
| JsonRenderer.EmptyArrayRendersNothing | src/json-renderer/jrx.ts:34-36 | an empty array renders nothing, with no fallback content |
| JsonRenderer.RenderItemsAppend | src/json-renderer/jrx.ts:34-36 | rendering the items of two arrays in turn is rendering their concatenation |
| JsonRenderer.SingleItemArray | src/json-renderer/jrx.ts:34-39 | a non-array value is interpolated exactly once, as the one-item array holding it is |
| JsonRenderer.RendersAccumulate | src/json-renderer/jrx.ts:46-56 | two renders in a row keep the first markup and add the second after it |
| JsonRenderer.PlainTemplateRepeats | src/json-renderer/jrx.ts:34-36 | a template without `{` renders as itself once per item |
| JsonRenderer.NullLeafRendersNull | src/json-renderer/jrx.ts:70-82 | `{{a}}` against `{"a": null}` renders `null` here and nothing in the fallback renderer |
| HtmxAttributes.HtmxPart | src/common/utils.ts:30-36 | the `hx-` part of an attribute map takes its keys from the map |
| HtmxAttributes.HasHtmx | src/common/utils.ts:23-25 | `hasHtmxAttributes` holds exactly when some attribute name starts with `hx-` |
| HtmxAttributes.CopyHtmxAttributes | src/common/utils.ts:30-36 | every `hx-` attribute of the source is set on the target with the source's value; the target's other attributes are unchanged and no other key appears |
| HtmxAttributes.RemoveHtmxAttributes | src/common/utils.ts:41-47 | no `hx-` attribute remains, and every other attribute is kept with its value |
| HtmxAttributes.HtmxPartition | src/common/utils.ts:23-47 | the `hx-` part and the rest are disjoint and together make up the attributes |
| HtmxAttributes.RemoveIsIdempotent | src/common/utils.ts:41-47 | removing the `hx-` attributes twice is removing them once |
| HtmxAttributes.RemoveClearsHtmx | src/common/utils.ts:41-47 | after removal `hasHtmxAttributes` is false |
| TemplateProxies.ProxyAttributes | src/common/template-handler.ts:37-45 | the proxy carries exactly the template's `hx-` attributes with their values, plus `hx-target="#"+id` when none was copied |
| TemplateProxies.Step | src/common/template-handler.ts:18-58 | one iteration changes only its own template, keeps ids and existing proxies, and leaves a request template's proxy id taken |
| TemplateProxies.StepCreatesProxy | src/common/template-handler.ts:34-58 | a request template with a free proxy id gets the proxy `id-proxy` and loses its own `hx-` attributes; the proxy is triggered exactly when its trigger mentions `load` |
| TemplateProxies.StepSkips | src/common/template-handler.ts:18-27 | a template without a request attribute, or whose proxy id is taken, is left as it is |
| TemplateProxies.DefaultTriggerIsLoad | src/common/template-handler.ts:51-52 | a proxy without `hx-trigger`, or with an empty one, is triggered on load |
| TemplateProxies.StepRequestIsSettled | src/common/template-handler.ts:23-40 | after its iteration a template that still has a request attribute has its proxy id taken |
| TemplateProxies.SetupSettles | src/common/template-handler.ts:14-60 | after setup every request template has its proxy id in the document |
| TemplateProxies.SettledIsFixed | src/common/template-handler.ts:23-27 | a document where every request template has its proxy is left unchanged by the setup |
| TemplateProxies.SetupIsIdempotent | src/common/template-handler.ts:14-60 | running the setup again changes nothing |
| TemplateProxies.SetupKeepsProxiesUnique | src/common/template-handler.ts:23-27 | however often the setup runs, proxy ids stay pairwise distinct and each is an id of the document |

## Left out

- DOM work is not modelled: parsing and serialising HTML, `cloneNode`, `insertAdjacentHTML`, `innerHTML` assignment, the proxy's `display: none` style and where the proxy is inserted. Elements are records of their tags and inner HTML, and a render is the markup it places.
- Logging, `setTimeout`, `htmx.process`, `htmx.trigger` and `triggerHtmxEvent` are foreign calls. They leave no trace in the model beyond the recorded "scheduled for a load event" list.
- Initialiser code is not modelled: `src/hyperx.ts`, `src/common/initializer.ts` and `src/common/json-handler.ts` only wire the modelled cores to events. `src/components/hx-components.ts` and `src/conditions/hx-conditions.ts` only log.
- The `DEFAULT_CONFIG` object is aliased in the fallback branch, which mutates `DEFAULT_CONFIG.project` (src/common/config-loader.ts:178-181). The model treats the defaults as immutable values, so a later call sees the original defaults.
- Singleton construction of the registry, loader and config loader is left out. Each is one value threaded through the calls.
- `Promise.all` in `loadAllComponents` is modelled as loading the entries one after the other in list order. The loads are independent apart from the registry writes. Two entries with the same derived name end with the later one's template.
- An exception thrown by `response.text()` after an ok status is not modelled. A reply is either unreachable or a status with a body.
- `extractTemplateContent` and `isValidComponentName` are not part of this model. They are uninterpreted function values.
- ComponentRegistry.FilenameToComponentName: `toLowerCase` is ASCII-only here, so non-ASCII letters keep their case.
- Styles.ComponentClass, Styles.ComponentClassOfHpxFile: the same ASCII-only `toLowerCase`, so `É.hpx` gets the class `É` instead of `é`, and a name whose lower case is longer in UTF-16 (such as `İ`) is not covered by the length bound.
- Placeholders.SpaceEnd: the `\s` class is the exact JavaScript set. Other Unicode handling is out of scope.
- JsonValues.Stringify: JSON numbers carry their printed form, so `String()` of a number is that text and not a conversion from a floating-point value.
- JsonValues.Property: JavaScript string lengths and index keys count UTF-16 code units, while the model counts Unicode scalar values. `"😀".length` is 2 in the program and 1 here, and so are the index keys of a string with characters outside the Basic Multilingual Plane.
- JsonValues.Spread: for the same reason, spreading a string with characters outside the Basic Multilingual Plane gives one key per character here, where the program gives one key per UTF-16 code unit.
- JsonValues.Property: lookup through the prototype chain is not modelled. An id or key naming an `Object.prototype` member (`constructor`, `toString`, ...) is treated as absent.
- Jrx.AfterOnLoad, Jrx.BeforeRequest: a CSS-selector id containing a quote character would make `querySelector` throw (src/jrx.ts:267 and :275, and the same lookups in `htmx:afterOnLoad`). The model treats every id as a plain lookup.
- `renderJRX` is not called by any of the three event handlers, which call `processTemplateContent` directly. Both are modelled, and Jrx.RenderJrxAgreesWithProcess relates them.
- `fileExists` is asked twice about the chosen path when the nested layout is found (src/components/component-loader.ts:235, then :105). The network is a pure function here, so both checks get the same answer; a file that disappears between them is not modelled.
- Styles.RewriteKeepsClosingBraces: states brace counts, not the full text of the rewritten stylesheet. Single rules are pinned down exactly by Styles.RewriteSingleRule.

## Findings

| source | as written | input that shows it | evidently intended | confidence | as-written member | corrected member |
|---|---|---|---|---|---|---|
| src/components/component-loader.ts:16-22 | a URL-like first part gets `//` appended, and the collapse pass after the join keeps one doubled slash | `joinPath("http://h", "c")` gives `"http://h//c"` (the same in src/common/config-loader.ts:5-20) | one `/` between the origin and the path: `"http://h/c"` | not executed | Paths.JoinPathDoublesSlashAfterHost | Paths.JoinPathIntendedSingleSlashAfterHost |
| src/components/component-loader.ts:190-204 | a matched selector run is replaced by the scoped selectors without the `{` the expression consumed | external CSS `p{color:red}` for component `c` gives `.c pcolor:red}` | `.c p {color:red}`, every rule keeping its opening brace | not executed | Styles.RewriteDropsRuleBrace | Styles.RewriteIntendedKeepsOpeningBraces |

=== FILE: attributes.dfy ===
/**
 * The HTMX attribute helpers of `src/common/utils.ts`. An element's
 * attributes are a map from attribute name to value; the helpers test for,
 * copy and remove the attributes whose name starts with `hx-`.
 */
module HtmxAttributes {
  import opened Text

  /** An element's attributes, by name. */
  type Attributes = map<string, string>

  predicate IsHtmx(name: string) {
    StartsWith(name, "hx-")
  }

  /** The `hx-` attributes of `a`. */
  function HtmxPart(a: Attributes): (r: Attributes)
    ensures r.Keys <= a.Keys
  {
    map n | n in a && IsHtmx(n) :: a[n]
  }

  /** The attributes of `a` that are not `hx-` attributes. */
  function WithoutHtmx(a: Attributes): (r: Attributes)
    ensures r.Keys <= a.Keys
  {
    map n | n in a && !IsHtmx(n) :: a[n]
  }

  /** `hasHtmxAttributes`: some attribute name starts with `hx-`. */
  function HasHtmx(a: Attributes): (r: bool)
    ensures r <==> HtmxPart(a) != map[]
  {
    if exists n :: n in a && IsHtmx(n) then
      var n :| n in a && IsHtmx(n);
      assert n in HtmxPart(a);
      true
    else
      assert HtmxPart(a).Keys == {};
      false
  }

  /**
   * `copyHtmxAttributes(source, target)`: every `hx-` attribute of the
   * source is set on the target, overwriting a value already there; the
   * target's other attributes stay as they were.
   */
  method CopyHtmxAttributes(source: Attributes, target: Attributes) returns (r: Attributes)
    ensures forall n :: n in r <==> n in target || (n in source && IsHtmx(n))
    ensures forall n :: n in source && IsHtmx(n) ==> r[n] == source[n]
    ensures forall n :: n in target && !(n in source && IsHtmx(n)) ==> r[n] == target[n]
    ensures r == target + HtmxPart(source)
  {
    r := target;
    var todo := source.Keys;
    while todo != {}
      invariant todo <= source.Keys
      invariant forall n :: n in r <==> n in target || (n in source && IsHtmx(n) && n !in todo)
      invariant forall n :: n in source && IsHtmx(n) && n !in todo ==> r[n] == source[n]
      invariant forall n :: n in target && !(n in source && IsHtmx(n) && n !in todo) ==> r[n] == target[n]
      decreases todo
    {
      var n :| n in todo;
      if IsHtmx(n) {
        r := r[n := source[n]];
      }
      todo := todo - {n};
    }
    assert r.Keys == (target + HtmxPart(source)).Keys;
  }

  /**
   * `removeHtmxAttributes(element)`: afterwards no attribute name starts with
   * `hx-`, and every other attribute is kept with its value.
   */
  method RemoveHtmxAttributes(a: Attributes) returns (r: Attributes)
    ensures forall n :: n in r <==> n in a && !IsHtmx(n)
    ensures forall n :: n in r ==> r[n] == a[n]
    ensures !HasHtmx(r)
    ensures r == WithoutHtmx(a)
  {
    r := a;
    var todo := a.Keys;
    while todo != {}
      invariant todo <= a.Keys
      invariant forall n :: n in r <==> n in a && (!IsHtmx(n) || n in todo)
      invariant forall n :: n in r ==> r[n] == a[n]
      decreases todo
    {
      var n :| n in todo;
      if IsHtmx(n) {
        r := r - {n};
      }
      todo := todo - {n};
    }
    assert r.Keys == WithoutHtmx(a).Keys;
    assert HtmxPart(r).Keys == {};
  }

  // ---------------------------------------------------------------------------
  // Properties
  // ---------------------------------------------------------------------------

  /** Every attribute is either an `hx-` attribute or not: the two parts split the map. */
  lemma HtmxPartition(a: Attributes)
    ensures HtmxPart(a).Keys !! WithoutHtmx(a).Keys
    ensures HtmxPart(a) + WithoutHtmx(a) == a
  {
    assert (HtmxPart(a) + WithoutHtmx(a)).Keys == a.Keys;
  }

  /** Removing the `hx-` attributes a second time changes nothing. */
  lemma RemoveIsIdempotent(a: Attributes)
    ensures WithoutHtmx(WithoutHtmx(a)) == WithoutHtmx(a)
  {
    assert WithoutHtmx(WithoutHtmx(a)).Keys == WithoutHtmx(a).Keys;
  }

  /** After removal, `hasHtmxAttributes` is false. */
  lemma RemoveClearsHtmx(a: Attributes)
    ensures !HasHtmx(WithoutHtmx(a))
  {
    assert HtmxPart(WithoutHtmx(a)).Keys == {};
  }
}

=== FILE: config.dfy ===
/**
 * The configuration loader of `src/common/config-loader.ts`: the user's
 * `hpxconfig.json` merged one level deep over the defaults, and the
 * project's `rootDir` and `componentsDir` resolved against the page's
 * location, which is passed in rather than read from `window.location`.
 */
module ConfigLoader {
  import opened Wrappers
  import opened Text
  import opened JsonValues
  import opened Paths

  /** A configuration object: its own properties. */
  type Fields = map<string, Json>

  function DefaultProject(): Fields {
    map["name" := JStr("HyperX App"), "description" := JStr("A HyperX application"),
        "version" := JStr("1.0.0"), "author" := JStr(""), "license" := JStr("MIT"),
        "rootDir" := JStr("."), "componentsDir" := JStr("./components")]
  }

  function DefaultServer(): Fields {
    map["port" := JNum("3000"), "open" := JBool(true)]
  }

  /** `DEFAULT_CONFIG`. */
  function DefaultConfig(): Fields {
    map["version" := JStr("1.0.0"), "project" := JObj(DefaultProject()),
        "server" := JObj(DefaultServer()), "components" := JArr([])]
  }

  /** `...(userConfig[key] || {})`: the properties a falsy section contributes are none. */
  function SectionOverrides(user: Json, key: string): Fields {
    match Property(user, key)
    case Some(v) => if Truthy(v) then Spread(v) else map[]
    case None => map[]
  }

  /** The merged `project` section: the user's fields over the defaults. */
  function MergedProject(user: Json): (r: Fields)
    ensures "rootDir" in r && "componentsDir" in r
  {
    DefaultProject() + SectionOverrides(user, "project")
  }

  /** The merged `server` section. */
  function MergedServer(user: Json): Fields {
    DefaultServer() + SectionOverrides(user, "server")
  }

  /**
   * The merge. `None` when `userConfig.project` throws, which happens
   * exactly when the response body is `null`; spreading a primitive adds
   * nothing and spreading a string adds its characters.
   */
  function Merge(user: Json): (r: Option<Fields>)
    ensures r.None? <==> user.JNull?
    ensures r.Some? ==> "project" in r.value && r.value["project"] == JObj(MergedProject(user))
    ensures r.Some? ==> "server" in r.value && r.value["server"] == JObj(MergedServer(user))
  {
    if user.JNull? then None
    else Some(DefaultConfig() + Spread(user)
              + map["project" := JObj(MergedProject(user)), "server" := JObj(MergedServer(user))])
  }

  /**
   * `s.replace(/\/[^/]*$/, '')`: everything from the last `/` on is removed;
   * without a `/` the text is unchanged.
   */
  function DropLastSegment(s: string): (r: string)
    ensures '/' !in s ==> r == s
    ensures '/' in s ==> |r| < |s| && r == s[..|r|] && s[|r|] == '/' && '/' !in s[|r| + 1..]
    decreases |s|
  {
    if |s| == 0 then s
    else if s[|s| - 1] == '/' then s[..|s| - 1]
    else
      var r := DropLastSegment(s[..|s| - 1]);
      if '/' in s[..|s| - 1] then
        assert s[..|s| - 1][..|r|] == s[..|r|];
        assert s[|r| + 1..] == s[..|s| - 1][|r| + 1..] + [s[|s| - 1]];
        r
      else
        assert forall c :: c in s ==> c in s[..|s| - 1] || c == s[|s| - 1] by {
          assert s == s[..|s| - 1] + [s[|s| - 1]];
        }
        s
  }

  /** The parts of `window.location` the loader reads. */
  datatype Location = Location(origin: string, pathname: string, href: string)

  /** The resolution of `rootDir`, relative to the directory of the page. */
  function ResolveRootDir(rootDir: string, loc: Location): (r: string)
    ensures StartsWith(rootDir, "http") ==> r == rootDir
  {
    if StartsWith(rootDir, "http") then rootDir
    else
      var current := DropLastSegment(loc.pathname);
      if StartsWith(rootDir, "/") then JoinPath([loc.origin, rootDir])
      else if StartsWith(rootDir, "./") then JoinPath([loc.origin, current, rootDir[2..]])
      else if StartsWith(rootDir, "../") then JoinPath([loc.origin, DropLastSegment(current), rootDir[3..]])
      else JoinPath([loc.origin, current, rootDir])
  }

  /** The resolution of `componentsDir`, relative to the resolved `rootDir` except for a leading `/`. */
  function ResolveComponentsDir(componentsDir: string, rootDir: string, origin: string): (r: string)
    ensures StartsWith(componentsDir, "http") ==> r == componentsDir
  {
    if StartsWith(componentsDir, "http") then componentsDir
    else if StartsWith(componentsDir, "/") then JoinPath([origin, componentsDir])
    else if StartsWith(componentsDir, "./") then JoinPath([rootDir, componentsDir[2..]])
    else if StartsWith(componentsDir, "../") then JoinPath([DropLastSegment(rootDir), componentsDir[3..]])
    else JoinPath([rootDir, componentsDir])
  }

  /** The configuration returned when loading fails: the defaults, with the page's directory as root. */
  function Fallback(loc: Location): (r: Fields)
    ensures r.Keys == DefaultConfig().Keys
  {
    var base := DropLastSegment(loc.href);
    DefaultConfig()["project" := JObj(DefaultProject()["rootDir" := JStr(base)]
                                      ["componentsDir" := JStr(JoinPath([base, "components"]))])]
  }

  /**
   * The response to the configuration request: the fetch rejects, the
   * status is not ok, or the body is there (`None` when `response.json()`
   * rejects).
   */
  datatype Response = FetchFailed | NotOk(status: int) | Body(json: Option<Json>)

  /** What `loadConfig` returns, and what `getConfig()` holds afterwards. */
  datatype Loaded = Loaded(returned: Fields, stored: Option<Fields>)

  /**
   * `loadConfig`. Once the merge has been assigned, a `rootDir` or
   * `componentsDir` that is not a string makes `startsWith` throw: the
   * defaults are returned while the merged, unresolved configuration stays
   * stored.
   */
  function LoadConfig(stored: Option<Fields>, response: Response, loc: Location): (r: Loaded)
    ensures r.returned == Fallback(loc) || Some(r.returned) == r.stored
    ensures !response.Body? ==> r == Loaded(Fallback(loc), stored)
  {
    match response
    case FetchFailed => Loaded(Fallback(loc), stored)
    case NotOk(_) => Loaded(Fallback(loc), stored)
    case Body(None) => Loaded(Fallback(loc), stored)
    case Body(Some(user)) =>
      match Merge(user)
      case None => Loaded(Fallback(loc), stored)
      case Some(merged) =>
        var project := MergedProject(user);
        var rootDir, componentsDir := project["rootDir"], project["componentsDir"];
        if !rootDir.JStr? || !componentsDir.JStr? then Loaded(Fallback(loc), Some(merged))
        else
          var root := ResolveRootDir(rootDir.s, loc);
          var components := ResolveComponentsDir(componentsDir.s, root, loc.origin);
          var resolved := merged["project" := JObj(project["rootDir" := JStr(root)]["componentsDir" := JStr(components)])];
          Loaded(resolved, Some(resolved))
  }

  // ---------------------------------------------------------------------------
  // Properties
  // ---------------------------------------------------------------------------

  /**
   * The merge is one level deep: a top-level user key other than `project`
   * and `server` replaces the default; every other key keeps its default.
   */
  lemma MergeTopLevel(user: Json, k: string)
    requires !user.JNull? && k != "project" && k != "server"
    ensures k in Merge(user).value <==> k in DefaultConfig() || k in Spread(user)
    ensures k in Spread(user) ==> Merge(user).value[k] == Spread(user)[k]
    ensures k !in Spread(user) && k in DefaultConfig() ==> Merge(user).value[k] == DefaultConfig()[k]
  {
  }

  /**
   * Within `project`, a field the user gives wins and a field the user
   * leaves out keeps its default; the user's own `project` value never
   * replaces the section as a whole.
   */
  lemma MergeProjectFields(user: Json, f: string)
    ensures f in MergedProject(user) <==> f in DefaultProject() || f in SectionOverrides(user, "project")
    ensures f in SectionOverrides(user, "project") ==> MergedProject(user)[f] == SectionOverrides(user, "project")[f]
    ensures f !in SectionOverrides(user, "project") && f in DefaultProject() ==> MergedProject(user)[f] == DefaultProject()[f]
  {
  }

  /** An object's `project` field that is itself an object contributes exactly its own fields. */
  lemma ProjectObjectOverrides(user: Json, fields: Fields)
    requires user.JObj? && "project" in user.fields && user.fields["project"] == JObj(fields)
    ensures SectionOverrides(user, "project") == fields
  {
  }

  /** With no user section the merged section is the default one. */
  lemma MergeWithoutSections(user: Json)
    requires user.JObj? && "project" !in user.fields && "server" !in user.fields
    ensures MergedProject(user) == DefaultProject()
    ensures MergedServer(user) == DefaultServer()
  {
    assert DefaultProject() + map[] == DefaultProject();
    assert DefaultServer() + map[] == DefaultServer();
  }

  /** `./x` and `x` name the same root directory, for any `x` not itself starting with a prefix the resolution tests. */
  lemma DotSlashRootIsRelative(x: string, loc: Location)
    requires !StartsWith(x, "http") && !StartsWith(x, "/") && !StartsWith(x, "./") && !StartsWith(x, "../")
    ensures ResolveRootDir("./" + x, loc) == ResolveRootDir(x, loc)
  {
    var d := "./" + x;
    assert d[2..] == x && d[..2] == "./";
    NotStartsWith(d, "http", 0);
    NotStartsWith(d, "/", 0);
  }

  /** With no `/` after the last one of a path, dropping its last segment removes it and the slash before it. */
  lemma DropLastSegmentOfAppend(dir: string, name: string)
    requires '/' !in name
    ensures DropLastSegment(dir + "/" + name) == dir
  {
    var s := dir + "/" + name;
    assert s[|dir|] == '/' && s[|dir|] in s;
    var r := DropLastSegment(s);
    forall k | |dir| < k < |s|
      ensures s[k] != '/'
    {
      assert s[k] == name[k - |dir| - 1] && name[k - |dir| - 1] in name;
    }
    forall k | |r| < k < |s|
      ensures s[k] != '/'
    {
      assert s[k] == s[|r| + 1..][k - |r| - 1];
    }
    assert |r| == |dir|;
    assert s[..|dir|] == dir;
  }

  /** Whenever the body is not usable, `loadConfig` returns the defaults and `getConfig()` is unchanged. */
  lemma FailureKeepsStored(stored: Option<Fields>, loc: Location)
    ensures LoadConfig(stored, FetchFailed, loc) == Loaded(Fallback(loc), stored)
    ensures LoadConfig(stored, Body(None), loc) == Loaded(Fallback(loc), stored)
    ensures LoadConfig(stored, Body(Some(JNull)), loc) == Loaded(Fallback(loc), stored)
  {
  }

  /** A `rootDir` that is not a string leaves the merged configuration stored, unresolved, while the defaults are returned. */
  lemma BadRootDirStoresMerge(stored: Option<Fields>, user: Json, loc: Location)
    requires !user.JNull? && !MergedProject(user)["rootDir"].JStr?
    ensures LoadConfig(stored, Body(Some(user)), loc) == Loaded(Fallback(loc), Merge(user))
  {
  }

  // ---------------------------------------------------------------------------
  // The resolved directories, branch by branch, for a page at
  // `scheme://host/dir/page`
  // ---------------------------------------------------------------------------

  /** The page `location.origin + location.pathname` is `scheme://host/dir/page`. */
  predicate PageIn(loc: Location, scheme: string, host: string, dir: string, page: string) {
    && IsOrigin(scheme, host) && loc.origin == scheme + "://" + host
    && IsCleanPath(dir) && '/' !in page && loc.pathname == "/" + dir + "/" + page
  }

  /** `rootDir` and `componentsDir` values that fall to the last, plain-relative branch. */
  predicate IsPlainRelative(x: string) {
    !StartsWith(x, "http") && !StartsWith(x, "/") && !StartsWith(x, "./") && !StartsWith(x, "../")
  }

  lemma SlashPrefixed(x: string)
    requires StartsWith(x, "/")
    ensures !StartsWith(x, "http")
  {
    NotStartsWith(x, "http", 0);
  }

  lemma {:induction false} StripOne(x: string)
    ensures StripAll([x]) == [StripSlashes(x)]
    ensures Join([StripSlashes(x)], "/") == StripSlashes(x)
  {
    StripAllCons(x, []);
    assert [x] + [] == [x];
  }

  lemma {:induction false} StripTwo(a: string, b: string)
    ensures Join(StripAll([a, b]), "/") == StripSlashes(a) + "/" + StripSlashes(b)
  {
    StripAllCons(a, [b]);
    StripOne(b);
    assert [a] + [b] == [a, b];
    JoinCons(StripSlashes(a), [StripSlashes(b)], "/");
  }

  /** The page's directory: `location.pathname` without its last segment. */
  lemma PageDirectory(loc: Location, scheme: string, host: string, dir: string, page: string)
    requires PageIn(loc, scheme, host, dir, page)
    ensures DropLastSegment(loc.pathname) == "/" + dir
    ensures IsPathPart("/" + dir) && StripSlashes("/" + dir) == dir
  {
    DropLastSegmentOfAppend("/" + dir, page);
    StripCleanPath(dir);
  }

  /** As written, a root `/x` lies on the origin, behind a doubled slash: `/app` gives `scheme://host//app`. */
  lemma RootFromDomain(x: string, loc: Location, scheme: string, host: string)
    requires IsOrigin(scheme, host) && loc.origin == scheme + "://" + host
    requires StartsWith(x, "/") && IsPathPart(x)
    ensures ResolveRootDir(x, loc) == loc.origin + "//" + StripSlashes(x)
  {
    SlashPrefixed(x);
    JoinPathAfterOrigin(scheme, host, [x]);
    StripOne(x);
  }

  lemma PlainRootBranch(x: string, loc: Location)
    requires IsPlainRelative(x)
    ensures ResolveRootDir(x, loc) == JoinPath([loc.origin, DropLastSegment(loc.pathname), x])
  {
  }

  lemma ParentRootBranch(x: string, loc: Location)
    ensures ResolveRootDir("../" + x, loc) == JoinPath([loc.origin, DropLastSegment(DropLastSegment(loc.pathname)), x])
  {
    var d := "../" + x;
    assert d[3..] == x && d[..3] == "../";
    NotStartsWith(d, "http", 0);
    NotStartsWith(d, "/", 0);
    NotStartsWith(d, "./", 1);
  }

  lemma DotRootBranch(loc: Location)
    ensures ResolveRootDir(".", loc) == JoinPath([loc.origin, DropLastSegment(loc.pathname), "."])
  {
    NotStartsWith(".", "http", 0);
    NotStartsWith(".", "/", 0);
    NotStartsWith(".", "./", 1);
    NotStartsWith(".", "../", 1);
  }

  /** `scheme://host` joined with `/dir` and a further part: `scheme://host//dir/x`. */
  lemma OriginDirPart(scheme: string, host: string, dir: string, x: string)
    requires IsOrigin(scheme, host) && IsCleanPath(dir) && IsPathPart(x)
    ensures JoinPath([scheme + "://" + host, "/" + dir, x]) == scheme + "://" + host + "//" + dir + "/" + StripSlashes(x)
  {
    var o := scheme + "://" + host;
    StripCleanPath(dir);
    JoinPathAfterOrigin(scheme, host, ["/" + dir, x]);
    StripTwo("/" + dir, x);
    assert [o] + ["/" + dir, x] == [o, "/" + dir, x];
    RegroupPlainRoot(o, dir, StripSlashes(x));
  }

  /** As written, a plain root `x`, or `./x`, lies in the page's directory: `scheme://host//dir/x`. */
  lemma RootBesidePage(x: string, loc: Location, scheme: string, host: string, dir: string, page: string)
    requires PageIn(loc, scheme, host, dir, page)
    requires IsPlainRelative(x) && IsPathPart(x)
    ensures ResolveRootDir(x, loc) == loc.origin + "//" + dir + "/" + StripSlashes(x)
    ensures ResolveRootDir("./" + x, loc) == ResolveRootDir(x, loc)
  {
    PageDirectory(loc, scheme, host, dir, page);
    PlainRootBranch(x, loc);
    OriginDirPart(scheme, host, dir, x);
    DotSlashRootIsRelative(x, loc);
  }

  /**
   * As written, `../x` lies in the parent of the page's directory: for a
   * page at `scheme://host/parent/dir/page` it gives `scheme://host//parent/x`.
   */
  lemma RootFromParent(x: string, loc: Location, scheme: string, host: string, parent: string, dir: string, page: string)
    requires IsOrigin(scheme, host) && loc.origin == scheme + "://" + host
    requires IsCleanPath(parent) && '/' !in dir && '/' !in page
    requires loc.pathname == "/" + parent + "/" + dir + "/" + page
    requires IsPathPart(x)
    ensures ResolveRootDir("../" + x, loc) == loc.origin + "//" + parent + "/" + StripSlashes(x)
  {
    ParentRootBranch(x, loc);
    DropLastSegmentOfAppend("/" + parent + "/" + dir, page);
    DropLastSegmentOfAppend("/" + parent, dir);
    OriginDirPart(scheme, host, parent, x);
  }

  /** As written, the default root `.` is the page's directory behind a doubled slash: `scheme://host//dir`. */
  lemma DefaultRootIsPageDirectory(loc: Location, scheme: string, host: string, dir: string, page: string)
    requires PageIn(loc, scheme, host, dir, page)
    ensures ResolveRootDir(".", loc) == loc.origin + "//" + dir
  {
    DotRootBranch(loc);
    PageDirectory(loc, scheme, host, dir, page);
    var o := loc.origin;
    JoinPathIgnoresFillers([o, "/" + dir], ".", []);
    assert [o, "/" + dir] + ["."] + [] == [o, "/" + dir, "."];
    assert [o, "/" + dir] + [] == [o] + ["/" + dir];
    JoinPathAfterOrigin(scheme, host, ["/" + dir]);
    StripOne("/" + dir);
  }

  /** For a page at the top of its site the default root is the origin with a trailing `/`. */
  lemma DefaultRootAtSiteRoot(loc: Location, scheme: string, host: string, page: string)
    requires IsOrigin(scheme, host) && loc.origin == scheme + "://" + host
    requires '/' !in page && loc.pathname == "/" + page
    ensures ResolveRootDir(".", loc) == loc.origin + "/"
  {
    DotRootBranch(loc);
    DropLastSegmentOfAppend("", page);
    assert "" + "/" + page == loc.pathname;
    var o := loc.origin;
    JoinPathIgnoresFillers([o], "", ["."]);
    JoinPathIgnoresFillers([o], ".", []);
    assert [o] + [""] + ["."] == [o, "", "."];
    assert [o] + ["."] == [o] + ["."] + [];
    assert [o] + [] == [o];
    OriginIsUrl(scheme, host);
    JoinPathOfUrlAlone(scheme, host);
  }

  /** As written, a components directory `/x` lies on the origin behind a doubled slash, whatever the root. */
  lemma ComponentsFromDomain(x: string, rootDir: string, scheme: string, host: string)
    requires IsOrigin(scheme, host)
    requires StartsWith(x, "/") && IsPathPart(x)
    ensures ResolveComponentsDir(x, rootDir, scheme + "://" + host) == scheme + "://" + host + "//" + StripSlashes(x)
  {
    SlashPrefixed(x);
    JoinPathAfterOrigin(scheme, host, [x]);
    StripOne(x);
  }

  /**
   * As written, a plain components directory `x`, or `./x`, under a root of
   * the resolved form `scheme://p//d`: the root's `//` is repaired and a new
   * one appears, giving `scheme://p/d//x`.
   */
  lemma ComponentsInsideRoot(x: string, scheme: string, p: string, d: string, origin: string)
    requires IsUrl(scheme, p) && IsCleanPath(d) && d[|d| - 1] != ':'
    requires IsPlainRelative(x) && IsPathPart(x)
    ensures ResolveComponentsDir(x, scheme + "://" + p + "//" + d, origin)
         == scheme + "://" + p + "/" + d + "//" + StripSlashes(x)
    ensures ResolveComponentsDir("./" + x, scheme + "://" + p + "//" + d, origin)
         == ResolveComponentsDir(x, scheme + "://" + p + "//" + d, origin)
  {
    var root := scheme + "://" + p + "//" + d;
    JoinPathAfterDoubledUrl(scheme, p, d, [x]);
    StripOne(x);
    assert [root] + [x] == [root, x];
    var dx := "./" + x;
    assert dx[2..] == x && dx[..2] == "./";
    NotStartsWith(dx, "http", 0);
    NotStartsWith(dx, "/", 0);
  }

  /** As written, a plain components directory under a root given as a URL `scheme://rest` is `scheme://rest//x`. */
  lemma ComponentsInsideUrlRoot(x: string, scheme: string, rest: string, origin: string)
    requires IsUrl(scheme, rest)
    requires IsPlainRelative(x) && IsPathPart(x)
    ensures ResolveComponentsDir(x, scheme + "://" + rest, origin) == scheme + "://" + rest + "//" + StripSlashes(x)
  {
    JoinPathAfterUrl(scheme, rest, [x]);
    StripOne(x);
  }

  /**
   * As written, `../x` lies beside the root's last segment: under a root
   * `scheme://p//d/e` it gives `scheme://p/d//x`.
   */
  lemma ParentComponentsBesideRoot(x: string, scheme: string, p: string, d: string, e: string, origin: string)
    requires IsUrl(scheme, p) && IsCleanPath(d) && d[|d| - 1] != ':' && '/' !in e
    requires IsPathPart(x)
    ensures ResolveComponentsDir("../" + x, scheme + "://" + p + "//" + d + "/" + e, origin)
         == scheme + "://" + p + "/" + d + "//" + StripSlashes(x)
  {
    var c := "../" + x;
    assert c[3..] == x && c[..3] == "../";
    NotStartsWith(c, "http", 0);
    NotStartsWith(c, "/", 0);
    NotStartsWith(c, "./", 1);
    DropLastSegmentOfAppend(scheme + "://" + p + "//" + d, e);
    JoinPathAfterDoubledUrl(scheme, p, d, [x]);
    StripOne(x);
  }

  lemma ComponentsIsPlainPart()
    ensures IsPathPart("components") && StripSlashes("components") == "components"
  {
    PlainWord("components");
  }

  /** `./components` is resolved as `components` is. */
  lemma DotComponentsBranch(root: string, origin: string)
    ensures ResolveComponentsDir("./components", root, origin) == ResolveComponentsDir("components", root, origin)
  {
    var d := "./components";
    NotStartsWith(d, "http", 0);
    NotStartsWith(d, "/", 0);
    assert d[..2] == "./";
    assert d[2..] == "components";
    ComponentsIsPlainRelative();
  }

  /**
   * As written, the default `./components` under the default root of a page
   * at `scheme://host/dir/page` is `scheme://host/dir//components`.
   */
  lemma DefaultComponentsInsideRoot(loc: Location, scheme: string, host: string, dir: string, page: string)
    requires PageIn(loc, scheme, host, dir, page) && dir[|dir| - 1] != ':'
    ensures ResolveComponentsDir("./components", ResolveRootDir(".", loc), loc.origin)
         == loc.origin + "/" + dir + "//components"
  {
    var c := "components";
    var root := loc.origin + "//" + dir;
    DefaultRootIsPageDirectory(loc, scheme, host, dir, page);
    OriginIsUrl(scheme, host);
    ComponentsIsPlainPart();
    ComponentsIsPlainRelative();
    ComponentsInsideRoot(c, scheme, host, dir, loc.origin);
    DotComponentsBranch(root, loc.origin);
    LiteralTail(loc.origin + "/" + dir);
  }

  lemma LiteralTail(a: string)
    ensures a + "//" + "components" == a + "//components"
  {
  }

  lemma ComponentsIsPlainRelative()
    ensures IsPlainRelative("components") && StripSlashes("components") == "components"
  {
    var c := "components";
    NotStartsWith(c, "http", 0);
    NotStartsWith(c, "/", 0);
    NotStartsWith(c, "./", 0);
    NotStartsWith(c, "../", 0);
    SlashFreeIsClean(c);
    StripCleanPath(c);
  }

  /**
   * As written, the fallback for a page at `scheme://host/dir/page` has the
   * page's directory as root and that directory's `//components` as
   * components directory.
   */
  lemma FallbackDirs(loc: Location, scheme: string, host: string, dir: string, page: string)
    requires IsOrigin(scheme, host) && IsCleanPath(dir) && dir[|dir| - 1] != ':' && '/' !in page
    requires loc.href == scheme + "://" + host + "/" + dir + "/" + page
    ensures var base := scheme + "://" + host + "/" + dir;
      Fallback(loc)["project"] == JObj(DefaultProject()["rootDir" := JStr(base)]["componentsDir" := JStr(base + "//components")])
  {
    var base := scheme + "://" + host + "/" + dir;
    DropLastSegmentOfAppend(base, page);
    FallbackComponents(scheme, host, dir);
  }

  lemma FallbackComponents(scheme: string, host: string, dir: string)
    requires IsOrigin(scheme, host) && IsCleanPath(dir) && dir[|dir| - 1] != ':'
    ensures var base := scheme + "://" + host + "/" + dir;
      JoinPath([base, "components"]) == base + "//components"
  {
    var base := scheme + "://" + host + "/" + dir;
    ComponentsIsPlainPart();
    JoinUnderPageDirectory(scheme, host, dir, "components");
    LiteralTail(base);
  }

  /** As written, a part joined onto `scheme://host/dir` follows a doubled slash. */
  lemma JoinUnderPageDirectory(scheme: string, host: string, dir: string, x: string)
    requires IsOrigin(scheme, host) && IsCleanPath(dir) && dir[|dir| - 1] != ':' && IsPathPart(x)
    ensures var base := scheme + "://" + host + "/" + dir;
      JoinPath([base, x]) == base + "//" + StripSlashes(x)
  {
    var rest := host + "/" + dir;
    var base := scheme + "://" + host + "/" + dir;
    assert base == scheme + "://" + rest;
    OriginIsUrl(scheme, host);
    NoDoubleSlashAcross(host, dir);
    assert rest[|rest| - 1] == dir[|dir| - 1];
    JoinPathAfterUrl(scheme, rest, [x]);
    StripOne(x);
    assert [base] + [x] == [base, x];
  }

  /**
   * A usable body: what `loadConfig` returns is what `getConfig()` holds,
   * and apart from the two resolved directories it is the merge itself.
   */
  lemma SuccessKeepsOtherFields(stored: Option<Fields>, user: Json, loc: Location)
    requires !user.JNull?
    requires MergedProject(user)["rootDir"].JStr? && MergedProject(user)["componentsDir"].JStr?
    ensures var r := LoadConfig(stored, Body(Some(user)), loc);
      && r.stored == Some(r.returned)
      && r.returned.Keys == Merge(user).value.Keys
      && (forall k :: k in r.returned && k != "project" ==> r.returned[k] == Merge(user).value[k])
      && r.returned["project"].JObj?
      && r.returned["project"].fields.Keys == MergedProject(user).Keys
      && (forall f :: f in MergedProject(user) && f != "rootDir" && f != "componentsDir" ==>
            r.returned["project"].fields[f] == MergedProject(user)[f])
      && r.returned["project"].fields["rootDir"].JStr?
      && r.returned["project"].fields["componentsDir"].JStr?
  {
    var x := MergedProject(user)["rootDir"].s;
    var c := MergedProject(user)["componentsDir"].s;
    var root := ResolveRootDir(x, loc);
    var components := ResolveComponentsDir(c, root, loc.origin);
    LoadConfigStoresResolved(stored, user, loc, x, c, root, components);
    ReplacedProjectFrame(Merge(user).value, MergedProject(user), root, components);
  }

  /** Replacing the two directories of a project section touches nothing else. */
  lemma ReplacedProjectFrame(config: Fields, project: Fields, root: string, components: string)
    requires "rootDir" in project && "componentsDir" in project
    ensures var p := project["rootDir" := JStr(root)]["componentsDir" := JStr(components)];
      var r := config["project" := JObj(p)];
      && r.Keys == config.Keys + {"project"}
      && (forall k :: k in r && k != "project" ==> r[k] == config[k])
      && r["project"] == JObj(p)
      && p.Keys == project.Keys
      && (forall f :: f in project && f != "rootDir" && f != "componentsDir" ==> p[f] == project[f])
      && p["rootDir"] == JStr(root) && p["componentsDir"] == JStr(components)
  {
  }

  /**
   * A configuration that keeps the default directories, loaded on a page at
   * `scheme://host/dir/page`: the stored and returned project has root
   * `scheme://host//dir` and components `scheme://host/dir//components`.
   */
  lemma LoadConfigDefaultDirs(stored: Option<Fields>, user: Json, loc: Location,
                              scheme: string, host: string, dir: string, page: string)
    requires !user.JNull?
    requires MergedProject(user)["rootDir"] == JStr(".")
    requires MergedProject(user)["componentsDir"] == JStr("./components")
    requires PageIn(loc, scheme, host, dir, page) && dir[|dir| - 1] != ':'
    ensures var r := LoadConfig(stored, Body(Some(user)), loc);
      && r.stored == Some(r.returned)
      && r.returned == Merge(user).value["project" := JObj(MergedProject(user)["rootDir" := JStr(loc.origin + "//" + dir)]
                                         ["componentsDir" := JStr(loc.origin + "/" + dir + "//components")])]
  {
    DefaultRootIsPageDirectory(loc, scheme, host, dir, page);
    DefaultComponentsInsideRoot(loc, scheme, host, dir, page);
  }

  /**
   * As written, a plain `rootDir` `x` and a plain `componentsDir` `c` on a
   * page at `scheme://host/dir/page`: the root is `scheme://host//dir/x` and
   * the components directory, joined onto it, `scheme://host/dir/x//c`.
   */
  lemma PlainDirsBesidePage(loc: Location, scheme: string, host: string, dir: string, page: string, x: string, c: string)
    requires PageIn(loc, scheme, host, dir, page)
    requires IsPlainRelative(x) && IsPathPart(x) && StripSlashes(x)[|StripSlashes(x)| - 1] != ':'
    requires IsPlainRelative(c) && IsPathPart(c)
    ensures ResolveRootDir(x, loc) == loc.origin + "//" + dir + "/" + StripSlashes(x)
    ensures ResolveComponentsDir(c, ResolveRootDir(x, loc), loc.origin)
         == loc.origin + "/" + dir + "/" + StripSlashes(x) + "//" + StripSlashes(c)
  {
    var x' := StripSlashes(x);
    var d := dir + "/" + x';
    RootBesidePage(x, loc, scheme, host, dir, page);
    OriginIsUrl(scheme, host);
    NoDoubleSlashAcross(dir, x');
    assert d[|d| - 1] == x'[|x'| - 1];
    RegroupPlainRoot(loc.origin, dir, x');
    ComponentsInsideRoot(c, scheme, host, d, loc.origin);
    RegroupPlainComponents(loc.origin, dir, x', StripSlashes(c));
  }

  lemma RegroupPlainRoot(o: string, dir: string, x: string)
    ensures o + "//" + dir + "/" + x == o + "//" + (dir + "/" + x)
  {
  }

  lemma RegroupPlainComponents(o: string, dir: string, x: string, c: string)
    ensures o + "/" + (dir + "/" + x) + "//" + c == o + "/" + dir + "/" + x + "//" + c
  {
  }

  /**
   * A configuration with plain directories `x` and `c`, loaded on a page at
   * `scheme://host/dir/page`: the stored and returned project has root
   * `scheme://host//dir/x` and components `scheme://host/dir/x//c`.
   */
  lemma LoadConfigPlainDirs(stored: Option<Fields>, user: Json, loc: Location,
                            scheme: string, host: string, dir: string, page: string, x: string, c: string)
    requires !user.JNull?
    requires MergedProject(user)["rootDir"] == JStr(x) && MergedProject(user)["componentsDir"] == JStr(c)
    requires PageIn(loc, scheme, host, dir, page)
    requires IsPlainRelative(x) && IsPathPart(x) && StripSlashes(x)[|StripSlashes(x)| - 1] != ':'
    requires IsPlainRelative(c) && IsPathPart(c)
    ensures var r := LoadConfig(stored, Body(Some(user)), loc);
      && r.stored == Some(r.returned)
      && r.returned
         == Merge(user).value["project" := JObj(MergedProject(user)["rootDir" := JStr(loc.origin + "//" + dir + "/" + StripSlashes(x))]
                   ["componentsDir" := JStr(loc.origin + "/" + dir + "/" + StripSlashes(x) + "//" + StripSlashes(c))])]
  {
    PlainDirsBesidePage(loc, scheme, host, dir, page, x, c);
    LoadConfigStoresResolved(stored, user, loc, x, c, loc.origin + "//" + dir + "/" + StripSlashes(x),
                             loc.origin + "/" + dir + "/" + StripSlashes(x) + "//" + StripSlashes(c));
  }

  /** A usable body with string directories: the project stored and returned carries their resolutions. */
  lemma LoadConfigStoresResolved(stored: Option<Fields>, user: Json, loc: Location, x: string, c: string,
                                 root: string, components: string)
    requires !user.JNull?
    requires MergedProject(user)["rootDir"] == JStr(x) && MergedProject(user)["componentsDir"] == JStr(c)
    requires ResolveRootDir(x, loc) == root && ResolveComponentsDir(c, root, loc.origin) == components
    ensures var r := LoadConfig(stored, Body(Some(user)), loc);
      && r.stored == Some(r.returned)
      && r.returned == Merge(user).value["project" := JObj(MergedProject(user)["rootDir" := JStr(root)]["componentsDir" := JStr(components)])]
  {
  }

  /**
   * A configuration with site-absolute directories `/x` and `/c`: both lie
   * on the origin behind a doubled slash, `scheme://host//x` and
   * `scheme://host//c`, wherever the page is.
   */
  lemma LoadConfigDomainDirs(stored: Option<Fields>, user: Json, loc: Location,
                             scheme: string, host: string, x: string, c: string)
    requires !user.JNull?
    requires MergedProject(user)["rootDir"] == JStr(x) && MergedProject(user)["componentsDir"] == JStr(c)
    requires IsOrigin(scheme, host) && loc.origin == scheme + "://" + host
    requires StartsWith(x, "/") && IsPathPart(x) && StartsWith(c, "/") && IsPathPart(c)
    ensures var r := LoadConfig(stored, Body(Some(user)), loc);
      && r.stored == Some(r.returned)
      && r.returned
         == Merge(user).value["project" := JObj(MergedProject(user)["rootDir" := JStr(loc.origin + "//" + StripSlashes(x))]
                   ["componentsDir" := JStr(loc.origin + "//" + StripSlashes(c))])]
  {
    RootFromDomain(x, loc, scheme, host);
    ComponentsFromDomain(c, ResolveRootDir(x, loc), scheme, host);
  }

  /** A configuration whose directories both start with `http` is stored and returned with them as given. */
  lemma LoadConfigAbsoluteDirs(stored: Option<Fields>, user: Json, loc: Location, x: string, c: string)
    requires !user.JNull?
    requires MergedProject(user)["rootDir"] == JStr(x) && MergedProject(user)["componentsDir"] == JStr(c)
    requires StartsWith(x, "http") && StartsWith(c, "http")
    ensures var r := LoadConfig(stored, Body(Some(user)), loc);
      && r.stored == Some(r.returned)
      && r.returned == Merge(user).value
  {
    var p := MergedProject(user);
    assert p["rootDir" := JStr(x)]["componentsDir" := JStr(c)] == p;
    assert Merge(user).value["project" := JObj(p)] == Merge(user).value;
  }
}

=== FILE: jrx.dfy ===
/**
 * The htmx extension of `src/jrx.ts`: JSON responses rendered through
 * `<template>` elements, with `hx-if="empty"` and `hx-if="error"` fallback
 * children, and the store of templates its event handlers fill and consult.
 *
 * An element is its markup split into opening tag, inner HTML and closing
 * tag, so that `outerHTML` and `innerHTML` can be told apart.
 */
module Jrx {
  import opened Wrappers
  import opened Text
  import opened JsonValues
  import opened Placeholders

  /** An element: its opening tag (with its attributes), inner HTML, closing tag, and its `hx-if` attribute. */
  datatype Node = Node(openTag: string, inner: string, closeTag: string, hxIf: Option<string>)
  {
    /** `outerHTML`. */
    function Outer(): string { openTag + (inner + closeTag) }
  }

  /** A `<template>` element, seen through the element children of its content. */
  datatype Template = Template(children: seq<Node>)

  /** The serialisation of a run of sibling elements. */
  function Outers(nodes: seq<Node>): string
    decreases |nodes|
  {
    if |nodes| == 0 then "" else nodes[0].Outer() + Outers(nodes[1..])
  }

  // ---------------------------------------------------------------------------
  // Partition of the template's children
  // ---------------------------------------------------------------------------

  datatype Bucket = EmptyBucket | ErrorBucket | MainBucket

  /** `hxIf && fallbackKeys.includes(hxIf)`: only `empty` and `error` divert a child. */
  function BucketOf(n: Node): Bucket {
    if n.hxIf == Some("empty") then EmptyBucket
    else if n.hxIf == Some("error") then ErrorBucket
    else MainBucket
  }

  /** The children that land in bucket `b`, in document order. */
  function InBucket(children: seq<Node>, b: Bucket): seq<Node>
    decreases |children|
  {
    if |children| == 0 then []
    else
      var last := children[|children| - 1];
      InBucket(children[..|children| - 1], b) + (if BucketOf(last) == b then [last] else [])
  }

  datatype Buckets = Buckets(empty: seq<Node>, error: seq<Node>, main: seq<Node>)

  /** The three buckets the extraction loop fills. */
  function Partition(children: seq<Node>): Buckets {
    Buckets(InBucket(children, EmptyBucket), InBucket(children, ErrorBucket), InBucket(children, MainBucket))
  }

  /** The extraction loop itself: one pass, each child pushed onto the end of its bucket. */
  method PartitionChildren(children: seq<Node>) returns (b: Buckets)
    ensures b == Partition(children)
  {
    var empty, error, main := [], [], [];
    for i := 0 to |children|
      invariant empty == InBucket(children[..i], EmptyBucket)
      invariant error == InBucket(children[..i], ErrorBucket)
      invariant main == InBucket(children[..i], MainBucket)
    {
      var child := children[i];
      assert children[..i + 1][..i] == children[..i];
      if child.hxIf == Some("empty") {
        empty := empty + [child];
      } else if child.hxIf == Some("error") {
        error := error + [child];
      } else {
        main := main + [child];
      }
    }
    assert children[..|children|] == children;
    b := Buckets(empty, error, main);
  }

  // ---------------------------------------------------------------------------
  // Classification of the data
  // ---------------------------------------------------------------------------

  datatype DataKind = EmptyData | ErrorData | NormalData

  /**
   * `isEmpty` (an array of length zero) is tested first, then `isError`
   * (`typeof data === 'object' && data !== null && data.error`). An array
   * has no `error` property, so only an object can be an error.
   */
  function Classify(data: Json): (k: DataKind)
    ensures k == EmptyData <==> data == JArr([])
    ensures k == ErrorData <==> data.JObj? && "error" in data.fields && Truthy(data.fields["error"])
  {
    if data.JArr? && |data.items| == 0 then EmptyData
    else if (data.JObj? || data.JArr?) && Property(data, "error").Some? && Truthy(Property(data, "error").value) then
      assert data.JArr? ==> !IsDigit("error"[0]);
      ErrorData
    else NormalData
  }

  // ---------------------------------------------------------------------------
  // Rendering
  // ---------------------------------------------------------------------------

  /** The replacer both renderers of this file use. */
  function ValueOf(data: Json): string -> string {
    path => JrxValueText(data, path)
  }

  /** `applyTemplate`: the placeholders of the element's `outerHTML`, attributes included. */
  function ApplyTemplate(n: Node, data: Json): string {
    Interpolate(n.Outer(), ValueOf(data))
  }

  /** `renderNodes`: every main element applied to the same data, joined with nothing. */
  function RenderNodes(nodes: seq<Node>, data: Json): string
    decreases |nodes|
  {
    if |nodes| == 0 then "" else ApplyTemplate(nodes[0], data) + RenderNodes(nodes[1..], data)
  }

  /** One rendering of the main elements per array item, in item order. */
  function RenderItems(nodes: seq<Node>, items: seq<Json>): string
    decreases |items|
  {
    if |items| == 0 then "" else RenderNodes(nodes, items[0]) + RenderItems(nodes, items[1..])
  }

  /**
   * What `renderJRX` leaves in the target: nothing happens without an inner
   * template; otherwise the target's content is replaced by `html`, and the
   * hidden copy of the template is appended after it when `templateKept`.
   */
  datatype Rendering = NoTemplate | Rendered(html: string, templateKept: bool)

  /** `renderJRX`. */
  function RenderJrx(template: Option<Template>, data: Json): (r: Rendering)
    ensures r.NoTemplate? <==> template.None?
    ensures r.Rendered? ==> (r.templateKept <==> Classify(data) == NormalData)
  {
    match template
    case None => NoTemplate
    case Some(t) =>
      var b := Partition(t.children);
      match Classify(data)
      case EmptyData => Rendered(Outers(b.empty), false)
      case ErrorData => Rendered(Outers(b.error), false)
      case NormalData =>
        if data.JArr? then Rendered(RenderItems(b.main, data.items), true)
        else Rendered(RenderNodes(b.main, data), true)
  }

  /** A clone of `n` whose `innerHTML` has its placeholders replaced; its own tags are left alone. */
  function Fill(n: Node, data: Json): (r: Node)
    ensures r.openTag == n.openTag && r.closeTag == n.closeTag && r.hxIf == n.hxIf
  {
    n.(inner := Interpolate(n.inner, ValueOf(data)))
  }

  /** Every main element filled from the same data. */
  function FillAll(nodes: seq<Node>, data: Json): seq<Node>
    decreases |nodes|
  {
    if |nodes| == 0 then [] else [Fill(nodes[0], data)] + FillAll(nodes[1..], data)
  }

  /** For each item in turn, every main element filled from that item. */
  function FillEach(nodes: seq<Node>, items: seq<Json>): seq<Node>
    decreases |items|
  {
    if |items| == 0 then [] else FillAll(nodes, items[0]) + FillEach(nodes, items[1..])
  }

  /** `processTemplateContent`: the children of the fragment it returns. */
  function ProcessTemplateContent(children: seq<Node>, data: Json): seq<Node> {
    var b := Partition(children);
    match Classify(data)
    case EmptyData => b.empty
    case ErrorData => b.error
    case NormalData => if data.JArr? then FillEach(b.main, data.items) else FillAll(b.main, data)
  }

  // ---------------------------------------------------------------------------
  // The template store and the event handlers
  // ---------------------------------------------------------------------------

  /** A `<template>` of the document with its `name`, `data-for` and `id` attributes. */
  datatype TemplateElement = TemplateElement(name: Option<string>, dataFor: Option<string>, id: Option<string>, template: Template)

  datatype Attribute = NameAttribute | DataForAttribute | IdAttribute

  function AttributeOf(e: TemplateElement, a: Attribute): Option<string> {
    match a
    case NameAttribute => e.name
    case DataForAttribute => e.dataFor
    case IdAttribute => e.id
  }

  /** `document.querySelector('template[a="v"]')`: the first such template in document order. */
  function FirstWith(doc: seq<TemplateElement>, a: Attribute, v: string): (r: Option<nat>)
    ensures r.Some? ==> r.value < |doc| && AttributeOf(doc[r.value], a) == Some(v)
    ensures r.Some? ==> forall i :: 0 <= i < r.value ==> AttributeOf(doc[i], a) != Some(v)
    ensures r.None? ==> forall i :: 0 <= i < |doc| ==> AttributeOf(doc[i], a) != Some(v)
    decreases |doc|
  {
    if |doc| == 0 then None
    else if AttributeOf(doc[0], a) == Some(v) then Some(0)
    else match FirstWith(doc[1..], a, v)
      case Some(i) => Some(i + 1)
      case None => None
  }

  /** The template `FirstWith` finds, if any. */
  function Query(doc: seq<TemplateElement>, a: Attribute, v: string): Option<Template> {
    match FirstWith(doc, a, v)
    case Some(i) => Some(doc[i].template)
    case None => None
  }

  /** The last template in document order carrying `a="v"`. */
  function LastWith(doc: seq<TemplateElement>, a: Attribute, v: string): (r: Option<nat>)
    ensures r.Some? ==> r.value < |doc| && AttributeOf(doc[r.value], a) == Some(v)
    ensures r.Some? ==> forall i :: r.value < i < |doc| ==> AttributeOf(doc[i], a) != Some(v)
    ensures r.None? ==> forall i :: 0 <= i < |doc| ==> AttributeOf(doc[i], a) != Some(v)
    decreases |doc|
  {
    if |doc| == 0 then None
    else if AttributeOf(doc[|doc| - 1], a) == Some(v) then Some(|doc| - 1)
    else LastWith(doc[..|doc| - 1], a, v)
  }

  /** `templateStore`: templates by key; entries are only ever added or overwritten. */
  type Store = map<string, Template>

  /** One `querySelectorAll('template[a]').forEach` pass: each non-empty value stores its template, later ones winning. */
  function ScanPass(store: Store, doc: seq<TemplateElement>, a: Attribute): Store
    decreases |doc|
  {
    if |doc| == 0 then store
    else
      var s := ScanPass(store, doc[..|doc| - 1], a);
      var e := doc[|doc| - 1];
      match AttributeOf(e, a)
      case Some(v) => if v != "" then s[v := e.template] else s
      case None => s
  }

  /** The `DOMContentLoaded` handler: nothing without htmx; otherwise the name, data-for and id passes in that order. */
  function Startup(doc: seq<TemplateElement>, htmxLoaded: bool): Store {
    if !htmxLoaded then map[]
    else ScanPass(ScanPass(ScanPass(map[], doc, NameAttribute), doc, DataForAttribute), doc, IdAttribute)
  }

  /** One scan pass as the loop that performs it. */
  method ScanTemplates(store: Store, doc: seq<TemplateElement>, a: Attribute) returns (r: Store)
    ensures r == ScanPass(store, doc, a)
  {
    r := store;
    for i := 0 to |doc|
      invariant r == ScanPass(store, doc[..i], a)
    {
      assert doc[..i + 1][..i] == doc[..i];
      var v := AttributeOf(doc[i], a);
      if v.Some? && v.value != "" {
        r := r[v.value := doc[i].template];
      }
    }
    assert doc[..|doc|] == doc;
  }

  /**
   * The element an htmx event concerns: a `<template>` itself, or another
   * element with the template found inside it by `querySelector('template')`.
   * An empty `id` stands for an element without one.
   */
  datatype Target =
    | TemplateTarget(id: string, self: Template)
    | ElementTarget(id: string, inline: Option<Template>)

  /** `target.querySelector('template')`: a template's children live in its content, out of reach of the query. */
  function InlineTemplate(t: Target): Option<Template> {
    match t
    case TemplateTarget(_, _) => None
    case ElementTarget(_, inline) => inline
  }

  /** The first present option of a lookup order. */
  function FirstPresent(options: seq<Option<Template>>): (r: Option<Template>)
    ensures r.Some? <==> exists i :: 0 <= i < |options| && options[i].Some?
    ensures r.Some? ==> r in options
    decreases |options|
  {
    if |options| == 0 then None
    else if options[0].Some? then options[0]
    else
      var r := FirstPresent(options[1..]);
      assert forall i :: 1 <= i < |options| ==> options[i] == options[1..][i - 1];
      r
  }

  lemma FirstPresentStep(head: Option<Template>, rest: seq<Option<Template>>)
    ensures FirstPresent([head] + rest) == if head.Some? then head else FirstPresent(rest)
  {
    assert ([head] + rest)[1..] == rest;
  }

  /** What `htmx:beforeRequest` looks for: the inline template, then `name=id`, then `data-for=id`. */
  function RequestTemplate(doc: seq<TemplateElement>, t: Target): Option<Template> {
    if t.id == "" then None
    else FirstPresent([InlineTemplate(t), Query(doc, NameAttribute, t.id), Query(doc, DataForAttribute, t.id)])
  }

  /** `htmx:beforeRequest`: the template found is stored under the element's id; no other key changes. */
  function BeforeRequest(store: Store, doc: seq<TemplateElement>, t: Target): (r: Store)
    ensures forall k :: k != t.id ==> (k in r <==> k in store) && (k in store ==> r[k] == store[k])
    ensures t.id in r <==> t.id in store || RequestTemplate(doc, t).Some?
    ensures RequestTemplate(doc, t).Some? ==> t.id in r && r[t.id] == RequestTemplate(doc, t).value
    ensures RequestTemplate(doc, t).None? ==> r == store
  {
    match RequestTemplate(doc, t)
    case Some(tpl) => store[t.id := tpl]
    case None => store
  }

  /** The template `htmx:afterOnLoad` renders with: the target itself, or by id the inline, named, stored or referenced one. */
  function ChooseTemplate(store: Store, doc: seq<TemplateElement>, t: Target): Option<Template> {
    match t
    case TemplateTarget(_, self) => Some(self)
    case ElementTarget(id, inline) =>
      if id == "" then None
      else FirstPresent([inline, Query(doc, NameAttribute, id),
                         if id in store then Some(store[id]) else None,
                         Query(doc, DataForAttribute, id)])
  }

  /**
   * The outcome of `htmx:afterOnLoad`. `RenderedInto` is the only outcome
   * that sets `shouldSwap` to false: the children are rendered into the
   * target, or into a new container placed before a template target.
   */
  datatype LoadOutcome =
    | NotJson
    | ParseFailed
    | LeftToHtmx
    | RenderedInto(nodes: seq<Node>, newContainer: bool)

  /** `shouldSwap` after the handler. */
  predicate ShouldSwap(o: LoadOutcome) { !o.RenderedInto? }

  /**
   * `htmx:afterOnLoad`, with the `Content-Type` header (`None` when absent)
   * and the response parsed by `JSON.parse` (`None` when it throws).
   */
  function AfterOnLoad(store: Store, doc: seq<TemplateElement>, t: Target, contentType: Option<string>, body: Option<Json>): (r: LoadOutcome)
    ensures !ShouldSwap(r) <==>
      contentType.Some? && Contains(contentType.value, "application/json") && body.Some? && ChooseTemplate(store, doc, t).Some?
  {
    if contentType.None? || !Contains(contentType.value, "application/json") then NotJson
    else match body
      case None => ParseFailed
      case Some(data) =>
        match ChooseTemplate(store, doc, t)
        case None => LeftToHtmx
        case Some(tpl) => RenderedInto(ProcessTemplateContent(tpl.children, data), t.TemplateTarget?)
  }

  // ---------------------------------------------------------------------------
  // Properties
  // ---------------------------------------------------------------------------

  /** Each bucket holds only children of its kind, each taken from the children. */
  lemma {:induction false} InBucketMembers(children: seq<Node>, b: Bucket)
    ensures forall i :: 0 <= i < |InBucket(children, b)| ==>
      BucketOf(InBucket(children, b)[i]) == b && InBucket(children, b)[i] in children
    decreases |children|
  {
    if |children| > 0 {
      var prefix := children[..|children| - 1];
      InBucketMembers(prefix, b);
      assert forall n :: n in prefix ==> n in children;
    }
  }

  /** Adding a child to the end adds it to exactly one bucket. */
  lemma PartitionStep(prefix: seq<Node>, x: Node)
    ensures var p := Partition(prefix);
      var q := Partition(prefix + [x]);
      multiset(q.empty) + multiset(q.error) + multiset(q.main)
        == multiset(p.empty) + multiset(p.error) + multiset(p.main) + multiset{x}
  {
    var s := prefix + [x];
    assert s[..|s| - 1] == prefix && s[|s| - 1] == x;
  }

  /** Every child lands in exactly one bucket, so the buckets together are the children. */
  lemma {:induction false} PartitionIsExact(children: seq<Node>)
    ensures var b := Partition(children);
      multiset(b.empty) + multiset(b.error) + multiset(b.main) == multiset(children)
    decreases |children|
  {
    if |children| > 0 {
      var prefix := children[..|children| - 1];
      PartitionIsExact(prefix);
      PartitionStep(prefix, children[|children| - 1]);
      assert children == prefix + [children[|children| - 1]];
    }
  }

  /** Each bucket holds only children of its own kind. */
  lemma PartitionKinds(children: seq<Node>)
    ensures var b := Partition(children);
      (forall i :: 0 <= i < |b.empty| ==> b.empty[i].hxIf == Some("empty"))
      && (forall i :: 0 <= i < |b.error| ==> b.error[i].hxIf == Some("error"))
      && (forall i :: 0 <= i < |b.main| ==> b.main[i].hxIf !in {Some("empty"), Some("error")})
  {
    InBucketMembers(children, EmptyBucket);
    InBucketMembers(children, ErrorBucket);
    InBucketMembers(children, MainBucket);
  }

  /** Serialising two runs of siblings is serialising each. */
  lemma {:induction false} OutersAppend(a: seq<Node>, b: seq<Node>)
    ensures Outers(a + b) == Outers(a) + Outers(b)
    decreases |a|
  {
    if |a| == 0 {
      assert a + b == b;
    } else {
      assert (a + b)[1..] == a[1..] + b;
      OutersAppend(a[1..], b);
    }
  }

  /** Rendering the items of two arrays one after the other is rendering their concatenation. */
  lemma {:induction false} RenderItemsAppend(nodes: seq<Node>, a: seq<Json>, b: seq<Json>)
    ensures RenderItems(nodes, a + b) == RenderItems(nodes, a) + RenderItems(nodes, b)
    decreases |a|
  {
    if |a| == 0 {
      assert a + b == b;
    } else {
      assert (a + b)[1..] == a[1..] + b;
      RenderItemsAppend(nodes, a[1..], b);
    }
  }

  /** A normal, non-array value renders exactly as the one-item array holding it. */
  lemma SingleItemArray(t: Template, x: Json)
    requires Classify(x) == NormalData && !x.JArr?
    ensures RenderJrx(Some(t), JArr([x])) == RenderJrx(Some(t), x)
  {
    var main := Partition(t.children).main;
    assert [x][1..] == [];
    assert RenderItems(main, [x]) == RenderNodes(main, x) + RenderItems(main, []);
    assert RenderNodes(main, x) + "" == RenderNodes(main, x);
  }

  /**
   * When an element's own tags hold no placeholder, applying the template to
   * its `outerHTML` (as `renderJRX` does) gives the markup of the element
   * whose `innerHTML` was filled (as `processTemplateContent` does).
   */
  lemma ApplyTemplateAsFill(n: Node, data: Json)
    requires '{' !in n.openTag && '{' !in n.closeTag && '}' !in n.closeTag
    ensures ApplyTemplate(n, data) == Fill(n, data).Outer()
  {
    InterpolatePlainPrefix(n.openTag, n.inner + n.closeTag, ValueOf(data));
    InterpolateBraceFreeSuffix(n.inner, n.closeTag, ValueOf(data));
  }

  /** Elements whose own tags hold no placeholder. */
  predicate PlainTags(nodes: seq<Node>) {
    forall i :: 0 <= i < |nodes| ==>
      '{' !in nodes[i].openTag && '{' !in nodes[i].closeTag && '}' !in nodes[i].closeTag
  }

  lemma {:induction false} RenderNodesAsFill(nodes: seq<Node>, data: Json)
    requires PlainTags(nodes)
    ensures RenderNodes(nodes, data) == Outers(FillAll(nodes, data))
    decreases |nodes|
  {
    if |nodes| > 0 {
      ApplyTemplateAsFill(nodes[0], data);
      RenderNodesAsFill(nodes[1..], data);
      assert ([Fill(nodes[0], data)] + FillAll(nodes[1..], data))[1..] == FillAll(nodes[1..], data);
    }
  }

  lemma {:induction false} RenderItemsAsFill(nodes: seq<Node>, items: seq<Json>)
    requires PlainTags(nodes)
    ensures RenderItems(nodes, items) == Outers(FillEach(nodes, items))
    decreases |items|
  {
    if |items| > 0 {
      RenderNodesAsFill(nodes, items[0]);
      RenderItemsAsFill(nodes, items[1..]);
      OutersAppend(FillAll(nodes, items[0]), FillEach(nodes, items[1..]));
    }
  }

  /**
   * `renderJRX` and `processTemplateContent` agree on every kind of data as
   * long as no child's own tags hold a placeholder: the markup `renderJRX`
   * produces is the serialisation of the children `processTemplateContent`
   * returns.
   */
  lemma RenderJrxAgreesWithProcess(t: Template, data: Json)
    requires PlainTags(t.children)
    ensures RenderJrx(Some(t), data).html == Outers(ProcessTemplateContent(t.children, data))
  {
    var main := Partition(t.children).main;
    InBucketMembers(t.children, MainBucket);
    assert PlainTags(main) by {
      forall i | 0 <= i < |main|
        ensures '{' !in main[i].openTag && '{' !in main[i].closeTag && '}' !in main[i].closeTag
      {
        var j :| 0 <= j < |t.children| && t.children[j] == main[i];
      }
    }
    if data.JArr? {
      RenderItemsAsFill(main, data.items);
    } else {
      RenderNodesAsFill(main, data);
    }
  }

  lemma {:induction false} FillAllLayout(nodes: seq<Node>, data: Json)
    ensures |FillAll(nodes, data)| == |nodes|
    ensures forall j :: 0 <= j < |nodes| ==> FillAll(nodes, data)[j] == Fill(nodes[j], data)
    decreases |nodes|
  {
    if |nodes| > 0 {
      FillAllLayout(nodes[1..], data);
    }
  }

  /** The length of the array layout: one copy of the main elements per item. */
  lemma {:induction false} FillEachLength(nodes: seq<Node>, items: seq<Json>)
    ensures |FillEach(nodes, items)| == |items| * |nodes|
    decreases |items|
  {
    if |items| > 0 {
      FillAllLayout(nodes, items[0]);
      FillEachLength(nodes, items[1..]);
      MulSucc(|items| - 1, |nodes|);
    }
  }

  lemma MulSucc(k: nat, m: nat)
    ensures (k + 1) * m == m + k * m
  {
  }

  /** Filling from the items of two arrays in turn is filling from their concatenation. */
  lemma {:induction false} FillEachAppend(nodes: seq<Node>, a: seq<Json>, b: seq<Json>)
    ensures FillEach(nodes, a + b) == FillEach(nodes, a) + FillEach(nodes, b)
    decreases |a|
  {
    if |a| == 0 {
      assert a + b == b;
    } else {
      assert (a + b)[1..] == a[1..] + b;
      FillEachAppend(nodes, a[1..], b);
    }
  }

  /**
   * The array layout is item-major: the `j`-th main element filled from the
   * `k`-th item sits at position `k * |nodes| + j`.
   */
  lemma FillEachLayout(nodes: seq<Node>, items: seq<Json>, k: nat, j: nat)
    requires k < |items| && j < |nodes|
    ensures k * |nodes| + j < |FillEach(nodes, items)|
    ensures FillEach(nodes, items)[k * |nodes| + j] == Fill(nodes[j], items[k])
  {
    var before := items[..k];
    var after := items[k + 1..];
    assert items == before + ([items[k]] + after);
    assert ([items[k]] + after)[1..] == after;
    FillEachAppend(nodes, before, [items[k]] + after);
    FillEachLength(nodes, before);
    FillAllLayout(nodes, items[k]);
  }

  /** Each pass of the startup scan stores, under a non-empty key, the last template carrying it. */
  lemma {:induction false} ScanPassLookup(store: Store, doc: seq<TemplateElement>, a: Attribute, k: string)
    ensures k in ScanPass(store, doc, a) <==> k in store || (k != "" && LastWith(doc, a, k).Some?)
    ensures k != "" && LastWith(doc, a, k).Some? ==>
      ScanPass(store, doc, a)[k] == doc[LastWith(doc, a, k).value].template
    ensures (k == "" || LastWith(doc, a, k).None?) && k in store ==> ScanPass(store, doc, a)[k] == store[k]
    decreases |doc|
  {
    if |doc| > 0 {
      ScanPassLookup(store, doc[..|doc| - 1], a, k);
    }
  }

  /**
   * After startup a key holds the last template with that `id`; failing
   * that, the last with that `data-for`; failing that, the last with that
   * `name`. Without htmx nothing is stored.
   */
  lemma StartupPriority(doc: seq<TemplateElement>, htmxLoaded: bool, k: string)
    requires k != ""
    ensures !htmxLoaded ==> k !in Startup(doc, htmxLoaded)
    ensures htmxLoaded ==> (k in Startup(doc, htmxLoaded) <==>
      LastWith(doc, IdAttribute, k).Some? || LastWith(doc, DataForAttribute, k).Some? || LastWith(doc, NameAttribute, k).Some?)
    ensures htmxLoaded && LastWith(doc, IdAttribute, k).Some? ==>
      Startup(doc, htmxLoaded)[k] == doc[LastWith(doc, IdAttribute, k).value].template
    ensures htmxLoaded && LastWith(doc, IdAttribute, k).None? && LastWith(doc, DataForAttribute, k).Some? ==>
      Startup(doc, htmxLoaded)[k] == doc[LastWith(doc, DataForAttribute, k).value].template
    ensures (htmxLoaded && LastWith(doc, IdAttribute, k).None? && LastWith(doc, DataForAttribute, k).None?
             && LastWith(doc, NameAttribute, k).Some?) ==>
      Startup(doc, htmxLoaded)[k] == doc[LastWith(doc, NameAttribute, k).value].template
  {
    var s1 := ScanPass(map[], doc, NameAttribute);
    var s2 := ScanPass(s1, doc, DataForAttribute);
    ScanPassLookup(map[], doc, NameAttribute, k);
    ScanPassLookup(s1, doc, DataForAttribute, k);
    ScanPassLookup(s2, doc, IdAttribute, k);
  }

  /**
   * For an element target, the template `beforeRequest` stores is the one
   * `afterOnLoad` then renders with: an inline or named template is found
   * again directly, a referenced one through the store, which outranks
   * `data-for`. One `Target` stands for both the element that sent the
   * request (`evt.detail.elt`) and the element the response is swapped into
   * (`evt.detail.target`): the lemma is about the requests where the two
   * coincide, which is not the case for a template-handler proxy.
   */
  lemma RequestThenChoose(store: Store, doc: seq<TemplateElement>, t: Target)
    requires t.ElementTarget? && RequestTemplate(doc, t).Some?
    ensures ChooseTemplate(BeforeRequest(store, doc, t), doc, t) == RequestTemplate(doc, t)
  {
    var stored := BeforeRequest(store, doc, t);
    var named := Query(doc, NameAttribute, t.id);
    var referenced := Query(doc, DataForAttribute, t.id);
    var found := RequestTemplate(doc, t);
    assert t.id in stored && stored[t.id] == found.value;
    FirstPresentStep(t.inline, [named, referenced]);
    FirstPresentStep(named, [referenced]);
    FirstPresentStep(t.inline, [named, Some(found.value), referenced]);
    FirstPresentStep(named, [Some(found.value), referenced]);
    FirstPresentStep(Some(found.value), [referenced]);
  }

  /**
   * The store is what brings an inline template back: once a render has
   * replaced the target's content (and the inline template with it), the
   * next request stores nothing new and the stored template is used again.
   * As above, the requesting element and the swap target are taken to be
   * the same element.
   */
  lemma StoreRestoresInlineTemplate(store: Store, doc: seq<TemplateElement>, id: string, tpl: Template)
    requires id != ""
    requires Query(doc, NameAttribute, id).None? && Query(doc, DataForAttribute, id).None?
    ensures var first := BeforeRequest(store, doc, ElementTarget(id, Some(tpl)));
      var second := BeforeRequest(first, doc, ElementTarget(id, None));
      ChooseTemplate(second, doc, ElementTarget(id, None)) == Some(tpl)
  {
    var first := BeforeRequest(store, doc, ElementTarget(id, Some(tpl)));
    FirstPresentStep(Some(tpl), [None, None]);
    FirstPresentStep(None, [None]);
    FirstPresentStep(None, []);
    assert RequestTemplate(doc, ElementTarget(id, None)) == None;
    FirstPresentStep(None, [None, Some(tpl), None]);
    FirstPresentStep(None, [Some(tpl), None]);
    FirstPresentStep(Some(tpl), [None]);
  }

  /** A parsed JSON response to a template target is always rendered, into a new container. */
  lemma TemplateTargetRenders(store: Store, doc: seq<TemplateElement>, id: string, self: Template, contentType: string, data: Json)
    requires Contains(contentType, "application/json")
    ensures AfterOnLoad(store, doc, TemplateTarget(id, self), Some(contentType), Some(data))
         == RenderedInto(ProcessTemplateContent(self.children, data), true)
  {
  }
}

=== FILE: json.dfy ===
/**
 * JSON values as the renderers and the configuration loader receive them
 * from `JSON.parse`, with the three JavaScript operations the code applies
 * to them: truthiness, `value[key]` and `String(value)`.
 */
module JsonValues {
  import opened Wrappers
  import opened Text

  /**
   * A parsed JSON value. A number is carried as the text `String(n)` prints
   * for it, which is all the modelled code ever observes of a number besides
   * its truthiness.
   */
  datatype Json =
    | JNull
    | JBool(b: bool)
    | JNum(shown: string)
    | JStr(s: string)
    | JArr(items: seq<Json>)
    | JObj(fields: map<string, Json>)

  /** JavaScript's `ToBoolean`; `String(0)` and `String(-0)` are both `"0"`, and JSON has no NaN. */
  predicate Truthy(v: Json) {
    match v
    case JNull => false
    case JBool(b) => b
    case JNum(shown) => shown != "0"
    case JStr(s) => s != ""
    case JArr(_) => true
    case JObj(_) => true
  }

  predicate IsDigit(c: char) { '0' <= c <= '9' }

  function DigitChar(d: nat): (c: char)
    requires d < 10
    ensures IsDigit(c)
  {
    ('0' as int + d) as char
  }

  function DigitValue(c: char): (d: nat)
    requires IsDigit(c)
    ensures d < 10 && DigitChar(d) == c
  {
    c as int - '0' as int
  }

  /** The value of a string of decimal digits. */
  function DigitsValue(k: string): nat
    requires forall i :: 0 <= i < |k| ==> IsDigit(k[i])
    decreases |k|
  {
    if |k| == 0 then 0 else 10 * DigitsValue(k[..|k| - 1]) + DigitValue(k[|k| - 1])
  }

  /** A canonical array index: digits without a leading zero (or `"0"` itself). */
  predicate IsIndexKey(k: string) {
    |k| >= 1 && (forall i :: 0 <= i < |k| ==> IsDigit(k[i])) && (k[0] != '0' || |k| == 1)
  }

  /**
   * The decimal numeral of `n`, as `String(n)` prints a small non-negative
   * integer: a canonical index key that reads back as `n`.
   */
  function NatToString(n: nat): (r: string)
    ensures IsIndexKey(r) && DigitsValue(r) == n
    decreases n
  {
    if n < 10 then
      var r := [DigitChar(n)];
      assert r[..0] == [];
      r
    else
      var p := NatToString(n / 10);
      DigitsValueAppend(p, n % 10);
      p + [DigitChar(n % 10)]
  }

  /** `value[key]` for an array or string index key. */
  function IndexOf(k: string): (r: Option<nat>)
    ensures r.Some? <==> IsIndexKey(k)
  {
    if IsIndexKey(k) then Some(DigitsValue(k)) else None
  }

  /**
   * `value[key]` with `None` for `undefined`: the own fields of an object, the
   * elements and `length` of arrays and strings; a number, a boolean or a
   * missing field has no property of that name.
   */
  function Property(v: Json, key: string): (r: Option<Json>)
    ensures v.JObj? ==> (r.Some? <==> key in v.fields)
    ensures v.JNull? || v.JBool? || v.JNum? ==> r.None?
  {
    match v
    case JObj(m) => if key in m then Some(m[key]) else None
    case JArr(items) =>
      if key == "length" then Some(JNum(NatToString(|items|)))
      else (match IndexOf(key)
        case Some(i) => if i < |items| then Some(items[i]) else None
        case None => None)
    case JStr(s) =>
      if key == "length" then Some(JNum(NatToString(|s|)))
      else (match IndexOf(key)
        case Some(i) => if i < |s| then Some(JStr([s[i]])) else None
        case None => None)
    case _ => None
  }

  /**
   * `String(value)`: arrays print as their elements joined with `,` (with
   * `null` elements printing as nothing), objects as `[object Object]`.
   */
  function Stringify(v: Json): string
    decreases v, 1
  {
    match v
    case JNull => "null"
    case JBool(b) => if b then "true" else "false"
    case JNum(shown) => shown
    case JStr(s) => s
    case JArr(items) => ElementsText(v, items)
    case JObj(_) => "[object Object]"
  }

  /** `Array.prototype.join(",")` over the elements of `parent`. */
  function ElementsText(parent: Json, items: seq<Json>): string
    requires forall i :: 0 <= i < |items| ==> items[i] < parent
    decreases parent, 0, |items|
  {
    if |items| == 0 then ""
    else
      var first := if items[0].JNull? then "" else Stringify(items[0]);
      if |items| == 1 then first else first + "," + ElementsText(parent, items[1..])
  }

  /** The one-character strings of `s`, as indexing a string yields them. */
  function Characters(s: string): (r: seq<Json>)
    ensures |r| == |s| && forall i :: 0 <= i < |s| ==> r[i] == JStr([s[i]])
  {
    seq(|s|, i requires 0 <= i < |s| => JStr([s[i]]))
  }

  /** The elements of `vals` keyed by their printed indices. */
  function ElementMap(vals: seq<Json>): map<string, Json>
    decreases |vals|
  {
    if |vals| == 0 then map[]
    else ElementMap(vals[..|vals| - 1])[NatToString(|vals| - 1) := vals[|vals| - 1]]
  }

  /** `{...v}`: the properties an object spread copies out of `v`. */
  function Spread(v: Json): (r: map<string, Json>)
    ensures v.JObj? ==> r == v.fields
    ensures v.JNull? || v.JBool? || v.JNum? ==> r == map[]
  {
    match v
    case JObj(m) => m
    case JArr(items) => ElementMap(items)
    case JStr(s) => ElementMap(Characters(s))
    case _ => map[]
  }

  // ---------------------------------------------------------------------------
  // Properties
  // ---------------------------------------------------------------------------

  lemma {:induction false} DigitsValueAppend(k: string, d: nat)
    requires forall i :: 0 <= i < |k| ==> IsDigit(k[i])
    requires d < 10
    ensures DigitsValue(k + [DigitChar(d)]) == 10 * DigitsValue(k) + d
  {
    var t := k + [DigitChar(d)];
    assert t[..|t| - 1] == k;
  }

  /** Reading an index key and printing it back gives the key. */
  lemma {:induction false} PrintIndexRoundTrip(k: string)
    requires IsIndexKey(k)
    ensures NatToString(DigitsValue(k)) == k
    decreases |k|
  {
    var n := DigitsValue(k);
    var d := DigitValue(k[|k| - 1]);
    if |k| == 1 {
      assert k[..|k| - 1] == [];
      assert DigitsValue(k[..|k| - 1]) == 0;
      assert n == d;
      assert NatToString(n) == [DigitChar(d)];
    } else {
      var p := k[..|k| - 1];
      assert IsIndexKey(p);
      PrintIndexRoundTrip(p);
      LeadingDigitPositive(p);
      assert n / 10 == DigitsValue(p) && n % 10 == d;
      assert k == p + [DigitChar(d)];
    }
  }

  lemma {:induction false} LeadingDigitPositive(k: string)
    requires IsIndexKey(k) && |k| >= 1 && k[0] != '0'
    ensures DigitsValue(k) >= 1
    decreases |k|
  {
    if |k| > 1 {
      var p := k[..|k| - 1];
      assert p[0] == k[0];
      LeadingDigitPositive(p);
    }
  }

  /** The keys of `ElementMap(vals)` are exactly the index keys below `|vals|`, each holding its element. */
  lemma {:induction false} ElementMapKeys(vals: seq<Json>, k: string)
    ensures k in ElementMap(vals) <==> IsIndexKey(k) && DigitsValue(k) < |vals|
    ensures k in ElementMap(vals) ==> ElementMap(vals)[k] == vals[DigitsValue(k)]
    decreases |vals|
  {
    if |vals| > 0 {
      var n := |vals| - 1;
      var prefix := vals[..n];
      ElementMapKeys(prefix, k);
      if IsIndexKey(k) {
        PrintIndexRoundTrip(k);
      }
      if k in ElementMap(prefix) {
        assert prefix[DigitsValue(k)] == vals[DigitsValue(k)];
      }
    }
  }

  /** The spread of an array keys each element by its printed index. */
  lemma SpreadOfArray(items: seq<Json>, i: nat)
    requires i < |items|
    ensures NatToString(i) in Spread(JArr(items))
    ensures Spread(JArr(items))[NatToString(i)] == items[i]
  {
    ElementMapKeys(items, NatToString(i));
  }

  /** Every key an array or string spreads reads back, as a property, the element it came from. */
  lemma SpreadAgreesWithProperty(v: Json, key: string)
    requires v.JArr? || v.JStr?
    requires key in Spread(v)
    ensures Property(v, key) == Some(Spread(v)[key])
  {
    var vals := if v.JArr? then v.items else Characters(v.s);
    ElementMapKeys(vals, key);
    assert key != "length" by {
      assert IsDigit(key[0]);
    }
  }
}

=== FILE: loader.dfy ===
/**
 * The component loader of `src/components/component-loader.ts`: name
 * normalisation, nested-before-flat path resolution, the stylesheet path,
 * the decision flow of `loadComponent`, and the normalisation of the
 * configured component list in `loadAllComponents`.
 *
 * The network is an oracle: `head` and `get` give the reply to a `HEAD` and
 * a `GET` request for a URL, or `Unreachable` when the request rejects.
 * Exceptions the code catches become `false` results; the ones it rethrows
 * become a `Threw` outcome.
 */
module ComponentLoader {
  import opened Wrappers
  import opened Text
  import opened JsonValues
  import opened Paths
  import opened ComponentRegistry
  import opened Styles
  import opened StyleBlocks
  import opened ConfigLoader

  // ---------------------------------------------------------------------------
  // Loader state and initialisation
  // ---------------------------------------------------------------------------

  /**
   * The loader's private fields. `componentsPath` holds whatever
   * `config.project.componentsDir` was (`None` for `undefined`): the
   * configuration may leave it a non-string.
   */
  datatype Loader = Loader(componentsPath: Option<Json>, initialized: bool)

  /** The singleton as constructed. */
  function Fresh(): Loader {
    Loader(Some(JStr("")), false)
  }

  /**
   * `initialize()` against the stored configuration; `None` when it throws:
   * no configuration loaded, or a `project` that is missing or `null`.
   */
  function Initialize(loader: Loader, stored: Option<Fields>): (r: Option<Loader>)
    ensures loader.initialized ==> r == Some(loader)
    ensures !loader.initialized && stored.None? ==> r.None?
    ensures r.Some? ==> r.value.initialized
    ensures !loader.initialized && r.Some? ==>
      stored.Some? && "project" in stored.value && r.value.componentsPath == Property(stored.value["project"], "componentsDir")
  {
    if loader.initialized then Some(loader)
    else match stored
      case None => None
      case Some(config) =>
        if "project" !in config || config["project"].JNull? then None
        else Some(Loader(Property(config["project"], "componentsDir"), true))
  }

  /**
   * How `joinPath` treats the components path as its first part: a string
   * is used, a falsy value is filtered out like `""`, and any other value
   * makes `part.replace` throw (`None`).
   */
  function PathPart(p: Option<Json>): (r: Option<string>)
    ensures p.Some? && p.value.JStr? ==> r == Some(p.value.s)
    ensures p.None? ==> r == Some("")
    ensures r.None? <==> p.Some? && !p.value.JStr? && Truthy(p.value)
  {
    match p
    case None => Some("")
    case Some(JStr(s)) => Some(s)
    case Some(v) => if Truthy(v) then None else Some("")
  }

  // ---------------------------------------------------------------------------
  // Names and paths
  // ---------------------------------------------------------------------------

  /** `componentName.endsWith('.hpx') ? componentName : componentName + '.hpx'`: the test is case-sensitive. */
  function NormalizeName(name: string): (r: string)
    ensures EndsWith(r, ".hpx")
    ensures EndsWith(name, ".hpx") ==> r == name
    ensures !EndsWith(name, ".hpx") ==> r == name + ".hpx"
  {
    if EndsWith(name, ".hpx") then name
    else
      assert (name + ".hpx")[|name|..] == ".hpx";
      name + ".hpx"
  }

  /** `componentName.replace(/\.hpx$/i, '')`. */
  function BaseOf(componentName: string): string {
    StripHpxSuffix(componentName)
  }

  function FlatPath(dir: string, componentName: string): string {
    JoinPath([dir, BaseOf(componentName) + ".hpx"])
  }

  function NestedPath(dir: string, componentName: string): string {
    var base := BaseOf(componentName);
    JoinPath([dir, base, base + ".hpx"])
  }

  /** The reply to one request. */
  datatype Reply = Unreachable | Reply(status: int, body: string)

  /** `response.ok`. */
  predicate IsOk(status: int) {
    200 <= status <= 299
  }

  /** The server, as the loader sees it. */
  datatype Network = Network(head: string -> Reply, get: string -> Reply)

  /** `fileExists(url)`: a `HEAD` request answered with an ok status; a rejected request counts as absent. */
  predicate FileExists(net: Network, url: string) {
    net.head(url).Reply? && IsOk(net.head(url).status)
  }

  datatype Resolved = Resolved(path: string, nested: bool)

  /** `getComponentPath`: the nested path when it exists, otherwise the flat path. */
  function ComponentPath(net: Network, dir: string, componentName: string): (r: Resolved)
    ensures r.nested <==> FileExists(net, NestedPath(dir, componentName))
    ensures r.path == if r.nested then NestedPath(dir, componentName) else FlatPath(dir, componentName)
  {
    var nested := NestedPath(dir, componentName);
    if FileExists(net, nested) then Resolved(nested, true) else Resolved(FlatPath(dir, componentName), false)
  }

  /** `getAssetPath(componentName, extension, isNested)`. */
  function AssetPath(dir: string, componentName: string, extension: string, nested: bool): string {
    var base := BaseOf(componentName);
    if nested then JoinPath([dir, base, base + "." + extension]) else JoinPath([dir, base + "." + extension])
  }

  // ---------------------------------------------------------------------------
  // Loading one component
  // ---------------------------------------------------------------------------

  /** `loadCSSFile(cssPath)`: the body of an ok reply; a 404, any other status and a rejected request all give `null`. */
  function LoadCss(net: Network, cssPath: string): (r: Option<string>)
    ensures r.Some? <==> net.get(cssPath).Reply? && IsOk(net.get(cssPath).status)
    ensures r.Some? ==> r.value == net.get(cssPath).body
  {
    match net.get(cssPath)
    case Unreachable => None
    case Reply(status, body) => if IsOk(status) then Some(body) else None
  }

  /** The content registered for a fetched component: its styles merged with the stylesheet and spliced back. */
  function FinalContent(componentName: string, body: string, css: Option<string>): string {
    SpliceStyles(body, ProcessStyles(componentName, ComponentStyles(body), css))
  }

  /** What `loadComponent` returns, with the loader and the registry afterwards. */
  datatype LoadResult = LoadResult(success: bool, loader: Loader, registry: Registry)

  /**
   * `loadComponent(componentName)`. Every failure (initialisation, a
   * components path `joinPath` cannot take, a missing file, a failed or
   * non-ok fetch, a rejected registration) is caught and gives `false`.
   */
  function LoadComponent(loader: Loader, stored: Option<Fields>, reg: Registry, tools: TemplateTools,
                         net: Network, componentName: string): (r: LoadResult)
    ensures var name := FilenameToComponentName(NormalizeName(componentName));
      && (!r.success ==> r.registry == reg)
      && (r.success ==> name in r.registry && r.registry.Keys == reg.Keys + {name})
      && (forall other :: other in reg && other != name ==> r.registry[other] == reg[other])
    ensures Initialize(loader, stored).None? ==> r == LoadResult(false, loader, reg)
    ensures Initialize(loader, stored).Some? ==> r.loader == Initialize(loader, stored).value
  {
    match Initialize(loader, stored)
    case None => LoadResult(false, loader, reg)
    case Some(l) =>
      var normalized := NormalizeName(componentName);
      match PathPart(l.componentsPath)
      case None => LoadResult(false, l, reg)
      case Some(dir) =>
        var location := ComponentPath(net, dir, normalized);
        var cssPath := AssetPath(dir, normalized, "css", location.nested);
        if !FileExists(net, location.path) then LoadResult(false, l, reg)
        else match net.get(location.path)
          case Unreachable => LoadResult(false, l, reg)
          case Reply(status, body) =>
            if !IsOk(status) then LoadResult(false, l, reg)
            else
              var registration := RegisterComponent(reg, tools, normalized, FinalContent(normalized, body, LoadCss(net, cssPath)));
              LoadResult(registration.accepted, l, registration.registry)
  }

  // ---------------------------------------------------------------------------
  // Loading the configured components
  // ---------------------------------------------------------------------------

  /** A normalised configuration entry; its ends are whatever values `||` picked. */
  datatype Entry = Entry(name: Json, path: Json)

  /** `a || b` where either side may be `undefined` (`None`). */
  function Or(a: Option<Json>, b: Option<Json>): (r: Option<Json>)
    ensures r == a || r == b
  {
    if a.Some? && Truthy(a.value) then a else b
  }

  /** `x || ''`. */
  function OrEmpty(a: Option<Json>): (r: Json)
    ensures a.Some? && Truthy(a.value) ==> r == a.value
    ensures !(a.Some? && Truthy(a.value)) ==> r == JStr("")
  {
    if a.Some? && Truthy(a.value) then a.value else JStr("")
  }

  /**
   * The `map` step: a string names itself; any other value takes
   * `name || path || ''` and `path || name || ''`; `null` throws (`None`).
   */
  function NormalizeEntry(c: Json): (r: Option<Entry>)
    ensures r.None? <==> c.JNull?
  {
    match c
    case JStr(s) => Some(Entry(c, c))
    case JNull => None
    case _ =>
      var name := Property(c, "name");
      var path := Property(c, "path");
      Some(Entry(OrEmpty(Or(name, path)), OrEmpty(Or(path, name))))
  }

  /** The `filter` step: both ends truthy. */
  predicate Kept(e: Entry) {
    Truthy(e.name) && Truthy(e.path)
  }

  /** Whether `c[key]` is a truthy value. */
  predicate HasTruthy(c: Json, key: string) {
    Property(c, key).Some? && Truthy(Property(c, key).value)
  }

  /** The normalised list: `None` when some entry is `null`, otherwise the kept entries in order. */
  function NormalizeEntries(cs: seq<Json>): (r: Option<seq<Entry>>)
    ensures r.None? <==> exists i :: 0 <= i < |cs| && cs[i].JNull?
    ensures r.Some? ==> |r.value| <= |cs| && forall k :: 0 <= k < |r.value| ==> Kept(r.value[k])
    ensures r.Some? ==> forall i :: 0 <= i < |cs| && NormalizeEntry(cs[i]).Some? && Kept(NormalizeEntry(cs[i]).value)
                                    ==> NormalizeEntry(cs[i]).value in r.value
    ensures r.Some? ==> forall e :: e in r.value ==> exists i :: 0 <= i < |cs| && NormalizeEntry(cs[i]) == Some(e)
    decreases |cs|
  {
    if |cs| == 0 then Some([])
    else match NormalizeEntry(cs[0])
      case None => None
      case Some(e) =>
        match NormalizeEntries(cs[1..])
        case None =>
          assert exists i :: 0 <= i < |cs| && cs[i].JNull? by {
            var i :| 0 <= i < |cs[1..]| && cs[1..][i].JNull?;
            assert cs[i + 1].JNull?;
          }
          None
        case Some(rest) =>
          assert forall i :: 1 <= i < |cs| ==> cs[i] == cs[1..][i - 1];
          Some(if Kept(e) then [e] + rest else rest)
  }

  /** Normalising one entry: the entry itself when both its ends are truthy, nothing otherwise. */
  lemma NormalizeSingleEntry(c: Json)
    requires !c.JNull?
    ensures NormalizeEntries([c]) == Some(if Kept(NormalizeEntry(c).value) then [NormalizeEntry(c).value] else [])
  {
    assert [c][1..] == [];
    assert NormalizeEntries([]) == Some([]);
    assert [NormalizeEntry(c).value] + [] == [NormalizeEntry(c).value];
  }

  /**
   * The normalisation keeps order: the list of a concatenation is the
   * concatenation of the lists. With `NormalizeSingleEntry` this fixes the
   * result for every input, so `total` counts exactly the kept entries.
   */
  lemma {:induction false} NormalizeEntriesAppend(a: seq<Json>, b: seq<Json>)
    ensures NormalizeEntries(a + b) ==
              if NormalizeEntries(a).Some? && NormalizeEntries(b).Some?
              then Some(NormalizeEntries(a).value + NormalizeEntries(b).value) else None
    decreases |a|
  {
    if |a| == 0 {
      assert a + b == b;
      assert NormalizeEntries(a) == Some([]);
      if NormalizeEntries(b).Some? {
        assert [] + NormalizeEntries(b).value == NormalizeEntries(b).value;
      }
    } else {
      assert (a + b)[0] == a[0];
      assert (a + b)[1..] == a[1..] + b;
      NormalizeEntriesAppend(a[1..], b);
      if NormalizeEntry(a[0]).Some? && NormalizeEntries(a[1..]).Some? && NormalizeEntries(b).Some? {
        var e := NormalizeEntry(a[0]).value;
        if Kept(e) {
          assert [e] + (NormalizeEntries(a[1..]).value + NormalizeEntries(b).value)
              == ([e] + NormalizeEntries(a[1..]).value) + NormalizeEntries(b).value;
        }
      }
    }
  }

  /** `Array.isArray(config.components) ? config.components : []`. */
  function ConfiguredComponents(config: Fields): seq<Json> {
    if "components" in config && config["components"].JArr? then config["components"].items else []
  }

  /** One entry loaded by its path; a path that is not a string makes `endsWith` throw inside the `try`. */
  function LoadEntry(loader: Loader, stored: Option<Fields>, reg: Registry, tools: TemplateTools,
                     net: Network, e: Entry): (r: LoadResult)
    ensures !r.success ==> r.registry == reg
    ensures reg.Keys <= r.registry.Keys
  {
    if e.path.JStr? then LoadComponent(loader, stored, reg, tools, net, e.path.s) else LoadResult(false, loader, reg)
  }

  /** The running state of the loads: how many succeeded so far, the loader and the registry. */
  datatype Batch = Batch(loaded: nat, loader: Loader, registry: Registry)

  /** One more entry loaded: a success counts once, and the registry only grows. */
  function Advance(b: Batch, stored: Option<Fields>, tools: TemplateTools, net: Network, e: Entry): (r: Batch)
    ensures b.loaded <= r.loaded <= b.loaded + 1
    ensures b.registry.Keys <= r.registry.Keys
  {
    var one := LoadEntry(b.loader, stored, b.registry, tools, net, e);
    Batch(b.loaded + (if one.success then 1 else 0), one.loader, one.registry)
  }

  /** The entries loaded one after the other, from `start`. */
  function LoadEach(start: Batch, stored: Option<Fields>, tools: TemplateTools, net: Network, entries: seq<Entry>): (r: Batch)
    ensures start.loaded <= r.loaded <= start.loaded + |entries|
    ensures start.registry.Keys <= r.registry.Keys
    decreases |entries|
  {
    if |entries| == 0 then start
    else Advance(LoadEach(start, stored, tools, net, entries[..|entries| - 1]), stored, tools, net, entries[|entries| - 1])
  }

  /** The outcome of `loadAllComponents`: it rethrows, or reports how many of the entries loaded. */
  datatype AllOutcome =
    | Threw(loader: Loader)
    | Finished(loaded: nat, total: nat, loader: Loader, registry: Registry)

  /** `loadAllComponents()`, with the loads taken in list order. */
  function LoadAllComponents(loader: Loader, stored: Option<Fields>, reg: Registry, tools: TemplateTools, net: Network): (r: AllOutcome)
    ensures r.Finished? ==> r.loaded <= r.total && reg.Keys <= r.registry.Keys
    ensures stored.None? ==> r.Threw?
    ensures r.Threw? <==> Initialize(loader, stored).None? || stored.None?
                          || NormalizeEntries(ConfiguredComponents(stored.value)).None?
    ensures r.Finished? ==> r.total == |NormalizeEntries(ConfiguredComponents(stored.value)).value|
  {
    match Initialize(loader, stored)
    case None => Threw(loader)
    case Some(l) =>
      match stored
      case None => Threw(l)
      case Some(config) =>
        match NormalizeEntries(ConfiguredComponents(config))
        case None => Threw(l)
        case Some(entries) =>
          var b := LoadEach(Batch(0, l, reg), stored, tools, net, entries);
          Finished(b.loaded, |entries|, b.loader, b.registry)
  }

  /** Loading one more entry: the fold over `prefix + [e]` is the fold over `prefix`, then `e`. */
  lemma LoadEachSnoc(start: Batch, stored: Option<Fields>, tools: TemplateTools, net: Network, prefix: seq<Entry>, e: Entry)
    ensures LoadEach(start, stored, tools, net, prefix + [e]) == Advance(LoadEach(start, stored, tools, net, prefix), stored, tools, net, e)
  {
    var p := prefix + [e];
    assert p[..|p| - 1] == prefix && p[|p| - 1] == e;
  }

  /** `loadAllComponents()` as a loop over the normalised entries. */
  method LoadAll(loader: Loader, stored: Option<Fields>, reg: Registry, tools: TemplateTools, net: Network)
    returns (r: AllOutcome)
    ensures r == LoadAllComponents(loader, stored, reg, tools, net)
  {
    var init := Initialize(loader, stored);
    if init.None? {
      return Threw(loader);
    }
    var l := init.value;
    if stored.None? {
      return Threw(l);
    }
    var normalized := NormalizeEntries(ConfiguredComponents(stored.value));
    if normalized.None? {
      return Threw(l);
    }
    var entries := normalized.value;
    var loaded: nat := 0;
    var current := l;
    var registry := reg;
    for i := 0 to |entries|
      invariant LoadEach(Batch(0, l, reg), stored, tools, net, entries[..i]) == Batch(loaded, current, registry)
    {
      assert entries[..i + 1] == entries[..i] + [entries[i]];
      LoadEachSnoc(Batch(0, l, reg), stored, tools, net, entries[..i], entries[i]);
      var one := LoadEntry(current, stored, registry, tools, net, entries[i]);
      if one.success {
        loaded := loaded + 1;
      }
      current := one.loader;
      registry := one.registry;
    }
    assert entries[..|entries|] == entries;
    r := Finished(loaded, |entries|, current, registry);
  }

  // ---------------------------------------------------------------------------
  // Properties
  // ---------------------------------------------------------------------------

  /** A second initialisation changes nothing, whatever the configuration is by then. */
  lemma InitializeIsIdempotent(loader: Loader, stored: Option<Fields>, later: Option<Fields>)
    requires Initialize(loader, stored).Some?
    ensures Initialize(Initialize(loader, stored).value, later) == Initialize(loader, stored)
  {
  }

  /** Normalising twice is normalising once. */
  lemma NormalizeNameIsIdempotent(name: string)
    ensures NormalizeName(NormalizeName(name)) == NormalizeName(name)
  {
  }

  /** A normalised name is its base name followed by `.hpx`: the flat path is the normalised name under the directory. */
  lemma NormalizedBase(name: string)
    ensures BaseOf(NormalizeName(name)) + ".hpx" == NormalizeName(name)
  {
    var n := NormalizeName(name);
    var tail := n[|n| - 4..];
    assert tail == ".hpx";
    HpxIsLowerCase();
    assert BaseOf(n) == n[..|n| - 4];
    assert n[..|n| - 4] + tail == n;
  }

  lemma HpxIsLowerCase()
    ensures EqualsIgnoreCase(".hpx", ".hpx")
    ensures ToLower(".hpx") == ".hpx"
  {
    assert forall i :: 0 <= i < 4 ==> ToLower(".hpx")[i] == ".hpx"[i];
  }

  lemma FlatStem(dir: string, base: string, e: string)
    requires !Discarded(dir) && !Discarded(base) && base[|base| - 1] != '/' && '/' !in e
    ensures JoinPath([dir, base + e]) == JoinPath([dir, base]) + e
  {
    assert KeptParts([dir]) != [];
    JoinPathAppendToLast([dir], base, e);
    assert [dir] + [base + e] == [dir, base + e];
    assert [dir] + [base] == [dir, base];
  }

  lemma NestedStem(dir: string, base: string, e: string)
    requires !Discarded(dir) && !Discarded(base) && base[|base| - 1] != '/' && '/' !in e
    ensures JoinPath([dir, base, base + e]) == JoinPath([dir, base, base]) + e
  {
    assert KeptParts([dir, base]) != [];
    JoinPathAppendToLast([dir, base], base, e);
    assert [dir, base] + [base + e] == [dir, base, base + e];
    assert [dir, base] + [base] == [dir, base, base];
  }

  /**
   * The stylesheet sits beside the component file: for a directory and a
   * base name that survive `joinPath`'s filter, the base not ending in `/`,
   * both paths are one stem followed by `.hpx` and `.css`, in either layout.
   */
  lemma StylesheetBesideComponent(dir: string, name: string)
    requires !Discarded(dir)
    requires var base := BaseOf(NormalizeName(name)); !Discarded(base) && base[|base| - 1] != '/'
    ensures var n := NormalizeName(name);
      var base := BaseOf(n);
      && FlatPath(dir, n) == JoinPath([dir, base]) + ".hpx"
      && AssetPath(dir, n, "css", false) == JoinPath([dir, base]) + ".css"
      && NestedPath(dir, n) == JoinPath([dir, base, base]) + ".hpx"
      && AssetPath(dir, n, "css", true) == JoinPath([dir, base, base]) + ".css"
  {
    var base := BaseOf(NormalizeName(name));
    assert base + "." + "css" == base + ".css";
    FlatStem(dir, base, ".hpx");
    FlatStem(dir, base, ".css");
    NestedStem(dir, base, ".hpx");
    NestedStem(dir, base, ".css");
  }

  /**
   * Under a URL directory `scheme://rest` the program's joiner doubles the
   * slash after the directory: a slash-free base name `b` (not `.`, which
   * the joiner would drop) is looked for at
   * `scheme://rest//b.hpx` (flat) and `scheme://rest//b/b.hpx` (nested), with
   * its stylesheet at `scheme://rest//b.css` beside the flat file.
   */
  lemma ComponentUnderUrlDirectory(scheme: string, rest: string, componentName: string)
    requires IsUrl(scheme, rest)
    requires var base := BaseOf(componentName); base != "" && base != "." && '/' !in base
    ensures var u := scheme + "://" + rest;
      var base := BaseOf(componentName);
      && FlatPath(u, componentName) == u + "//" + base + ".hpx"
      && AssetPath(u, componentName, "css", false) == u + "//" + base + ".css"
      && NestedPath(u, componentName) == u + "//" + base + "/" + base + ".hpx"
  {
    FlatUnderUrl(scheme, rest, componentName);
    CssUnderUrl(scheme, rest, componentName);
    NestedUnderUrl(scheme, rest, componentName);
  }

  lemma FlatUnderUrl(scheme: string, rest: string, componentName: string)
    requires IsUrl(scheme, rest)
    requires var base := BaseOf(componentName); base != "" && base != "." && '/' !in base
    ensures var u := scheme + "://" + rest;
      FlatPath(u, componentName) == u + "//" + BaseOf(componentName) + ".hpx"
  {
    var base := BaseOf(componentName);
    var u := scheme + "://" + rest;
    UrlStem(scheme, rest, base, ".hpx");
    assert FlatPath(u, componentName) == JoinPath([u, base + ".hpx"]);
  }

  lemma CssUnderUrl(scheme: string, rest: string, componentName: string)
    requires IsUrl(scheme, rest)
    requires var base := BaseOf(componentName); base != "" && base != "." && '/' !in base
    ensures var u := scheme + "://" + rest;
      AssetPath(u, componentName, "css", false) == u + "//" + BaseOf(componentName) + ".css"
  {
    var base := BaseOf(componentName);
    var u := scheme + "://" + rest;
    UrlStem(scheme, rest, base, ".css");
    CssExtension(base);
    assert AssetPath(u, componentName, "css", false) == JoinPath([u, base + ".css"]);
  }

  lemma NestedUnderUrl(scheme: string, rest: string, componentName: string)
    requires IsUrl(scheme, rest)
    requires var base := BaseOf(componentName); base != "" && base != "." && '/' !in base
    ensures var u := scheme + "://" + rest;
      NestedPath(u, componentName) == u + "//" + BaseOf(componentName) + "/" + BaseOf(componentName) + ".hpx"
  {
    var base := BaseOf(componentName);
    var u := scheme + "://" + rest;
    UrlStem(scheme, rest, base, ".hpx");
    assert NestedPath(u, componentName) == JoinPath([u, base, base + ".hpx"]);
  }

  lemma CssExtension(base: string)
    ensures base + "." + "css" == base + ".css"
  {
  }

  /**
   * Under a components directory of the form the configuration loader
   * produces, `scheme://p//d` (for the default settings
   * `scheme://host/dir//components`), the flat file of a slash-free base
   * name `b` is looked for at `scheme://p/d//b.hpx`: the directory's `//`
   * is repaired and a new one appears in front of the file name.
   */
  lemma ComponentUnderResolvedDirectory(scheme: string, p: string, d: string, componentName: string)
    requires IsUrl(scheme, p) && IsCleanPath(d) && d[|d| - 1] != ':'
    requires var base := BaseOf(componentName); base != "" && base != "." && '/' !in base
    ensures FlatPath(scheme + "://" + p + "//" + d, componentName)
         == scheme + "://" + p + "/" + d + "//" + BaseOf(componentName) + ".hpx"
  {
    var base := BaseOf(componentName);
    DoubledStem(scheme, p, d, base, ".hpx");
    assert FlatPath(scheme + "://" + p + "//" + d, componentName) == JoinPath([scheme + "://" + p + "//" + d, base + ".hpx"]);
  }

  lemma DoubledStem(scheme: string, p: string, d: string, base: string, e: string)
    requires IsUrl(scheme, p) && IsCleanPath(d) && d[|d| - 1] != ':'
    requires base != "" && base != "." && '/' !in base && '/' !in e
    ensures JoinPath([scheme + "://" + p + "//" + d, base + e]) == scheme + "://" + p + "/" + d + "//" + base + e
  {
    var u := scheme + "://" + p + "//" + d;
    var file := base + e;
    SlashFreeAppend(base, e);
    PlainWord(file);
    JoinPathAfterDoubledUrl(scheme, p, d, [file]);
    StripOne(file);
    assert [u] + [file] == [u, file];
    RegroupStem(scheme + "://" + p + "/" + d + "//", base, e);
  }

  /** Both layouts under a URL directory for a base name and a slash-free extension. */
  lemma UrlStem(scheme: string, rest: string, base: string, e: string)
    requires IsUrl(scheme, rest)
    requires base != "" && base != "." && '/' !in base && e != "" && '/' !in e
    ensures var u := scheme + "://" + rest;
      && JoinPath([u, base + e]) == u + "//" + base + e
      && JoinPath([u, base, base + e]) == u + "//" + base + "/" + base + e
  {
    var file := base + e;
    SlashFreeAppend(base, e);
    UrlFileName(scheme, rest, file);
    UrlNestedFile(scheme, rest, base, file);
    RegroupStem(scheme + "://" + rest + "//", base, e);
    RegroupStem(scheme + "://" + rest + "//" + base + "/", base, e);
  }

  lemma RegroupStem(a: string, base: string, e: string)
    ensures a + (base + e) == a + base + e
  {
  }

  lemma SlashFreeAppend(a: string, b: string)
    requires a != "" && '/' !in a && '/' !in b
    ensures '/' !in a + b
  {
    assert forall c :: c in a + b ==> c in a || c in b;
  }

  /** The nested layout under a URL directory: `scheme://rest//b/f`. */
  lemma UrlNestedFile(scheme: string, rest: string, base: string, file: string)
    requires IsUrl(scheme, rest)
    requires base != "" && base != "." && '/' !in base
    requires file != "" && file != "." && '/' !in file
    ensures var u := scheme + "://" + rest;
      JoinPath([u, base, file]) == u + "//" + base + "/" + file
  {
    var u := scheme + "://" + rest;
    var ns := [base, file];
    PlainWord(base);
    PlainWord(file);
    JoinPathAfterUrl(scheme, rest, ns);
    StripTwo(base, file);
    assert [u] + ns == [u, base, file];
    RegroupPlainRoot(u, base, file);
  }

  /** One file name joined under a URL directory follows a doubled slash. */
  lemma UrlFileName(scheme: string, rest: string, file: string)
    requires IsUrl(scheme, rest)
    requires file != "" && file != "." && '/' !in file
    ensures JoinPath([scheme + "://" + rest, file]) == scheme + "://" + rest + "//" + file
  {
    PlainWord(file);
    JoinPathAfterUrl(scheme, rest, [file]);
    StripOne(file);
    assert [scheme + "://" + rest] + [file] == [scheme + "://" + rest, file];
  }

  /** Loading never shrinks the registry invariant: every stored name is valid and every template non-empty. */
  lemma LoadKeepsRegistryInvariant(loader: Loader, stored: Option<Fields>, reg: Registry, tools: TemplateTools,
                                   net: Network, componentName: string)
    requires RegistryInvariant(tools, reg)
    ensures RegistryInvariant(tools, LoadComponent(loader, stored, reg, tools, net, componentName).registry)
  {
    var r := LoadComponent(loader, stored, reg, tools, net, componentName);
    if r.success {
      var content :| RegisterComponent(reg, tools, NormalizeName(componentName), content).registry == r.registry;
      RegisterPreservesInvariant(reg, tools, NormalizeName(componentName), content);
    }
  }

  /** A chosen file that fails the existence check, or a fetch that fails, loads nothing. */
  lemma MissingFileFails(loader: Loader, stored: Option<Fields>, reg: Registry, tools: TemplateTools,
                         net: Network, componentName: string, dir: string)
    requires Initialize(loader, stored).Some?
    requires PathPart(Initialize(loader, stored).value.componentsPath) == Some(dir)
    requires var location := ComponentPath(net, dir, NormalizeName(componentName));
      !FileExists(net, location.path) || net.get(location.path).Unreachable?
      || !IsOk(net.get(location.path).status)
    ensures LoadComponent(loader, stored, reg, tools, net, componentName)
         == LoadResult(false, Initialize(loader, stored).value, reg)
  {
  }

  /**
   * After a successful load of a found and fetched component, asking the
   * registry for its name gives the template extracted from the registered
   * content, and that content's first style element holds the merged styles
   * between two line feeds (when the merged styles hold no `$` or closing
   * tag, and the component had a style element or there was something to
   * merge).
   */
  lemma LoadedComponentIsServed(loader: Loader, stored: Option<Fields>, reg: Registry, tools: TemplateTools,
                                net: Network, componentName: string, dir: string, body: string, merged: string)
    requires Initialize(loader, stored).Some?
    requires PathPart(Initialize(loader, stored).value.componentsPath) == Some(dir)
    requires var location := ComponentPath(net, dir, NormalizeName(componentName));
      FileExists(net, location.path) && net.get(location.path).Reply?
      && IsOk(net.get(location.path).status) && net.get(location.path).body == body
    requires LoadComponent(loader, stored, reg, tools, net, componentName).success
    requires var n := NormalizeName(componentName);
      merged == ProcessStyles(n, ComponentStyles(body), LoadCss(net, AssetPath(dir, n, "css", ComponentPath(net, dir, n).nested)))
    requires '$' !in merged && NoCloseTag(merged) && (FindStyleBlock(body, 0).Some? || merged != "")
    ensures var n := NormalizeName(componentName);
      var content := FinalContent(n, body, LoadCss(net, AssetPath(dir, n, "css", ComponentPath(net, dir, n).nested)));
      && GetComponentTemplate(LoadComponent(loader, stored, reg, tools, net, componentName).registry,
                              FilenameToComponentName(n))
         == tools.extractTemplateContent(content)
      && ComponentStyles(content) == "\n" + merged + "\n"
  {
    var n := NormalizeName(componentName);
    var css := LoadCss(net, AssetPath(dir, n, "css", ComponentPath(net, dir, n).nested));
    var content := FinalContent(n, body, css);
    FetchedComponentRegisters(loader, stored, reg, tools, net, componentName, dir, body);
    RegisterThenGet(reg, tools, n, content);
    FinalContentCarriesStyles(n, body, css, merged);
  }

  /** A found and fetched component: the load's registry is the one its registration produces. */
  lemma FetchedComponentRegisters(loader: Loader, stored: Option<Fields>, reg: Registry, tools: TemplateTools,
                                  net: Network, componentName: string, dir: string, body: string)
    requires Initialize(loader, stored).Some?
    requires PathPart(Initialize(loader, stored).value.componentsPath) == Some(dir)
    requires var location := ComponentPath(net, dir, NormalizeName(componentName));
      FileExists(net, location.path) && net.get(location.path).Reply?
      && IsOk(net.get(location.path).status) && net.get(location.path).body == body
    ensures var n := NormalizeName(componentName);
      var cssPath := AssetPath(dir, n, "css", ComponentPath(net, dir, n).nested);
      var registration := RegisterComponent(reg, tools, n, FinalContent(n, body, LoadCss(net, cssPath)));
      && LoadComponent(loader, stored, reg, tools, net, componentName).success == registration.accepted
      && LoadComponent(loader, stored, reg, tools, net, componentName).registry == registration.registry
  {
    var n := NormalizeName(componentName);
    var location := ComponentPath(net, dir, n);
    var content := FinalContent(n, body, LoadCss(net, AssetPath(dir, n, "css", location.nested)));
    var registration := RegisterComponent(reg, tools, n, content);
    assert net.get(location.path) == Reply(net.get(location.path).status, body);
    assert LoadComponent(loader, stored, reg, tools, net, componentName)
        == LoadResult(registration.accepted, Initialize(loader, stored).value, registration.registry);
  }

  /** Without a usable stylesheet the component's own styles are spliced back as they are. */
  lemma StylesheetFailureIsHarmless(componentName: string, body: string)
    ensures FinalContent(componentName, body, None) == SpliceStyles(body, ComponentStyles(body))
  {
  }

  /**
   * Reading the registered content's style element back gives the merged
   * styles between two line feeds, unless there were no styles at all
   * (and the merged styles hold no `$` or closing tag).
   */
  lemma FinalContentCarriesStyles(componentName: string, body: string, css: Option<string>, merged: string)
    requires merged == ProcessStyles(componentName, ComponentStyles(body), css)
    requires '$' !in merged && NoCloseTag(merged)
    ensures var content := FinalContent(componentName, body, css);
      && (FindStyleBlock(body, 0).Some? || merged != "" ==> ComponentStyles(content) == "\n" + merged + "\n")
      && (FindStyleBlock(body, 0).None? && merged == "" ==> content == body)
  {
    SpliceThenRead(body, merged);
  }

  /**
   * An entry is dropped exactly when both of its ends are falsy: a string
   * when it is empty, any other value when neither `name` nor `path` is
   * truthy.
   */
  lemma EntryKeptIff(c: Json)
    requires !c.JNull?
    ensures Kept(NormalizeEntry(c).value) <==>
      if c.JStr? then c.s != "" else HasTruthy(c, "name") || HasTruthy(c, "path")
  {
  }

  /** A kept entry is loaded by its `path`, or by its `name` when the path is falsy. */
  lemma EntryLoadsByPath(c: Json)
    requires !c.JNull? && !c.JStr? && Kept(NormalizeEntry(c).value)
    ensures NormalizeEntry(c).value.path
         == if HasTruthy(c, "path") then Property(c, "path").value else Property(c, "name").value
  {
  }

  /** Loading the entries keeps the registry invariant, whatever each load does. */
  lemma {:induction false} LoadEachKeepsInvariant(start: Batch, stored: Option<Fields>, tools: TemplateTools,
                                                  net: Network, entries: seq<Entry>)
    requires RegistryInvariant(tools, start.registry)
    ensures RegistryInvariant(tools, LoadEach(start, stored, tools, net, entries).registry)
    decreases |entries|
  {
    if |entries| > 0 {
      var prefix := entries[..|entries| - 1];
      LoadEachKeepsInvariant(start, stored, tools, net, prefix);
      var b := LoadEach(start, stored, tools, net, prefix);
      var e := entries[|entries| - 1];
      if e.path.JStr? {
        LoadKeepsRegistryInvariant(b.loader, stored, b.registry, tools, net, e.path.s);
      }
    }
  }
}

=== FILE: paths.dfy ===
/**
 * The browser-side path joiner `joinPath(...parts)`, defined identically in
 * the component loader and in the configuration loader.
 *
 * joinPath's steps are: drop `""`, `"."` and `"./"` parts; strip every leading and
 * trailing `/` of each kept part; when the FIRST kept part looks like a URL
 * (`[A-Za-z]+://`), append `//` to it; join with `/`; finally rewrite each
 * non-overlapping `x//` with `x != ':'` to `x/` in one left-to-right pass.
 */
module Paths {
  import opened Text

  /** Parts the joiner filters out before anything else. */
  predicate Discarded(part: string) {
    part == "" || part == "." || part == "./"
  }

  function KeptParts(parts: seq<string>): (r: seq<string>)
    ensures |r| <= |parts|
    ensures forall i :: 0 <= i < |r| ==> !Discarded(r[i])
  {
    if |parts| == 0 then []
    else (if Discarded(parts[0]) then [] else [parts[0]]) + KeptParts(parts[1..])
  }

  lemma {:induction false} KeptPartsAppend(a: seq<string>, b: seq<string>)
    ensures KeptParts(a + b) == KeptParts(a) + KeptParts(b)
    decreases |a|
  {
    if |a| == 0 {
      assert a + b == b;
    } else {
      assert (a + b)[0] == a[0];
      assert (a + b)[1..] == a[1..] + b;
      KeptPartsAppend(a[1..], b);
    }
  }

  function DropLeadingSlashes(p: string): (r: string)
    ensures |r| <= |p|
    ensures |r| == 0 || r[0] != '/'
    decreases |p|
  {
    if |p| > 0 && p[0] == '/' then DropLeadingSlashes(p[1..]) else p
  }

  function DropTrailingSlashes(p: string): (r: string)
    ensures |r| <= |p|
    ensures |r| > 0 ==> r[0] == p[0]
    ensures |r| == 0 || r[|r| - 1] != '/'
    decreases |p|
  {
    if |p| > 0 && p[|p| - 1] == '/' then DropTrailingSlashes(p[..|p| - 1]) else p
  }

  /** `part.replace(/^\/+|\/+$/g, '')`. */
  function StripSlashes(p: string): (r: string)
    ensures |r| == 0 || (r[0] != '/' && r[|r| - 1] != '/')
  {
    DropTrailingSlashes(DropLeadingSlashes(p))
  }

  /** Number of leading ASCII letters. */
  function LetterRun(p: string): (n: nat)
    ensures n <= |p|
    ensures forall i :: 0 <= i < n ==> IsAsciiLetter(p[i])
    ensures n == |p| || !IsAsciiLetter(p[n])
    decreases |p|
  {
    if |p| > 0 && IsAsciiLetter(p[0]) then 1 + LetterRun(p[1..]) else 0
  }

  /** `/^[a-z]+:\/\//i.test(p)`: the letter run is maximal, so `://` must follow it. */
  predicate LooksLikeUrl(p: string) {
    var n := LetterRun(p);
    n >= 1 && n + 3 <= |p| && p[n..n + 3] == "://"
  }

  /** The mapped form of the first kept part. */
  function FirstSegment(part: string): string {
    var q := StripSlashes(part);
    if LooksLikeUrl(q) then DropTrailingSlashes(q) + "//" else q
  }

  function StripAll(parts: seq<string>): (r: seq<string>)
    ensures |r| == |parts|
    decreases |parts|
  {
    if |parts| == 0 then [] else [StripSlashes(parts[0])] + StripAll(parts[1..])
  }

  lemma {:induction false} StripAllAt(parts: seq<string>, i: nat)
    requires i < |parts|
    ensures StripAll(parts)[i] == StripSlashes(parts[i])
    decreases i
  {
    if i > 0 {
      StripAllAt(parts[1..], i - 1);
    }
  }

  lemma {:induction false} StripAllAppend(a: seq<string>, b: seq<string>)
    ensures StripAll(a + b) == StripAll(a) + StripAll(b)
    decreases |a|
  {
    if |a| == 0 {
      assert a + b == b;
    } else {
      assert (a + b)[0] == a[0];
      assert (a + b)[1..] == a[1..] + b;
      StripAllAppend(a[1..], b);
    }
  }

  function Segments(kept: seq<string>): seq<string> {
    if |kept| == 0 then [] else [FirstSegment(kept[0])] + StripAll(kept[1..])
  }

  predicate HasDoubleSlash(s: string)
    decreases |s|
  {
    |s| >= 2 && ((s[0] == '/' && s[1] == '/') || HasDoubleSlash(s[1..]))
  }

  function WithoutSlashes(s: string): string
    decreases |s|
  {
    if |s| == 0 then "" else (if s[0] == '/' then "" else [s[0]]) + WithoutSlashes(s[1..])
  }

  lemma {:induction false} WithoutSlashesAppend(a: string, b: string)
    ensures WithoutSlashes(a + b) == WithoutSlashes(a) + WithoutSlashes(b)
    decreases |a|
  {
    if |a| == 0 {
      assert a + b == b;
    } else {
      assert (a + b)[1..] == a[1..] + b;
      WithoutSlashesAppend(a[1..], b);
    }
  }

  /**
   * `s.replace(/([^:])\/\//g, '$1/')`: a single left-to-right pass; after a
   * match the scan resumes behind the consumed `//`, so matches never overlap.
   */
  function CollapseDoubleSlashes(s: string): (r: string)
    ensures |r| <= |s|
    decreases |s|
  {
    if |s| >= 3 && s[0] != ':' && s[1] == '/' && s[2] == '/' then
      [s[0], '/'] + CollapseDoubleSlashes(s[3..])
    else if |s| == 0 then ""
    else [s[0]] + CollapseDoubleSlashes(s[1..])
  }

  /** The pass deletes nothing but `/` characters. */
  lemma {:induction false} CollapseDeletesOnlySlashes(s: string)
    ensures WithoutSlashes(CollapseDoubleSlashes(s)) == WithoutSlashes(s)
    decreases |s|
  {
    if |s| >= 3 && s[0] != ':' && s[1] == '/' && s[2] == '/' {
      var rest := CollapseDoubleSlashes(s[3..]);
      CollapseDeletesOnlySlashes(s[3..]);
      WithoutSlashesAppend([s[0], '/'], rest);
      WithoutSlashesAppend(s[..3], s[3..]);
      assert s == s[..3] + s[3..];
      assert WithoutSlashes([s[0], '/']) == WithoutSlashes(s[..3]) by {
        assert s[..3] == [s[0], '/', '/'];
        assert [s[0], '/', '/'][1..] == ['/', '/'];
        assert [s[0], '/'][1..] == ['/'];
        assert ['/', '/'][1..] == ['/'];
        assert ['/'][1..] == [];
      }
    } else if |s| > 0 {
      var rest := CollapseDoubleSlashes(s[1..]);
      CollapseDeletesOnlySlashes(s[1..]);
      WithoutSlashesAppend([s[0]], rest);
      WithoutSlashesAppend([s[0]], s[1..]);
      assert s == [s[0]] + s[1..];
    }
  }

  /** A string without `//` passes through unchanged. */
  lemma {:induction false} CollapseWithoutDoubleSlash(s: string)
    requires !HasDoubleSlash(s)
    ensures CollapseDoubleSlashes(s) == s
    decreases |s|
  {
    if |s| > 0 {
      if |s| >= 2 {
        assert !HasDoubleSlash(s[1..]);
      }
      if |s| >= 3 {
        assert s[1..][0] == s[1] && s[1..][1] == s[2];
      }
      CollapseWithoutDoubleSlash(s[1..]);
      assert s == [s[0]] + s[1..];
    }
  }

  /** `joinPath(...parts)` as the program writes it. */
  function JoinPath(parts: seq<string>): string {
    CollapseDoubleSlashes(Join(Segments(KeptParts(parts)), "/"))
  }

  /** The joiner without the doubled slash behind a URL-like first part. */
  function JoinPathIntended(parts: seq<string>): string {
    CollapseDoubleSlashes(Join(StripAll(KeptParts(parts)), "/"))
  }

  // ---------------------------------------------------------------------------
  // Properties of the final collapse pass
  // ---------------------------------------------------------------------------

  /** `s[i]` and `s[i + 1]` are both `/`. */
  predicate SlashPairAt(s: string, i: int) {
    0 <= i < |s| - 1 && s[i] == '/' && s[i + 1] == '/'
  }

  lemma {:induction false} HasDoubleSlashIff(s: string)
    ensures HasDoubleSlash(s) <==> exists i :: SlashPairAt(s, i)
    decreases |s|
  {
    if |s| >= 2 {
      HasDoubleSlashIff(s[1..]);
      if HasDoubleSlash(s[1..]) {
        var i :| SlashPairAt(s[1..], i);
        assert SlashPairAt(s, i + 1);
      }
      if s[0] == '/' && s[1] == '/' {
        assert SlashPairAt(s, 0);
      }
      if exists i :: SlashPairAt(s, i) {
        var i :| SlashPairAt(s, i);
        if i > 0 {
          assert SlashPairAt(s[1..], i - 1);
        }
      }
    }
  }

  lemma {:induction false} NoDoubleSlashSlice(s: string, lo: nat, hi: nat)
    requires !HasDoubleSlash(s) && lo <= hi <= |s|
    ensures !HasDoubleSlash(s[lo..hi])
  {
    HasDoubleSlashIff(s);
    HasDoubleSlashIff(s[lo..hi]);
    forall i | SlashPairAt(s[lo..hi], i) ensures SlashPairAt(s, lo + i) {
    }
  }

  /**
   * A prefix without `//` passes through the pass untouched, provided no `//`
   * starts right behind it or straddles its end.
   */
  lemma {:induction false} CollapseCleanPrefix(w: string, rest: string)
    requires !HasDoubleSlash(w) && !StartsWith(rest, "//")
    requires |w| == 0 || |rest| == 0 || w[|w| - 1] != '/' || rest[0] != '/'
    ensures CollapseDoubleSlashes(w + rest) == w + CollapseDoubleSlashes(rest)
    decreases |w|
  {
    if |w| == 0 {
      assert w + rest == rest;
    } else {
      var s := w + rest;
      NoPairAfterFirst(w, rest);
      CollapseCopiesFirst(s);
      assert s[0] == w[0] && s[1..] == w[1..] + rest;
      NoDoubleSlashSlice(w, 1, |w|);
      CollapseCleanPrefix(w[1..], rest);
      ConsRegroup(w, CollapseDoubleSlashes(rest));
    }
  }

  /** Behind the first character of a clean prefix there is no `//` for the pass to match. */
  lemma NoPairAfterFirst(w: string, rest: string)
    requires |w| > 0 && !HasDoubleSlash(w) && !StartsWith(rest, "//")
    requires |rest| == 0 || w[|w| - 1] != '/' || rest[0] != '/'
    ensures var s := w + rest; |s| < 3 || s[1] != '/' || s[2] != '/'
  {
    var s := w + rest;
    if |s| >= 3 {
      if |w| >= 3 {
        HasDoubleSlashIff(w);
        assert !SlashPairAt(w, 1);
        assert s[1] == w[1] && s[2] == w[2];
      } else if |w| == 2 {
        assert s[1] == w[1] && s[2] == rest[0];
      } else {
        assert s[1] == rest[0] && s[2] == rest[1];
        assert rest[..2] == [rest[0], rest[1]];
      }
    }
  }

  /** Where no `//` follows the first character, the pass copies it and moves on. */
  lemma CollapseCopiesFirst(s: string)
    requires |s| > 0 && (|s| < 3 || s[1] != '/' || s[2] != '/')
    ensures CollapseDoubleSlashes(s) == [s[0]] + CollapseDoubleSlashes(s[1..])
  {
  }

  lemma ConsRegroup(w: string, x: string)
    requires |w| > 0
    ensures [w[0]] + (w[1..] + x) == w + x
  {
    assert [w[0]] + w[1..] == w;
  }

  /** The `//` of a scheme separator always survives the collapse pass. */
  lemma {:induction false} CollapseKeepsLeadingDoubleSlash(rest: string)
    requires |rest| == 0 || rest[0] != '/'
    ensures CollapseDoubleSlashes("//" + rest) == "//" + CollapseDoubleSlashes(rest)
  {
    var s := "//" + rest;
    assert s[1..] == "/" + rest;
    var t := "/" + rest;
    assert t[1..] == rest;
  }

  /** A clean path followed by `//`: the pass rewrites that `//` to `/` and resumes behind it. */
  lemma {:induction false} CollapseCleanThenDoubleSlash(w: string, rest: string)
    requires IsCleanPath(w) && w[|w| - 1] != ':'
    ensures CollapseDoubleSlashes(w + "//" + rest) == w + "/" + CollapseDoubleSlashes(rest)
  {
    var init := w[..|w| - 1];
    var last := w[|w| - 1];
    var tail := [last] + "//" + rest;
    SplitLastThenSlashes(w, rest);
    NoDoubleSlashSlice(w, 0, |w| - 1);
    assert tail[0] == last;
    CollapseCleanPrefix(init, tail);
    assert tail[3..] == rest;
    CollapseRewritesFirstPair(tail);
    RegroupAfterPair(init, last, CollapseDoubleSlashes(rest));
    assert init + [last] == w;
  }

  lemma SplitLastThenSlashes(w: string, rest: string)
    requires |w| > 0
    ensures w + "//" + rest == w[..|w| - 1] + ([w[|w| - 1]] + "//" + rest)
  {
    assert w == w[..|w| - 1] + [w[|w| - 1]];
  }

  /** A `//` right behind a first character other than `:` is rewritten to `/`, and the pass resumes behind it. */
  lemma CollapseRewritesFirstPair(t: string)
    requires |t| >= 3 && t[0] != ':' && t[1] == '/' && t[2] == '/'
    ensures CollapseDoubleSlashes(t) == [t[0], '/'] + CollapseDoubleSlashes(t[3..])
  {
  }

  lemma RegroupAfterPair(init: string, last: char, x: string)
    ensures init + ([last, '/'] + x) == init + [last] + "/" + x
  {
    assert [last, '/'] + x == [last] + "/" + x;
  }

  lemma {:induction false} CollapseAppendSlashFree(a: string, e: string)
    requires '/' !in e
    ensures CollapseDoubleSlashes(a + e) == CollapseDoubleSlashes(a) + e
    decreases |a|
  {
    var s := a + e;
    if |a| == 0 {
      assert s == e;
      SlashFreeHasNoDoubleSlash(e);
      CollapseWithoutDoubleSlash(e);
    } else if |a| >= 3 && a[0] != ':' && a[1] == '/' && a[2] == '/' {
      assert s[0] == a[0] && s[1] == a[1] && s[2] == a[2];
      assert s[3..] == a[3..] + e;
      CollapseAppendSlashFree(a[3..], e);
    } else {
      NoMatchAcrossSlashFree(a, e);
      assert s[0] == a[0];
      assert s[1..] == a[1..] + e;
      CollapseAppendSlashFree(a[1..], e);
    }
  }

  /** Appending slash-free text cannot create a `x//` match at the front. */
  lemma {:induction false} NoMatchAcrossSlashFree(a: string, e: string)
    requires '/' !in e && |a| > 0
    requires !(|a| >= 3 && a[0] != ':' && a[1] == '/' && a[2] == '/')
    ensures var s := a + e; !(|s| >= 3 && s[0] != ':' && s[1] == '/' && s[2] == '/')
  {
    var s := a + e;
    if |a| >= 3 {
      assert s[0] == a[0] && s[1] == a[1] && s[2] == a[2];
    } else if |a| == 2 && |e| >= 1 {
      assert s[2] == e[0] && e[0] in e;
    } else if |a| == 1 && |e| >= 1 {
      assert s[1] == e[0] && e[0] in e;
    }
  }

  lemma {:induction false} SlashFreeHasNoDoubleSlash(s: string)
    requires '/' !in s
    ensures !HasDoubleSlash(s)
    decreases |s|
  {
    if |s| >= 2 {
      assert s[0] in s;
      assert forall c :: c in s[1..] ==> c in s;
      SlashFreeHasNoDoubleSlash(s[1..]);
    }
  }

  // ---------------------------------------------------------------------------
  // Properties of the whole joiner
  // ---------------------------------------------------------------------------

  /** Filtered parts are invisible: inserting `""`, `"."` or `"./"` anywhere changes nothing. */
  lemma {:induction false} JoinPathIgnoresFillers(a: seq<string>, filler: string, b: seq<string>)
    requires Discarded(filler)
    ensures JoinPath(a + [filler] + b) == JoinPath(a + b)
    ensures JoinPathIntended(a + [filler] + b) == JoinPathIntended(a + b)
  {
    KeptPartsAppend(a + [filler], b);
    KeptPartsAppend(a, [filler]);
    KeptPartsAppend(a, b);
    assert [filler][1..] == [];
    assert KeptParts([filler]) == [];
    assert KeptParts(a + [filler]) == KeptParts(a);
    assert KeptParts(a + [filler] + b) == KeptParts(a + b);
  }

  lemma {:induction false} DropLeadingAppend(x: string, e: string)
    requires |x| > 0 && x[|x| - 1] != '/'
    ensures DropLeadingSlashes(x + e) == DropLeadingSlashes(x) + e
    ensures |DropLeadingSlashes(x)| > 0
    ensures DropLeadingSlashes(x)[|DropLeadingSlashes(x)| - 1] == x[|x| - 1]
    decreases |x|
  {
    if x[0] == '/' {
      assert |x| >= 2;
      assert (x + e)[0] == '/';
      assert (x + e)[1..] == x[1..] + e;
      DropLeadingAppend(x[1..], e);
    } else {
      assert (x + e)[0] == x[0];
    }
  }

  lemma {:induction false} KeepsNonSlashEnd(p: string)
    requires |p| > 0 && p[|p| - 1] != '/'
    ensures DropTrailingSlashes(p) == p
  {
  }

  lemma {:induction false} StripSlashesAppend(x: string, e: string)
    requires |x| > 0 && x[|x| - 1] != '/' && '/' !in e
    ensures StripSlashes(x + e) == StripSlashes(x) + e
  {
    DropLeadingAppend(x, e);
    var y := DropLeadingSlashes(x);
    KeepsNonSlashEnd(y);
    if |e| > 0 {
      assert e[|e| - 1] in e;
      assert (y + e)[|y + e| - 1] == e[|e| - 1];
      KeepsNonSlashEnd(y + e);
    } else {
      assert y + e == y;
    }
  }

  /**
   * Appending an extension to the last part appends it to the joined path,
   * provided some earlier part survives the filter (so the last part is never
   * the URL-like first segment).
   */
  lemma {:induction false} JoinPathAppendToLast(ps: seq<string>, x: string, e: string)
    requires |KeptParts(ps)| >= 1
    requires !Discarded(x) && x[|x| - 1] != '/'
    requires '/' !in e
    ensures JoinPath(ps + [x + e]) == JoinPath(ps + [x]) + e
  {
    var k := KeptParts(ps);
    assert !Discarded(x + e) by {
      if |e| > 0 { assert (x + e)[|x + e| - 1] == e[|e| - 1]; assert e[|e| - 1] in e; }
      else { assert x + e == x; }
    }
    KeptOneMore(ps, x + e);
    KeptOneMore(ps, x);
    StripSlashesAppend(x, e);
    SegmentsAppend(k, x + e);
    SegmentsAppend(k, x);
    var sx := StripSlashes(x);
    JoinAppendLast(Segments(k), sx, e, "/");
    CollapseAppendSlashFree(Join(Segments(k) + [sx], "/"), e);
  }

  /** The same for the corrected joiner, where no earlier part is needed. */
  lemma {:induction false} JoinPathIntendedAppendToLast(ps: seq<string>, x: string, e: string)
    requires !Discarded(x) && x[|x| - 1] != '/'
    requires '/' !in e
    ensures JoinPathIntended(ps + [x + e]) == JoinPathIntended(ps + [x]) + e
  {
    var k := KeptParts(ps);
    assert !Discarded(x + e) by {
      if |e| > 0 { assert (x + e)[|x + e| - 1] == e[|e| - 1]; assert e[|e| - 1] in e; }
      else { assert x + e == x; }
    }
    KeptOneMore(ps, x + e);
    KeptOneMore(ps, x);
    StripSlashesAppend(x, e);
    StripAllAppend(k, [x + e]);
    StripAllAppend(k, [x]);
    assert [x + e][1..] == [] && [x][1..] == [];
    assert StripAll([x + e]) == [StripSlashes(x + e)];
    assert StripAll([x]) == [StripSlashes(x)];
    var sx := StripSlashes(x);
    JoinAppendLast(StripAll(k), sx, e, "/");
    CollapseAppendSlashFree(Join(StripAll(k) + [sx], "/"), e);
  }

  lemma {:induction false} KeptOneMore(ps: seq<string>, z: string)
    requires !Discarded(z)
    ensures KeptParts(ps + [z]) == KeptParts(ps) + [z]
  {
    KeptPartsAppend(ps, [z]);
    assert [z][1..] == [];
    assert KeptParts([z]) == [z];
  }

  lemma {:induction false} SegmentsAppend(k: seq<string>, z: string)
    requires |k| >= 1
    ensures Segments(k + [z]) == Segments(k) + [StripSlashes(z)]
  {
    assert (k + [z])[0] == k[0];
    assert (k + [z])[1..] == k[1..] + [z];
    StripAllAppend(k[1..], [z]);
    assert StripAll([z]) == [StripSlashes(z)];
  }

  /** A non-empty path that neither starts nor ends with `/` and holds no `//`. */
  predicate IsCleanPath(p: string) {
    |p| > 0 && p[0] != '/' && p[|p| - 1] != '/' && !HasDoubleSlash(p)
  }

  /** A part that survives the filter and strips to a clean path, such as `/app` or `a/b/`. */
  predicate IsPathPart(n: string) {
    !Discarded(n) && IsCleanPath(StripSlashes(n))
  }

  predicate IsScheme(scheme: string) {
    |scheme| >= 1 && forall i :: 0 <= i < |scheme| ==> IsAsciiLetter(scheme[i])
  }

  /** `scheme://host` with a slash-free host that does not end in `:`: the shape of `location.origin`. */
  predicate IsOrigin(scheme: string, host: string) {
    IsScheme(scheme) && |host| >= 1 && '/' !in host && host[|host| - 1] != ':'
  }

  /** `scheme://rest` with a clean `rest` that does not end in `:`. */
  predicate IsUrl(scheme: string, rest: string) {
    IsScheme(scheme) && IsCleanPath(rest) && rest[|rest| - 1] != ':'
  }

  lemma {:induction false} OriginIsUrl(scheme: string, host: string)
    requires IsOrigin(scheme, host)
    ensures IsUrl(scheme, host)
  {
    assert host[0] in host && host[|host| - 1] in host;
    SlashFreeHasNoDoubleSlash(host);
  }

  lemma {:induction false} KeptPathParts(ns: seq<string>)
    requires forall i :: 0 <= i < |ns| ==> IsPathPart(ns[i])
    ensures KeptParts(ns) == ns
  {
    if |ns| > 0 {
      assert forall i :: 0 <= i < |ns[1..]| ==> IsPathPart(ns[1..][i]);
      KeptPathParts(ns[1..]);
    }
  }

  /** Two clean paths joined by one `/` form a clean path. */
  lemma {:induction false} NoDoubleSlashAcross(w: string, rest: string)
    requires IsCleanPath(w) && IsCleanPath(rest)
    ensures IsCleanPath(w + "/" + rest)
  {
    var s := w + "/" + rest;
    HasDoubleSlashIff(w);
    HasDoubleSlashIff(rest);
    HasDoubleSlashIff(s);
    forall i | 0 <= i < |s| - 1 ensures !SlashPairAt(s, i) {
      if i < |w| - 1 {
        assert !SlashPairAt(w, i);
        assert s[i] == w[i] && s[i + 1] == w[i + 1];
      } else if i == |w| - 1 {
        assert s[i] == w[|w| - 1];
      } else if i == |w| {
        assert s[i + 1] == rest[0];
      } else {
        assert !SlashPairAt(rest, i - |w| - 1);
        assert s[i] == rest[i - |w| - 1] && s[i + 1] == rest[i - |w|];
      }
    }
    assert s[0] == w[0] && s[|s| - 1] == rest[|rest| - 1];
  }

  /** Clean paths joined with `/` form a clean path. */
  lemma {:induction false} JoinOfCleanPaths(ns: seq<string>)
    requires |ns| >= 1 && forall i :: 0 <= i < |ns| ==> IsCleanPath(ns[i])
    ensures IsCleanPath(Join(ns, "/"))
    decreases |ns|
  {
    if |ns| > 1 {
      assert forall i :: 0 <= i < |ns[1..]| ==> IsCleanPath(ns[1..][i]);
      JoinOfCleanPaths(ns[1..]);
      NoDoubleSlashAcross(ns[0], Join(ns[1..], "/"));
    }
  }

  lemma {:induction false} PathPartsJoin(ns: seq<string>)
    requires |ns| >= 1 && forall i :: 0 <= i < |ns| ==> IsPathPart(ns[i])
    ensures IsCleanPath(Join(StripAll(ns), "/"))
  {
    var names := StripAll(ns);
    forall i | 0 <= i < |names| ensures IsCleanPath(names[i]) {
      StripAllAt(ns, i);
    }
    JoinOfCleanPaths(names);
  }

  /** A URL-like first part: stripping changes nothing, and `//` is appended. */
  lemma {:induction false} UrlSegment(scheme: string, rest: string)
    requires IsScheme(scheme) && |rest| > 0 && rest[0] != '/' && rest[|rest| - 1] != '/'
    ensures var u := scheme + "://" + rest;
      !Discarded(u) && StripSlashes(u) == u && LooksLikeUrl(u) && FirstSegment(u) == u + "//"
  {
    var u := scheme + "://" + rest;
    assert u[0] == scheme[0];
    assert u[|u| - 1] == rest[|rest| - 1];
    assert DropLeadingSlashes(u) == u;
    assert DropTrailingSlashes(u) == u;
    LetterRunOfScheme(scheme, rest);
  }

  lemma {:induction false} LetterRunOfScheme(scheme: string, host: string)
    requires forall i :: 0 <= i < |scheme| ==> IsAsciiLetter(scheme[i])
    ensures LetterRun(scheme + "://" + host) == |scheme|
    decreases |scheme|
  {
    var s := scheme + "://" + host;
    if |scheme| > 0 {
      assert s[0] == scheme[0];
      assert s[1..] == scheme[1..] + "://" + host;
      LetterRunOfScheme(scheme[1..], host);
    } else {
      assert s[0] == ':';
    }
  }

  lemma {:induction false} KeptCons(a: string, rest: seq<string>)
    requires !Discarded(a)
    ensures KeptParts([a] + rest) == [a] + KeptParts(rest)
  {
    assert ([a] + rest)[0] == a;
    assert ([a] + rest)[1..] == rest;
  }

  lemma {:induction false} SegmentsCons(a: string, rest: seq<string>)
    ensures Segments([a] + rest) == [FirstSegment(a)] + StripAll(rest)
  {
    assert ([a] + rest)[0] == a;
    assert ([a] + rest)[1..] == rest;
  }

  lemma {:induction false} StripAllCons(a: string, rest: seq<string>)
    ensures StripAll([a] + rest) == [StripSlashes(a)] + StripAll(rest)
  {
    assert ([a] + rest)[0] == a;
    assert ([a] + rest)[1..] == rest;
  }

  lemma {:induction false} JoinCons(a: string, rest: seq<string>, sep: string)
    requires |rest| >= 1
    ensures Join([a] + rest, sep) == a + sep + Join(rest, sep)
  {
    assert ([a] + rest)[1..] == rest;
  }

  lemma {:induction false} SlashThenPlain(j: string)
    requires |j| > 0 && j[0] != '/'
    ensures CollapseDoubleSlashes("/" + j) == "/" + CollapseDoubleSlashes(j)
  {
    var s := "/" + j;
    assert s[1] == j[0];
    assert s[1..] == j;
  }

  lemma {:induction false} LettersAreSlashFree(w: string)
    requires forall i :: 0 <= i < |w| ==> IsAsciiLetter(w[i])
    ensures '/' !in w
  {
    forall i | 0 <= i < |w| ensures w[i] != '/' {
      assert IsAsciiLetter(w[i]);
    }
  }

  lemma {:induction false} CollapseColon(x: string)
    ensures CollapseDoubleSlashes(":" + x) == ":" + CollapseDoubleSlashes(x)
  {
    assert (":" + x)[0] == ':';
    assert (":" + x)[1..] == x;
  }

  /** The collapse pass copies `scheme://` and resumes behind it. */
  lemma {:induction false} CollapseAfterScheme(scheme: string, y: string)
    requires forall i :: 0 <= i < |scheme| ==> IsAsciiLetter(scheme[i])
    requires |y| == 0 || y[0] != '/'
    ensures CollapseDoubleSlashes(scheme + ("://" + y)) == scheme + ("://" + CollapseDoubleSlashes(y))
  {
    LettersAreSlashFree(scheme);
    SlashFreeHasNoDoubleSlash(scheme);
    var rest := "://" + y;
    assert rest[0] == ':';
    assert !StartsWith(rest, "//");
    if |scheme| > 0 {
      assert scheme[|scheme| - 1] in scheme;
    }
    CollapseCleanPrefix(scheme, rest);
    assert rest == ":" + ("//" + y);
    CollapseColon("//" + y);
    CollapseKeepsLeadingDoubleSlash(y);
    assert ":" + ("//" + CollapseDoubleSlashes(y)) == "://" + CollapseDoubleSlashes(y);
  }

  /** As written, a URL on its own comes out with a trailing `/`: `joinPath("http://h")` is `"http://h/"`. */
  lemma {:induction false} JoinPathOfUrlAlone(scheme: string, rest: string)
    requires IsUrl(scheme, rest)
    ensures JoinPath([scheme + "://" + rest]) == scheme + "://" + rest + "/"
  {
    var u := scheme + "://" + rest;
    UrlAloneSegment(scheme, rest);
    CollapseCleanThenTrailingSlashes(rest);
    assert rest[0] != '/';
    CollapseAfterScheme(scheme, rest + "//");
    RegroupUrl(scheme, rest, "//");
    RegroupUrl(scheme, rest, "/");
  }

  /** A URL on its own is one segment, with `//` appended. */
  lemma {:induction false} UrlAloneSegment(scheme: string, rest: string)
    requires IsUrl(scheme, rest)
    ensures JoinPath([scheme + "://" + rest]) == CollapseDoubleSlashes(scheme + "://" + rest + "//")
  {
    var u := scheme + "://" + rest;
    UrlSegment(scheme, rest);
    KeptCons(u, []);
    assert [u] + [] == [u];
    SegmentsCons(u, []);
    assert Segments([u]) == [u + "//"];
  }

  /** A clean path followed by `//` and nothing else: the pass leaves one `/`. */
  lemma {:induction false} CollapseCleanThenTrailingSlashes(w: string)
    requires IsCleanPath(w) && w[|w| - 1] != ':'
    ensures CollapseDoubleSlashes(w + "//") == w + "/"
  {
    CollapseCleanThenDoubleSlash(w, "");
    assert w + "//" + "" == w + "//";
    assert w + "/" + "" == w + "/";
  }

  lemma RegroupUrl(scheme: string, rest: string, tail: string)
    ensures scheme + ("://" + (rest + tail)) == scheme + "://" + rest + tail
  {
  }

  /**
   * As written, a URL joined with further parts: the URL gets `//` appended
   * and the pass merges only two of the three slashes behind it, so `//`
   * stays between the URL and the rest.
   */
  lemma {:induction false} JoinPathAfterUrl(scheme: string, rest: string, ns: seq<string>)
    requires IsUrl(scheme, rest)
    requires |ns| >= 1 && forall i :: 0 <= i < |ns| ==> IsPathPart(ns[i])
    ensures JoinPath([scheme + "://" + rest] + ns) == scheme + "://" + rest + "//" + Join(StripAll(ns), "/")
  {
    var u := scheme + "://" + rest;
    UrlSegment(scheme, rest);
    KeptPathParts(ns);
    KeptCons(u, ns);
    SegmentsCons(u, ns);
    var j := Join(StripAll(ns), "/");
    PathPartsJoin(ns);
    JoinCons(u + "//", StripAll(ns), "/");
    assert JoinPath([u] + ns) == CollapseDoubleSlashes(u + "//" + "/" + j);
    CollapseUrlThenSlashes(scheme, rest, j);
  }

  lemma {:induction false} CollapseUrlThenSlashes(scheme: string, rest: string, j: string)
    requires IsUrl(scheme, rest) && IsCleanPath(j)
    ensures CollapseDoubleSlashes(scheme + "://" + rest + "//" + "/" + j) == scheme + "://" + rest + "//" + j
  {
    var y := rest + "//" + ("/" + j);
    RegroupTripleSlash(scheme, rest, j);
    assert y[0] == rest[0];
    CollapseAfterScheme(scheme, y);
    CollapseCleanThenDoubleSlash(rest, "/" + j);
    SlashThenPlain(j);
    CollapseWithoutDoubleSlash(j);
    assert CollapseDoubleSlashes(y) == rest + "/" + ("/" + j);
    RegroupDoubleSlash(scheme, rest, j);
  }

  lemma {:induction false} RegroupTripleSlash(scheme: string, rest: string, j: string)
    ensures scheme + "://" + rest + "//" + "/" + j == scheme + ("://" + (rest + "//" + ("/" + j)))
  {
  }

  lemma {:induction false} RegroupDoubleSlash(scheme: string, rest: string, j: string)
    ensures scheme + ("://" + (rest + "/" + ("/" + j))) == scheme + "://" + rest + "//" + j
  {
  }

  /**
   * As written: joining an origin with further parts leaves `//` between the
   * host and the first part.
   */
  lemma {:induction false} JoinPathAfterOrigin(scheme: string, host: string, ns: seq<string>)
    requires IsOrigin(scheme, host)
    requires |ns| >= 1 && forall i :: 0 <= i < |ns| ==> IsPathPart(ns[i])
    ensures JoinPath([scheme + "://" + host] + ns)
         == scheme + "://" + host + "//" + Join(StripAll(ns), "/")
  {
    OriginIsUrl(scheme, host);
    JoinPathAfterUrl(scheme, host, ns);
  }

  /**
   * As written, joining onto `scheme://p//d`, the form the joiner itself
   * produces: the pass now merges the `//` behind `p`, and a new `//`
   * appears behind `d`.
   */
  lemma {:induction false} JoinPathAfterDoubledUrl(scheme: string, p: string, d: string, ns: seq<string>)
    requires IsUrl(scheme, p) && IsCleanPath(d) && d[|d| - 1] != ':'
    requires |ns| >= 1 && forall i :: 0 <= i < |ns| ==> IsPathPart(ns[i])
    ensures JoinPath([scheme + "://" + p + "//" + d] + ns)
         == scheme + "://" + p + "/" + d + "//" + Join(StripAll(ns), "/")
  {
    var rest := p + "//" + d;
    var u := scheme + "://" + p + "//" + d;
    assert u == scheme + "://" + rest;
    assert rest[0] == p[0];
    assert rest[|rest| - 1] == d[|d| - 1];
    UrlSegment(scheme, rest);
    KeptPathParts(ns);
    KeptCons(u, ns);
    SegmentsCons(u, ns);
    var j := Join(StripAll(ns), "/");
    PathPartsJoin(ns);
    JoinCons(u + "//", StripAll(ns), "/");
    assert JoinPath([u] + ns) == CollapseDoubleSlashes(u + "//" + "/" + j);
    CollapseDoubledUrl(scheme, p, d, j);
  }

  lemma {:induction false} CollapseDoubledUrl(scheme: string, p: string, d: string, j: string)
    requires IsUrl(scheme, p) && IsCleanPath(d) && d[|d| - 1] != ':' && IsCleanPath(j)
    ensures CollapseDoubleSlashes(scheme + "://" + p + "//" + d + "//" + "/" + j)
         == scheme + "://" + p + "/" + d + "//" + j
  {
    var x := d + "//" + ("/" + j);
    var y := p + "//" + x;
    RegroupDoubledUrl(scheme, p, d, j);
    assert y[0] == p[0];
    CollapseAfterScheme(scheme, y);
    CollapseCleanThenDoubleSlash(p, x);
    CollapseCleanThenDoubleSlash(d, "/" + j);
    SlashThenPlain(j);
    CollapseWithoutDoubleSlash(j);
    assert CollapseDoubleSlashes(y) == p + "/" + (d + "/" + ("/" + j));
    RegroupRepairedUrl(scheme, p, d, j);
  }

  lemma {:induction false} RegroupDoubledUrl(scheme: string, p: string, d: string, j: string)
    ensures scheme + "://" + p + "//" + d + "//" + "/" + j == scheme + ("://" + (p + "//" + (d + "//" + ("/" + j))))
  {
  }

  lemma {:induction false} RegroupRepairedUrl(scheme: string, p: string, d: string, j: string)
    ensures scheme + ("://" + (p + "/" + (d + "/" + ("/" + j)))) == scheme + "://" + p + "/" + d + "//" + j
  {
  }

  /** A clean path, with or without one leading `/`, strips to itself. */
  lemma {:induction false} StripCleanPath(p: string)
    requires IsCleanPath(p)
    ensures StripSlashes(p) == p && StripSlashes("/" + p) == p
    ensures IsPathPart("/" + p) && (p != "." ==> IsPathPart(p))
  {
    var q := "/" + p;
    assert q[0] == '/' && q[1..] == p;
    assert DropLeadingSlashes(p) == p;
    assert DropLeadingSlashes(q) == p;
    KeepsNonSlashEnd(p);
  }

  /** A non-empty slash-free text is a clean path. */
  lemma {:induction false} SlashFreeIsClean(p: string)
    requires |p| > 0 && '/' !in p
    ensures IsCleanPath(p)
  {
    assert p[0] in p && p[|p| - 1] in p;
    SlashFreeHasNoDoubleSlash(p);
  }

  /** A non-empty slash-free word other than `.` is a part the joiner keeps and does not strip. */
  lemma PlainWord(c: string)
    requires c != "" && c != "." && '/' !in c
    ensures IsPathPart(c) && StripSlashes(c) == c
  {
    SlashFreeIsClean(c);
    StripCleanPath(c);
  }

  /** Trailing slashes on a first part make no difference: `joinPath("http://h/", x)` is `joinPath("http://h", x)`. */
  lemma {:induction false} JoinPathIgnoresTrailingSlash(u: string, ns: seq<string>)
    requires !Discarded(u) && u[0] != '/' && u[|u| - 1] != '/'
    ensures JoinPath([u + "/"] + ns) == JoinPath([u] + ns)
  {
    var v := u + "/";
    assert v[0] == u[0];
    assert DropLeadingSlashes(v) == v;
    assert DropLeadingSlashes(u) == u;
    assert v[..|v| - 1] == u;
    KeepsNonSlashEnd(u);
    assert StripSlashes(v) == StripSlashes(u);
    assert !Discarded(v);
    KeptCons(v, ns);
    KeptCons(u, ns);
    SegmentsCons(v, KeptParts(ns));
    SegmentsCons(u, KeptParts(ns));
  }

  /** Corrected: joining an origin with further parts puts exactly one `/` between them. */
  lemma {:induction false} JoinPathIntendedAfterOrigin(scheme: string, host: string, ns: seq<string>)
    requires IsOrigin(scheme, host)
    requires |ns| >= 1 && forall i :: 0 <= i < |ns| ==> IsPathPart(ns[i])
    ensures JoinPathIntended([scheme + "://" + host] + ns)
         == scheme + "://" + host + "/" + Join(StripAll(ns), "/")
  {
    var origin := scheme + "://" + host;
    OriginIsUrl(scheme, host);
    UrlSegment(scheme, host);
    KeptPathParts(ns);
    KeptCons(origin, ns);
    StripAllCons(origin, ns);
    PathPartsJoin(ns);
    var j := Join(StripAll(ns), "/");
    JoinCons(origin, StripAll(ns), "/");
    assert Join(StripAll(KeptParts([origin] + ns)), "/") == origin + "/" + j;
    CollapseOriginThenSlash(scheme, host, j);
  }

  lemma {:induction false} CollapseOriginThenSlash(scheme: string, host: string, j: string)
    requires IsOrigin(scheme, host) && IsCleanPath(j)
    ensures CollapseDoubleSlashes(scheme + "://" + host + "/" + j)
         == scheme + "://" + host + "/" + j
  {
    var y := host + ("/" + j);
    assert scheme + "://" + host + "/" + j == scheme + ("://" + y);
    assert y[0] == host[0] && host[0] in host;
    CollapseAfterScheme(scheme, y);
    OriginIsUrl(scheme, host);
    assert ("/" + j)[1] == j[0];
    assert !StartsWith("/" + j, "//");
    CollapseCleanPrefix(host, "/" + j);
    SlashThenPlain(j);
    CollapseWithoutDoubleSlash(j);
  }

  lemma {:induction false} ExampleOrigin()
    ensures IsOrigin("http", "h")
    ensures "http" + "://" + "h" == "http://h"
  {
  }

  lemma {:induction false} ExampleName()
    ensures IsPathPart("c")
    ensures Join(StripAll(["c"]), "/") == "c"
  {
    assert DropLeadingSlashes("c") == "c";
    assert DropTrailingSlashes("c") == "c";
    assert StripSlashes("c") == "c";
    assert StripAll(["c"]) == ["c"];
  }

  lemma {:induction false} ExampleInput()
    ensures ["http" + "://" + "h"] + ["c"] == ["http://h", "c"]
  {
    ExampleOrigin();
  }

  lemma {:induction false} ExampleOutputs()
    ensures "http" + "://" + "h" + "//" + "c" == "http://h//c"
    ensures "http" + "://" + "h" + "/" + "c" == "http://h/c"
  {
  }

  /** `joinPath("http://h", "c")` is `"http://h//c"`. */
  lemma {:induction false} JoinPathDoublesSlashAfterHost()
    ensures JoinPath(["http://h", "c"]) == "http://h//c"
  {
    ExampleOrigin();
    ExampleName();
    ExampleInput();
    JoinPathAfterOrigin("http", "h", ["c"]);
    ExampleOutputs();
  }

  /** The corrected joiner gives `"http://h/c"` for the same input. */
  lemma {:induction false} JoinPathIntendedSingleSlashAfterHost()
    ensures JoinPathIntended(["http://h", "c"]) == "http://h/c"
  {
    ExampleOrigin();
    ExampleName();
    ExampleInput();
    JoinPathIntendedAfterOrigin("http", "h", ["c"]);
    ExampleOutputs();
  }
}

=== FILE: placeholders.dfy ===
/**
 * The mustache-style placeholders both JSON renderers substitute:
 * `template.replace(/\{\{\s*([\w\.]+)\s*\}\}/g, replacer)`, and the two
 * ways the replacers look a dotted path up in the data.
 */
module Placeholders {
  import opened Wrappers
  import opened Text
  import opened JsonValues

  /** `\w`: ASCII letters, digits and `_`. */
  predicate IsWordChar(c: char) { IsAsciiLetter(c) || '0' <= c <= '9' || c == '_' }

  /** `[\w\.]`: the characters of a placeholder path. */
  predicate IsPathChar(c: char) { IsWordChar(c) || c == '.' }

  /** The end of the run of `\s` characters that starts at `i`. */
  function SpaceEnd(s: string, i: nat): (j: nat)
    requires i <= |s|
    ensures i <= j <= |s|
    decreases |s| - i
  {
    if i < |s| && IsJsSpace(s[i]) then SpaceEnd(s, i + 1) else i
  }

  /** The end of the run of path characters that starts at `i`. */
  function PathEnd(s: string, i: nat): (j: nat)
    requires i <= |s|
    ensures i <= j <= |s|
    decreases |s| - i
  {
    if i < |s| && IsPathChar(s[i]) then PathEnd(s, i + 1) else i
  }

  /** A placeholder found at the start of a text: its captured path and how many characters it spans. */
  datatype Placeholder = Placeholder(path: string, length: nat)

  /**
   * The expression tried at the start of `s`. `\s` and `[\w\.]` share no
   * character and neither contains `}`, so the greedy runs are the only way
   * the expression can match.
   */
  function PlaceholderAt(s: string): (r: Option<Placeholder>)
    ensures r.Some? ==> 5 <= r.value.length <= |s| && |r.value.path| >= 1
    ensures r.Some? ==> s[0] == '{' && s[r.value.length - 1] == '}'
  {
    if |s| < 2 || s[0] != '{' || s[1] != '{' then None
    else
      var a := SpaceEnd(s, 2);
      var b := PathEnd(s, a);
      var c := SpaceEnd(s, b);
      if a < b && c + 2 <= |s| && s[c] == '}' && s[c + 1] == '}' then Some(Placeholder(s[a..b], c + 2))
      else None
  }

  /**
   * `String.prototype.replace` with a global expression and a replacer: every
   * placeholder, scanning left to right, is replaced by `value(path)`;
   * scanning resumes after the placeholder, so a substituted value is never
   * scanned again; all other characters are copied.
   */
  function Interpolate(s: string, value: string -> string): string
    decreases |s|
  {
    if |s| == 0 then ""
    else match PlaceholderAt(s)
      case Some(p) => value(p.path) + Interpolate(s[p.length..], value)
      case None => [s[0]] + Interpolate(s[1..], value)
  }

  /**
   * Walking a dotted path: `None` (`undefined`) as soon as a step starts from
   * `undefined` or `null`, and otherwise the property the last key names.
   */
  function Walk(v: Option<Json>, keys: seq<string>): Option<Json>
    decreases |keys|
  {
    if |keys| == 0 then v
    else if v.None? || v.value.JNull? then None
    else Walk(Property(v.value, keys[0]), keys[1..])
  }

  /** The replacer of `src/jrx.ts`: `null` and `undefined`, anywhere on the path or at its end, give `""`. */
  function JrxValueText(data: Json, path: string): (r: string)
    ensures Walk(Some(data), Split(path, '.')) in {None, Some(JNull)} ==> r == ""
  {
    match Walk(Some(data), Split(path, '.'))
    case None => ""
    case Some(v) => if v.JNull? then "" else Stringify(v)
  }

  /** The replacer of `src/json-renderer/jrx.ts`: optional chaining; a `null` at the end prints as `"null"`. */
  function RendererValueText(data: Json, path: string): (r: string)
    ensures Walk(Some(data), Split(path, '.')).None? ==> r == ""
  {
    match Walk(Some(data), Split(path, '.'))
    case None => ""
    case Some(v) => Stringify(v)
  }

  // ---------------------------------------------------------------------------
  // Properties
  // ---------------------------------------------------------------------------

  /** A character other than `{` is copied and scanning moves on by one. */
  lemma InterpolateCopies(c: char, t: string, value: string -> string)
    requires c != '{'
    ensures Interpolate([c] + t, value) == [c] + Interpolate(t, value)
  {
    assert ([c] + t)[1..] == t;
  }

  /** Where no placeholder starts, the first character is copied and scanning moves on by one. */
  lemma InterpolateSkips(s: string, value: string -> string)
    requires |s| > 0 && PlaceholderAt(s).None?
    ensures Interpolate(s, value) == [s[0]] + Interpolate(s[1..], value)
  {
  }

  /** At a placeholder the replacement is emitted and scanning moves past the placeholder. */
  lemma InterpolateReplaces(s: string, p: Placeholder, value: string -> string)
    requires PlaceholderAt(s) == Some(p)
    ensures Interpolate(s, value) == value(p.path) + Interpolate(s[p.length..], value)
  {
  }

  /** No `{` means no placeholder: the text comes back unchanged. */
  lemma {:induction false} InterpolateWithoutBrace(s: string, value: string -> string)
    requires '{' !in s
    ensures Interpolate(s, value) == s
    decreases |s|
  {
    if |s| > 0 {
      InterpolatePlainPrefix(s, "", value);
      assert s + "" == s;
    }
  }

  /** Text before the first `{` is copied verbatim. */
  lemma {:induction false} InterpolatePlainPrefix(a: string, rest: string, value: string -> string)
    requires '{' !in a
    ensures Interpolate(a + rest, value) == a + Interpolate(rest, value)
    decreases |a|
  {
    if |a| == 0 {
      assert a + rest == rest;
    } else {
      var t := a[1..] + rest;
      assert a + rest == [a[0]] + t;
      assert a[0] in a;
      assert forall c :: c in a[1..] ==> c in a;
      InterpolateCopies(a[0], t, value);
      InterpolatePlainPrefix(a[1..], rest, value);
      assert a == [a[0]] + a[1..];
    }
  }

  /** `SpaceEnd` stops at the first character that is not `\s`. */
  lemma {:induction false} SpaceEndSpans(s: string, i: nat)
    requires i <= |s|
    ensures var j := SpaceEnd(s, i);
      (j == |s| || !IsJsSpace(s[j])) && forall k :: i <= k < j ==> IsJsSpace(s[k])
    decreases |s| - i
  {
    if i < |s| && IsJsSpace(s[i]) {
      SpaceEndSpans(s, i + 1);
    }
  }

  /** `PathEnd` stops at the first character that is not a path character. */
  lemma {:induction false} PathEndSpans(s: string, i: nat)
    requires i <= |s|
    ensures var j := PathEnd(s, i);
      (j == |s| || !IsPathChar(s[j])) && forall k :: i <= k < j ==> IsPathChar(s[k])
    decreases |s| - i
  {
    if i < |s| && IsPathChar(s[i]) {
      PathEndSpans(s, i + 1);
    }
  }

  /** A recognised path is made of path characters only, as `[\w\.]+` demands. */
  lemma PlaceholderPathChars(s: string)
    requires PlaceholderAt(s).Some?
    ensures forall i :: 0 <= i < |PlaceholderAt(s).value.path| ==> IsPathChar(PlaceholderAt(s).value.path[i])
  {
    var a := SpaceEnd(s, 2);
    PathEndSpans(s, a);
  }

  /** A run of `\s` characters ended by anything else is measured exactly. */
  lemma {:induction false} SpaceEndAt(s: string, i: nat, j: nat)
    requires i <= j <= |s| && (j == |s| || !IsJsSpace(s[j]))
    requires forall k :: i <= k < j ==> IsJsSpace(s[k])
    ensures SpaceEnd(s, i) == j
    decreases j - i
  {
    if i < j {
      SpaceEndAt(s, i + 1, j);
    }
  }

  /** A run of path characters ended by anything else is measured exactly. */
  lemma {:induction false} PathEndAt(s: string, i: nat, j: nat)
    requires i <= j <= |s| && (j == |s| || !IsPathChar(s[j]))
    requires forall k :: i <= k < j ==> IsPathChar(s[k])
    ensures PathEnd(s, i) == j
    decreases j - i
  {
    if i < j {
      PathEndAt(s, i + 1, j);
    }
  }

  /** A well-formed placeholder, spaces around its path allowed. */
  predicate IsPlaceholder(before: string, path: string, after: string) {
    |path| >= 1
    && (forall i :: 0 <= i < |path| ==> IsPathChar(path[i]))
    && (forall i :: 0 <= i < |before| ==> IsJsSpace(before[i]))
    && (forall i :: 0 <= i < |after| ==> IsJsSpace(after[i]))
  }

  /** The text of a placeholder: `{{`, spaces, the path, spaces, `}}`. */
  function PlaceholderText(before: string, path: string, after: string): string {
    "{{" + (before + (path + (after + "}}")))
  }

  /** The placeholder `{{ path }}` at the start of a text is recognised with exactly its path and extent. */
  lemma PlaceholderRecognised(before: string, path: string, after: string, rest: string)
    requires IsPlaceholder(before, path, after)
    ensures PlaceholderAt(PlaceholderText(before, path, after) + rest)
         == Some(Placeholder(path, |PlaceholderText(before, path, after)|))
  {
    var s := PlaceholderText(before, path, after) + rest;
    var a := 2 + |before|;
    var b := a + |path|;
    var c := b + |after|;
    PlaceholderLayout(before, path, after, rest);
    SpaceEndAt(s, 2, a);
    PathEndAt(s, a, b);
    SpaceEndAt(s, b, c);
  }

  /** Where each part of a placeholder's text sits. */
  lemma PlaceholderLayout(before: string, path: string, after: string, rest: string)
    requires IsPlaceholder(before, path, after)
    ensures var s := PlaceholderText(before, path, after) + rest;
      var a := 2 + |before|;
      var b := a + |path|;
      var c := b + |after|;
      && |s| >= c + 2 && |PlaceholderText(before, path, after)| == c + 2
      && s[0] == '{' && s[1] == '{' && s[c] == '}' && s[c + 1] == '}'
      && (forall k :: 2 <= k < a ==> IsJsSpace(s[k]))
      && (forall k :: a <= k < b ==> IsPathChar(s[k]))
      && (forall k :: b <= k < c ==> IsJsSpace(s[k]))
      && s[a..b] == path
  {
    var s := PlaceholderText(before, path, after) + rest;
    var a := 2 + |before|;
    var b := a + |path|;
    assert forall k :: 2 <= k < a ==> s[k] == before[k - 2];
    assert forall k :: a <= k < b ==> s[k] == path[k - a];
    assert forall k :: b <= k < b + |after| ==> s[k] == after[k - b];
  }

  lemma SamePrefixSameChars(s: string, t: string, n: nat)
    requires n <= |s| && n <= |t| && t[..n] == s[..n]
    ensures forall k :: 0 <= k < n ==> t[k] == s[k]
  {
    forall k | 0 <= k < n
      ensures t[k] == s[k]
    {
      assert t[..n][k] == s[..n][k];
    }
  }

  /** Whether a placeholder starts a text depends only on the characters the placeholder spans. */
  lemma PlaceholderAtIsLocal(s: string, t: string, p: Placeholder)
    requires PlaceholderAt(s) == Some(p)
    requires p.length <= |t| && t[..p.length] == s[..p.length]
    ensures PlaceholderAt(t) == Some(p)
  {
    var a := SpaceEnd(s, 2);
    var b := PathEnd(s, a);
    var c := SpaceEnd(s, b);
    SpaceEndSpans(s, 2);
    PathEndSpans(s, a);
    SpaceEndSpans(s, b);
    SamePrefixSameChars(s, t, p.length);
    assert a < b <= c && c + 2 == p.length;
    assert t[a] == s[a] && t[b] == s[b] && t[c] == s[c];
    forall k | 2 <= k < a ensures IsJsSpace(t[k]) { assert t[k] == s[k]; }
    forall k | a <= k < b ensures IsPathChar(t[k]) { assert t[k] == s[k]; }
    forall k | b <= k < c ensures IsJsSpace(t[k]) { assert t[k] == s[k]; }
    SpaceEndAt(t, 2, a);
    PathEndAt(t, a, b);
    SpaceEndAt(t, b, c);
    assert t[a..b] == s[a..b];
  }

  /** A placeholder found in `x + c` lies within `x` when `c` has no `}`. */
  lemma PlaceholderBeforeSuffix(x: string, c: string, p: Placeholder)
    requires '}' !in c
    requires PlaceholderAt(x + c) == Some(p)
    ensures p.length <= |x| && PlaceholderAt(x) == Some(p)
  {
    var s := x + c;
    forall k | |x| <= k < |s|
      ensures s[k] != '}'
    {
      assert s[k] == c[k - |x|] && c[k - |x|] in c;
    }
    assert x[..p.length] == s[..p.length];
    PlaceholderAtIsLocal(s, x, p);
  }

  /** A placeholder that starts `x` still starts `x + c`. */
  lemma PlaceholderBeforeAnySuffix(x: string, c: string, p: Placeholder)
    requires PlaceholderAt(x) == Some(p)
    ensures PlaceholderAt(x + c) == Some(p)
  {
    assert (x + c)[..p.length] == x[..p.length];
    PlaceholderAtIsLocal(x, x + c, p);
  }

  /**
   * Text free of braces appended after a template neither completes nor
   * breaks a placeholder: it is copied after the interpolated template.
   */
  lemma {:induction false} InterpolateBraceFreeSuffix(x: string, c: string, value: string -> string)
    requires '{' !in c && '}' !in c
    ensures Interpolate(x + c, value) == Interpolate(x, value) + c
    decreases |x|
  {
    if |x| == 0 {
      assert x + c == c;
      InterpolateWithoutBrace(c, value);
    } else if PlaceholderAt(x).Some? {
      var p := PlaceholderAt(x).value;
      InterpolateBraceFreeSuffix(x[p.length..], c, value);
      SuffixAfterPlaceholder(x, c, p, value);
    } else {
      InterpolateBraceFreeSuffix(x[1..], c, value);
      SuffixAfterCopy(x, c, value);
    }
  }

  /** The step of `InterpolateBraceFreeSuffix` at a placeholder. */
  lemma SuffixAfterPlaceholder(x: string, c: string, p: Placeholder, value: string -> string)
    requires PlaceholderAt(x) == Some(p)
    requires Interpolate(x[p.length..] + c, value) == Interpolate(x[p.length..], value) + c
    ensures Interpolate(x + c, value) == Interpolate(x, value) + c
  {
    ReplacesBeforeSuffix(x, c, p, value);
    InterpolateReplaces(x, p, value);
    AppendAssoc(value(p.path), Interpolate(x[p.length..], value), c);
  }

  /** The step of `InterpolateBraceFreeSuffix` at a copied character. */
  lemma SuffixAfterCopy(x: string, c: string, value: string -> string)
    requires '}' !in c
    requires |x| > 0 && PlaceholderAt(x).None?
    requires Interpolate(x[1..] + c, value) == Interpolate(x[1..], value) + c
    ensures Interpolate(x + c, value) == Interpolate(x, value) + c
  {
    SkipsBeforeSuffix(x, c, value);
    InterpolateSkips(x, value);
    AppendAssoc([x[0]], Interpolate(x[1..], value), c);
  }

  lemma AppendAssoc(a: string, b: string, c: string)
    ensures a + (b + c) == (a + b) + c
  {
  }

  /** A placeholder starting `x` is replaced the same way in `x + c`. */
  lemma ReplacesBeforeSuffix(x: string, c: string, p: Placeholder, value: string -> string)
    requires PlaceholderAt(x) == Some(p)
    ensures Interpolate(x + c, value) == value(p.path) + Interpolate(x[p.length..] + c, value)
  {
    PlaceholderBeforeAnySuffix(x, c, p);
    InterpolateReplaces(x + c, p, value);
    assert (x + c)[p.length..] == x[p.length..] + c;
  }

  /** Where no placeholder starts `x`, none starts `x + c` either when `c` has no `}`. */
  lemma SkipsBeforeSuffix(x: string, c: string, value: string -> string)
    requires '}' !in c
    requires |x| > 0 && PlaceholderAt(x).None?
    ensures Interpolate(x + c, value) == [x[0]] + Interpolate(x[1..] + c, value)
  {
    var s := x + c;
    if PlaceholderAt(s).Some? {
      PlaceholderBeforeSuffix(x, c, PlaceholderAt(s).value);
    }
    InterpolateSkips(s, value);
    assert s[1..] == x[1..] + c;
  }

  /**
   * A placeholder is replaced by `value(path)`, which is emitted as it is:
   * scanning resumes after the placeholder.
   */
  lemma InterpolatePlaceholder(before: string, path: string, after: string, rest: string, value: string -> string)
    requires IsPlaceholder(before, path, after)
    ensures Interpolate(PlaceholderText(before, path, after) + rest, value) == value(path) + Interpolate(rest, value)
  {
    var t := PlaceholderText(before, path, after);
    PlaceholderRecognised(before, path, after, rest);
    InterpolateReplaces(t + rest, Placeholder(path, |t|), value);
    assert (t + rest)[|t|..] == rest;
  }

  /** Walking from `undefined` or `null` stays `undefined`, whatever keys remain. */
  lemma {:induction false} WalkFromNothing(v: Option<Json>, keys: seq<string>)
    requires |keys| >= 1 && (v.None? || v == Some(JNull))
    ensures Walk(v, keys).None?
  {
  }

  /** Walking a path in two halves is walking it at once. */
  lemma {:induction false} WalkAppend(v: Option<Json>, a: seq<string>, b: seq<string>)
    ensures Walk(v, a + b) == Walk(Walk(v, a), b)
    decreases |a|
  {
    if |a| == 0 {
      assert a + b == b;
    } else if v.None? || v.value.JNull? {
      if |b| > 0 {
        WalkFromNothing(Walk(v, a), b);
      }
    } else {
      assert (a + b)[1..] == a[1..] + b;
      WalkAppend(Property(v.value, a[0]), a[1..], b);
    }
  }

  /** The two replacers disagree exactly on a `null` at the end of the path. */
  lemma ReplacersDifferOnlyOnNullLeaf(data: Json, path: string)
    ensures Walk(Some(data), Split(path, '.')) == Some(JNull) ==>
      JrxValueText(data, path) == "" && RendererValueText(data, path) == "null"
    ensures Walk(Some(data), Split(path, '.')) != Some(JNull) ==>
      JrxValueText(data, path) == RendererValueText(data, path)
  {
  }
}

=== FILE: proxies.dfy ===
/**
 * `setupTemplatesWithHtmx` of `src/common/template-handler.ts`: every
 * `<template>` carrying a request attribute gets a hidden proxy element
 * that carries the template's `hx-` attributes instead, targets the
 * template, and is triggered on load unless its trigger says otherwise.
 *
 * The document is reduced to what the setup reads and writes: the
 * templates in document order, the ids of all elements, the proxies it
 * created and the proxies it scheduled a `load` event for.
 */
module TemplateProxies {
  import opened Text
  import opened HtmxAttributes

  datatype TemplateElement = TemplateElement(id: string, attrs: Attributes)

  /** A proxy `div`; its `display: none` style is fixed and not recorded. */
  datatype Proxy = Proxy(id: string, attrs: Attributes)

  datatype Document = Document(
    templates: seq<TemplateElement>,
    ids: set<string>,
    proxies: seq<Proxy>,
    scheduled: seq<string>)

  /** `template[hx-get], template[hx-post], template[hx-put], template[hx-delete]`. */
  predicate IsRequestTemplate(t: TemplateElement) {
    "hx-get" in t.attrs || "hx-post" in t.attrs || "hx-put" in t.attrs || "hx-delete" in t.attrs
  }

  function ProxyId(templateId: string): string {
    templateId + "-proxy"
  }

  /** The proxy's attributes: the template's `hx-` attributes, with `hx-target` pointing at the template when none was copied. */
  function ProxyAttributes(t: TemplateElement): (r: Attributes)
    ensures forall n :: n in r <==> (n in t.attrs && IsHtmx(n)) || n == "hx-target"
    ensures forall n :: n in t.attrs && IsHtmx(n) ==> r[n] == t.attrs[n]
    ensures "hx-target" !in t.attrs ==> r["hx-target"] == "#" + t.id
  {
    var copied := HtmxPart(t.attrs);
    assert "hx-target"[..3] == "hx-";
    if "hx-target" in copied then copied else copied["hx-target" := "#" + t.id]
  }

  /** `proxy.getAttribute('hx-trigger') || 'load'`. */
  function TriggerValue(attrs: Attributes): string {
    if "hx-trigger" in attrs && attrs["hx-trigger"] != "" then attrs["hx-trigger"] else "load"
  }

  /** Whether the proxy is sent a `load` event after setup. */
  predicate AutoTriggers(p: Proxy) {
    Contains(TriggerValue(p.attrs), "load")
  }

  /**
   * One iteration of the `forEach`, for the template at index `i`: skipped
   * when it carries no request attribute or its proxy id is taken;
   * otherwise the proxy is created, the template loses its `hx-`
   * attributes, and the proxy is scheduled for a `load` event if its
   * trigger mentions `load`.
   */
  function Step(doc: Document, i: nat): (r: Document)
    requires i < |doc.templates|
    ensures |r.templates| == |doc.templates|
    ensures forall j :: 0 <= j < |doc.templates| && j != i ==> r.templates[j] == doc.templates[j]
    ensures r.templates[i].id == doc.templates[i].id
    ensures doc.ids <= r.ids && |doc.proxies| <= |r.proxies| && r.proxies[..|doc.proxies|] == doc.proxies
    ensures IsRequestTemplate(doc.templates[i]) ==> ProxyId(doc.templates[i].id) in r.ids
  {
    var t := doc.templates[i];
    if !IsRequestTemplate(t) || ProxyId(t.id) in doc.ids then doc
    else
      var proxy := Proxy(ProxyId(t.id), ProxyAttributes(t));
      Document(
        doc.templates[i := t.(attrs := WithoutHtmx(t.attrs))],
        doc.ids + {proxy.id},
        doc.proxies + [proxy],
        if AutoTriggers(proxy) then doc.scheduled + [proxy.id] else doc.scheduled)
  }

  /** The iterations from index `i` on. */
  function SetupFrom(doc: Document, i: nat): (r: Document)
    requires i <= |doc.templates|
    ensures |r.templates| == |doc.templates|
    decreases |doc.templates| - i
  {
    if i == |doc.templates| then doc else SetupFrom(Step(doc, i), i + 1)
  }

  /** `setupTemplatesWithHtmx()`. */
  function Setup(doc: Document): (r: Document)
    ensures |r.templates| == |doc.templates|
  {
    SetupFrom(doc, 0)
  }

  /** Every request template has its proxy id taken: the setup has nothing left to do. */
  predicate Settled(doc: Document) {
    forall j :: 0 <= j < |doc.templates| && IsRequestTemplate(doc.templates[j]) ==> ProxyId(doc.templates[j].id) in doc.ids
  }

  /** Proxy ids are pairwise distinct, and each is an id of the document. */
  predicate ProxiesUnique(doc: Document) {
    && (forall k :: 0 <= k < |doc.proxies| ==> doc.proxies[k].id in doc.ids)
    && (forall k, l :: 0 <= k < l < |doc.proxies| ==> doc.proxies[k].id != doc.proxies[l].id)
  }

  // ---------------------------------------------------------------------------
  // Properties
  // ---------------------------------------------------------------------------

  /**
   * A template with a request attribute and a free proxy id gets a proxy
   * with exactly its `hx-` attributes (and a default `hx-target`), loses
   * its own `hx-` attributes, and the proxy is scheduled exactly when its
   * trigger mentions `load`.
   */
  lemma StepCreatesProxy(doc: Document, i: nat)
    requires i < |doc.templates|
    requires IsRequestTemplate(doc.templates[i]) && ProxyId(doc.templates[i].id) !in doc.ids
    ensures var t := doc.templates[i];
      var r := Step(doc, i);
      && r.proxies == doc.proxies + [Proxy(ProxyId(t.id), ProxyAttributes(t))]
      && r.templates[i].attrs == WithoutHtmx(t.attrs)
      && !HasHtmx(r.templates[i].attrs)
      && (r.scheduled == doc.scheduled + [ProxyId(t.id)] <==> AutoTriggers(r.proxies[|doc.proxies|]))
      && (r.scheduled == doc.scheduled <==> !AutoTriggers(r.proxies[|doc.proxies|]))
  {
    RemoveClearsHtmx(doc.templates[i].attrs);
    var s := doc.scheduled + [ProxyId(doc.templates[i].id)];
    assert s != doc.scheduled by {
      assert |s| == |doc.scheduled| + 1;
    }
  }

  /** A template without a request attribute, or whose proxy id is already taken, is left as it is. */
  lemma StepSkips(doc: Document, i: nat)
    requires i < |doc.templates|
    requires !IsRequestTemplate(doc.templates[i]) || ProxyId(doc.templates[i].id) in doc.ids
    ensures Step(doc, i) == doc
  {
  }

  /** A proxy without `hx-trigger`, or with an empty one, is triggered on load. */
  lemma DefaultTriggerIsLoad(p: Proxy)
    requires "hx-trigger" !in p.attrs || p.attrs["hx-trigger"] == ""
    ensures AutoTriggers(p)
  {
    assert StartsWith("load", "load") by {
      assert "load"[..4] == "load";
    }
  }

  lemma {:induction false} SetupFromSettles(doc: Document, i: nat)
    requires i <= |doc.templates|
    requires forall j :: 0 <= j < i && IsRequestTemplate(doc.templates[j]) ==> ProxyId(doc.templates[j].id) in doc.ids
    ensures Settled(SetupFrom(doc, i))
    decreases |doc.templates| - i
  {
    if i < |doc.templates| {
      var next := Step(doc, i);
      forall j | 0 <= j < i + 1 && IsRequestTemplate(next.templates[j])
        ensures ProxyId(next.templates[j].id) in next.ids
      {
        if j < i {
          assert next.templates[j] == doc.templates[j];
        } else {
          StepRequestIsSettled(doc, i);
        }
      }
      SetupFromSettles(next, i + 1);
    }
  }

  /** After its own iteration, a template that still carries a request attribute has its proxy id taken. */
  lemma StepRequestIsSettled(doc: Document, i: nat)
    requires i < |doc.templates|
    ensures IsRequestTemplate(Step(doc, i).templates[i]) ==> ProxyId(Step(doc, i).templates[i].id) in Step(doc, i).ids
  {
    var t := doc.templates[i];
    if IsRequestTemplate(t) && ProxyId(t.id) !in doc.ids {
      var a := WithoutHtmx(t.attrs);
      assert "hx-get"[..3] == "hx-" && "hx-post"[..3] == "hx-";
      assert "hx-put"[..3] == "hx-" && "hx-delete"[..3] == "hx-";
      assert !IsRequestTemplate(t.(attrs := a));
    }
  }

  /** After setup every request template has a proxy id in the document. */
  lemma SetupSettles(doc: Document)
    ensures Settled(Setup(doc))
  {
    SetupFromSettles(doc, 0);
  }

  lemma {:induction false} SettledFromIsFixed(doc: Document, i: nat)
    requires i <= |doc.templates| && Settled(doc)
    ensures SetupFrom(doc, i) == doc
    decreases |doc.templates| - i
  {
    if i < |doc.templates| {
      StepSkips(doc, i);
      SettledFromIsFixed(doc, i + 1);
    }
  }

  /** A settled document is a fixed point of the setup. */
  lemma SettledIsFixed(doc: Document)
    requires Settled(doc)
    ensures Setup(doc) == doc
  {
    SettledFromIsFixed(doc, 0);
  }

  /** Running the setup again creates no further proxy and changes nothing. */
  lemma SetupIsIdempotent(doc: Document)
    ensures Setup(Setup(doc)) == Setup(doc)
  {
    SetupSettles(doc);
    SettledIsFixed(Setup(doc));
  }

  /** An iteration keeps proxy ids distinct: a new proxy's id was free. */
  lemma StepKeepsProxiesUnique(doc: Document, i: nat)
    requires i < |doc.templates| && ProxiesUnique(doc)
    ensures ProxiesUnique(Step(doc, i))
  {
  }

  lemma {:induction false} SetupFromKeepsProxiesUnique(doc: Document, i: nat)
    requires i <= |doc.templates| && ProxiesUnique(doc)
    ensures ProxiesUnique(SetupFrom(doc, i))
    decreases |doc.templates| - i
  {
    if i < |doc.templates| {
      StepKeepsProxiesUnique(doc, i);
      SetupFromKeepsProxiesUnique(Step(doc, i), i + 1);
    }
  }

  /** However often the setup runs, there is at most one proxy per template id. */
  lemma SetupKeepsProxiesUnique(doc: Document)
    requires ProxiesUnique(doc)
    ensures ProxiesUnique(Setup(doc))
  {
    SetupFromKeepsProxiesUnique(doc, 0);
  }
}

=== FILE: registry.dfy ===
/**
 * The component registry: a map from component name to extracted template
 * markup, filled by `registerComponent(filename, content)`, together with the
 * name derivation `filenameToComponentName`.
 *
 * The registry's two imported helpers, `extractTemplateContent` and
 * `isValidComponentName`, are not part of this model; they enter as the
 * uninterpreted function values of `TemplateTools`.
 */
module ComponentRegistry {
  import opened Wrappers
  import opened Text

  /** The helpers the registry calls but whose code is not modelled. */
  datatype TemplateTools = TemplateTools(
    extractTemplateContent: string -> Option<string>,
    isValidComponentName: string -> bool)

  /** Component name to template markup. */
  type Registry = map<string, string>

  /** Result of `registerComponent`: the boolean it returns and the registry afterwards. */
  datatype Registration = Registration(accepted: bool, registry: Registry)

  // ---------------------------------------------------------------------------
  // filenameToComponentName
  // ---------------------------------------------------------------------------

  /** `.replace(/\.?\\/g, '/')`: every backslash, with one dot in front of it if present, becomes `/`. */
  function NormalizeSeparators(s: string): (r: string)
    ensures '\\' !in r
    ensures |r| <= |s|
    decreases |s|
  {
    if |s| == 0 then ""
    else if |s| >= 2 && s[0] == '.' && s[1] == '\\' then "/" + NormalizeSeparators(s[2..])
    else if s[0] == '\\' then "/" + NormalizeSeparators(s[1..])
    else [s[0]] + NormalizeSeparators(s[1..])
  }

  /** Normalising only ever writes `/` or copies a character of the input. */
  lemma {:induction false} NormalizeProvenance(s: string)
    ensures forall c :: c in NormalizeSeparators(s) ==> c in s || c == '/'
    decreases |s|
  {
    if |s| >= 2 && s[0] == '.' && s[1] == '\\' {
      NormalizeProvenance(s[2..]);
      assert forall c :: c in s[2..] ==> c in s;
    } else if |s| > 0 {
      NormalizeProvenance(s[1..]);
      assert forall c :: c in s[1..] ==> c in s;
    }
  }

  /** Text without backslashes is left as it is. */
  lemma {:induction false} NormalizeIdentity(s: string)
    requires '\\' !in s
    ensures NormalizeSeparators(s) == s
    decreases |s|
  {
    if |s| > 0 {
      assert s[0] in s && s[0] != '\\';
      assert forall c :: c in s[1..] ==> c in s;
      NormalizeIdentity(s[1..]);
      assert s == [s[0]] + s[1..];
    }
  }

  /** Index of the first line terminator, or the length when there is none. */
  function FirstLineEnd(s: string): (e: nat)
    ensures e <= |s|
    ensures forall i :: 0 <= i < e ==> !IsLineTerminator(s[i])
    ensures e == |s| || IsLineTerminator(s[e])
    decreases |s|
  {
    if |s| == 0 || IsLineTerminator(s[0]) then 0 else 1 + FirstLineEnd(s[1..])
  }

  /** The last `/` strictly before index `end`. */
  function LastSlashBefore(s: string, end: nat): (k: Option<nat>)
    requires end <= |s|
    ensures k.Some? ==> k.value < end && s[k.value] == '/'
    ensures k.Some? ==> forall j :: k.value < j < end ==> s[j] != '/'
    ensures k.None? ==> forall j :: 0 <= j < end ==> s[j] != '/'
    decreases end
  {
    if end == 0 then None
    else if s[end - 1] == '/' then Some(end - 1)
    else LastSlashBefore(s, end - 1)
  }

  /**
   * `.replace(/^.*\//, '')`: `.` does not match a line terminator, so only the
   * first line is searched for the last `/`, and everything through it is removed.
   */
  function DropDirectory(s: string): (r: string)
    ensures |r| <= |s| && r == s[|s| - |r|..]
  {
    match LastSlashBefore(s, FirstLineEnd(s))
    case Some(k) => s[k + 1..]
    case None => s
  }

  /** `.replace(/\.hpx$/i, '')`: one trailing `.hpx`, in any letter case. */
  function StripHpxSuffix(s: string): (r: string)
    ensures |r| <= |s| && r == s[..|r|]
  {
    if |s| >= 4 && EqualsIgnoreCase(s[|s| - 4..], ".hpx") then s[..|s| - 4] else s
  }

  /** No character of `s` stops a regular-expression `.`. */
  predicate SingleLine(s: string) {
    forall i :: 0 <= i < |s| ==> !IsLineTerminator(s[i])
  }

  /** The file's base name: separators normalised, directory dropped, one `.hpx` stripped. */
  function BaseName(filename: string): (b: string)
    ensures |b| <= |filename|
    ensures forall c :: c in b ==> c in filename || c == '/'
    ensures '\\' !in b
    ensures SingleLine(filename) ==> '/' !in b
  {
    var n := NormalizeSeparators(filename);
    NormalizeProvenance(filename);
    var d := DropDirectory(n);
    assert SingleLine(filename) ==> '/' !in d by {
      if SingleLine(filename) { NoSlashAfterDrop(filename, n); }
    }
    var b := StripHpxSuffix(d);
    DropDirectoryChars(n);
    StripHpxSuffixChars(d);
    b
  }

  lemma DropDirectoryChars(s: string)
    ensures forall c :: c in DropDirectory(s) ==> c in s
  {
    var d := DropDirectory(s);
    forall c | c in d ensures c in s {
      var i :| 0 <= i < |d| && d[i] == c;
      assert d[i] == s[|s| - |d| + i];
    }
  }

  lemma StripHpxSuffixChars(s: string)
    ensures forall c :: c in StripHpxSuffix(s) ==> c in s
  {
    var b := StripHpxSuffix(s);
    forall c | c in b ensures c in s {
      var i :| 0 <= i < |b| && b[i] == c;
      assert b[i] == s[i];
    }
  }

  /** Lower-casing neither creates nor removes a character that is not an ASCII letter. */
  lemma LowerKeepsNonLetter(b: string, x: char)
    requires !IsAsciiLetter(x)
    ensures x in ToLower(b) <==> x in b
  {
    var r := ToLower(b);
    if x in r {
      var i :| 0 <= i < |r| && r[i] == x;
      assert b[i] == x;
    }
    if x in b {
      var i :| 0 <= i < |b| && b[i] == x;
      assert r[i] == x;
    }
  }

  /**
   * `filenameToComponentName`: the base name lower-cased. It never converts
   * case boundaries to hyphens.
   */
  function FilenameToComponentName(filename: string): (r: string)
    ensures |r| <= |filename|
    ensures '\\' !in r
    ensures forall i :: 0 <= i < |r| ==> !IsAsciiUpper(r[i])
    ensures '-' in r ==> '-' in filename
    ensures SingleLine(filename) ==> '/' !in r
  {
    var b := BaseName(filename);
    LowerKeepsNonLetter(b, '\\');
    LowerKeepsNonLetter(b, '-');
    LowerKeepsNonLetter(b, '/');
    ToLower(b)
  }

  lemma NormalizeKeepsSingleLine(filename: string)
    requires SingleLine(filename)
    ensures SingleLine(NormalizeSeparators(filename))
  {
    var n := NormalizeSeparators(filename);
    NormalizeProvenance(filename);
    forall i | 0 <= i < |n| ensures !IsLineTerminator(n[i]) {
      assert n[i] in n;
      if n[i] != '/' {
        var j :| 0 <= j < |filename| && filename[j] == n[i];
      }
    }
  }

  lemma NoSlashAfterDrop(filename: string, n: string)
    requires SingleLine(filename)
    requires n == NormalizeSeparators(filename)
    ensures '/' !in DropDirectory(n)
  {
    NormalizeKeepsSingleLine(filename);
    var e := FirstLineEnd(n);
    assert e == |n|;
    var d := DropDirectory(n);
    forall i | 0 <= i < |d| ensures d[i] != '/' {
      assert d[i] == n[|n| - |d| + i];
      match LastSlashBefore(n, e)
      case Some(k) => assert |n| - |d| == k + 1;
      case None =>
    }
  }

  // ---------------------------------------------------------------------------
  // The registry operations
  // ---------------------------------------------------------------------------

  /** Every stored name passes the validator and every stored template is non-empty. */
  predicate RegistryInvariant(tools: TemplateTools, reg: Registry) {
    forall name :: name in reg ==> tools.isValidComponentName(name) && reg[name] != ""
  }

  /**
   * `registerComponent(filename, content)`: rejects an empty filename or
   * content, an invalid derived name, and an absent or empty template; on
   * acceptance stores the extracted template under the derived name.
   */
  function RegisterComponent(reg: Registry, tools: TemplateTools, filename: string, content: string): (r: Registration)
    ensures var name := FilenameToComponentName(filename);
            var template := tools.extractTemplateContent(content);
      r.accepted <==> (filename != "" && content != "" && tools.isValidComponentName(name)
                       && template.Some? && template.value != "")
    ensures r.accepted ==>
      var name := FilenameToComponentName(filename);
      && name in r.registry
      && Some(r.registry[name]) == tools.extractTemplateContent(content)
      && r.registry.Keys == reg.Keys + {name}
      && forall other :: other in reg && other != name ==> r.registry[other] == reg[other]
    ensures !r.accepted ==> r.registry == reg
  {
    if filename == "" || content == "" then Registration(false, reg)
    else
      var name := FilenameToComponentName(filename);
      if !tools.isValidComponentName(name) then Registration(false, reg)
      else
        match tools.extractTemplateContent(content)
        case None => Registration(false, reg)
        case Some(template) =>
          if template == "" then Registration(false, reg)
          else Registration(true, reg[name := template])
  }

  /** `getComponentTemplate(name)`. */
  function GetComponentTemplate(reg: Registry, name: string): (r: Option<string>)
    ensures r.Some? <==> name in reg
    ensures r.Some? ==> r.value == reg[name]
  {
    if name in reg then Some(reg[name]) else None
  }

  /** `hasComponent(name)`: holds exactly when a template is stored under `name`. */
  function HasComponent(reg: Registry, name: string): (r: bool)
    ensures r <==> GetComponentTemplate(reg, name).Some?
  {
    name in reg
  }

  /** `clear()`: afterwards no component is registered. */
  function Clear(reg: Registry): (r: Registry)
    ensures forall name :: !HasComponent(r, name)
  {
    map[]
  }

  // ---------------------------------------------------------------------------
  // Properties
  // ---------------------------------------------------------------------------

  /** Registration keeps the registry invariant, whatever it accepts or rejects. */
  lemma RegisterPreservesInvariant(reg: Registry, tools: TemplateTools, filename: string, content: string)
    requires RegistryInvariant(tools, reg)
    ensures RegistryInvariant(tools, RegisterComponent(reg, tools, filename, content).registry)
  {
  }

  /** Registering, then looking up by the derived name, returns the extracted template. */
  lemma RegisterThenGet(reg: Registry, tools: TemplateTools, filename: string, content: string)
    requires RegisterComponent(reg, tools, filename, content).accepted
    ensures GetComponentTemplate(RegisterComponent(reg, tools, filename, content).registry,
                                 FilenameToComponentName(filename))
         == tools.extractTemplateContent(content)
  {
  }

  /** Repeating a registration with the same input changes nothing further. */
  lemma RegisterIsIdempotent(reg: Registry, tools: TemplateTools, filename: string, content: string)
    ensures var once := RegisterComponent(reg, tools, filename, content);
      RegisterComponent(once.registry, tools, filename, content) == once
  {
  }

  lemma {:induction false} LowerOfHpxVariant(ext: string)
    requires |ext| == 4 && EqualsIgnoreCase(ext, ".hpx")
    ensures '\\' !in ext && '/' !in ext
    ensures forall i :: 0 <= i < |ext| ==> !IsLineTerminator(ext[i])
  {
    assert ToLower(ext) == ".hpx";
    forall i | 0 <= i < 4
      ensures ext[i] != '\\' && ext[i] != '/' && !IsLineTerminator(ext[i])
    {
      assert LowerChar(ext[i]) == ".hpx"[i];
    }
  }

  lemma {:induction false} NormalizeKeepsLastSeparator(x: string, sep: char, z: string)
    requires sep == '/' || sep == '\\'
    requires '\\' !in z
    ensures EndsWith(NormalizeSeparators(x + [sep] + z), "/" + z)
    decreases |x|
  {
    var s := x + [sep] + z;
    if |x| == 0 {
      NormalizeLastSeparatorBase(sep, z);
      assert s == [sep] + z;
    } else if |x| >= 2 && x[0] == '.' && x[1] == '\\' {
      assert s[0] == '.' && s[1] == '\\';
      assert s[2..] == x[2..] + [sep] + z;
      NormalizeKeepsLastSeparator(x[2..], sep, z);
      EndsWithPrepend("/", NormalizeSeparators(s[2..]), "/" + z);
    } else if |x| == 1 && x[0] == '.' && sep == '\\' {
      assert s[0] == '.' && s[1] == '\\';
      assert s[2..] == z;
      NormalizeIdentity(z);
    } else {
      assert s[0] == x[0];
      assert |s| >= 2 ==> s[1] == (x[1..] + [sep] + z)[0];
      assert s[1..] == x[1..] + [sep] + z;
      NormalizeKeepsLastSeparator(x[1..], sep, z);
      var head := if x[0] == '\\' then "/" else [x[0]];
      assert NormalizeSeparators(s) == head + NormalizeSeparators(s[1..]);
      EndsWithPrepend(head, NormalizeSeparators(s[1..]), "/" + z);
    }
  }

  lemma {:induction false} NormalizeLastSeparatorBase(sep: char, z: string)
    requires sep == '/' || sep == '\\'
    requires '\\' !in z
    ensures NormalizeSeparators([sep] + z) == "/" + z
  {
    var s := [sep] + z;
    assert s[1..] == z;
    NormalizeIdentity(z);
  }

  lemma DropDirectoryOfPath(p: string, z: string)
    requires EndsWith(p, "/" + z) && '/' !in z
    requires forall i :: 0 <= i < |p| ==> !IsLineTerminator(p[i])
    ensures DropDirectory(p) == z
  {
    var k := |p| - |z| - 1;
    assert p[k] == ("/" + z)[0];
    var e := FirstLineEnd(p);
    assert e == |p|;
    var found := LastSlashBefore(p, e);
    forall j | k < j < |p| ensures p[j] != '/' {
      assert p[j] == z[j - k - 1];
      assert z[j - k - 1] in z;
    }
    assert found == Some(k);
    assert p[k + 1..] == z;
  }

  /**
   * For `dir/base.hpx` or `dir\base.HPX` (any letter case of the extension),
   * the derived name is the base name lower-cased, hyphens exactly as given.
   */
  lemma ComponentNameOfFile(dir: string, sep: char, base: string, ext: string)
    requires sep == '/' || sep == '\\'
    requires SingleLine(dir) && SingleLine(base)
    requires '/' !in base && '\\' !in base
    requires |ext| == 4 && EqualsIgnoreCase(ext, ".hpx")
    ensures FilenameToComponentName(dir + [sep] + base + ext) == ToLower(base)
  {
    LowerOfHpxVariant(ext);
    var z := base + ext;
    var f := dir + [sep] + z;
    assert f == dir + [sep] + base + ext;
    FileSlashFree(base, ext);
    FileSingleLine(dir, sep, base, ext);
    NormalizeKeepsLastSeparator(dir, sep, z);
    NormalizeKeepsSingleLine(f);
    DropDirectoryOfPath(NormalizeSeparators(f), z);
    assert z[|z| - 4..] == ext;
    assert z[..|z| - 4] == base;
  }

  lemma FileSlashFree(base: string, ext: string)
    requires '/' !in base && '\\' !in base && '/' !in ext && '\\' !in ext
    ensures '/' !in base + ext && '\\' !in base + ext
  {
    assert forall c :: c in base + ext ==> c in base || c in ext;
  }

  lemma FileSingleLine(dir: string, sep: char, base: string, ext: string)
    requires sep == '/' || sep == '\\'
    requires SingleLine(dir) && SingleLine(base)
    requires forall i :: 0 <= i < |ext| ==> !IsLineTerminator(ext[i])
    ensures SingleLine(dir + [sep] + (base + ext))
  {
    var f := dir + [sep] + (base + ext);
    forall j | 0 <= j < |f| ensures !IsLineTerminator(f[j]) {
      if j < |dir| { assert f[j] == dir[j]; }
      else if j == |dir| { assert f[j] == sep; }
      else if j < |dir| + 1 + |base| { assert f[j] == base[j - |dir| - 1]; }
      else { assert f[j] == ext[j - |dir| - 1 - |base|]; }
    }
  }
}

=== FILE: renderer.dfy ===
/**
 * The minimal renderer of `src/json-renderer/jrx.ts`: the template's
 * `innerHTML` interpolated once per array item (or once for any other
 * value), with no fallback handling, inserted before the template.
 */
module JsonRenderer {
  import opened Wrappers
  import opened Text
  import opened JsonValues
  import opened Placeholders
  import Jrx

  /** The replacer of `interpolate`: optional chaining, with a `null` leaf printed as `"null"`. */
  function ValueOf(data: Json): string -> string {
    path => RendererValueText(data, path)
  }

  /** `interpolate(templateHTML, data)`. */
  function InterpolateWith(templateHtml: string, data: Json): string {
    Interpolate(templateHtml, ValueOf(data))
  }

  /** `json.map(item => interpolate(templateHTML, item)).join('')`. */
  function RenderItems(templateHtml: string, items: seq<Json>): string
    decreases |items|
  {
    if |items| == 0 then "" else InterpolateWith(templateHtml, items[0]) + RenderItems(templateHtml, items[1..])
  }

  /** The markup rendered for `json`: per item for an array, once otherwise. */
  function RenderedMarkup(templateHtml: string, data: Json): string {
    if data.JArr? then RenderItems(templateHtml, data.items) else InterpolateWith(templateHtml, data)
  }

  /** The target: a `<template>` itself, or an element and the `innerHTML` of the template found inside it, if any. */
  datatype Target =
    | TemplateTarget(templateHtml: string)
    | ElementTarget(inner: Option<string>)

  /**
   * The part of the page the renderer touches: the markup already placed
   * just before the template, and whether the template is hidden.
   */
  datatype Region = Region(before: string, templateHidden: bool)

  /** `renderJSONWithTemplate`. */
  function RenderJsonWithTemplate(target: Target, data: Json, region: Region): (r: Region)
    ensures target == ElementTarget(None) ==> r == region
    ensures |region.before| <= |r.before| && r.before[..|region.before|] == region.before
    ensures target.TemplateTarget? ==> r.templateHidden == region.templateHidden
    ensures target.ElementTarget? && target.inner.Some? ==> r.templateHidden
  {
    match target
    case TemplateTarget(html) => region.(before := region.before + RenderedMarkup(html, data))
    case ElementTarget(None) => region
    case ElementTarget(Some(html)) => Region(region.before + RenderedMarkup(html, data), true)
  }

  // ---------------------------------------------------------------------------
  // Properties
  // ---------------------------------------------------------------------------

  /** An empty array renders nothing: there is no fallback content. */
  lemma EmptyArrayRendersNothing(target: Target, region: Region)
    requires target != ElementTarget(None)
    ensures RenderJsonWithTemplate(target, JArr([]), region).before == region.before
  {
    assert region.before + "" == region.before;
  }

  /** Rendering the items of two arrays one after the other is rendering their concatenation. */
  lemma {:induction false} RenderItemsAppend(templateHtml: string, a: seq<Json>, b: seq<Json>)
    ensures RenderItems(templateHtml, a + b) == RenderItems(templateHtml, a) + RenderItems(templateHtml, b)
    decreases |a|
  {
    if |a| == 0 {
      assert a + b == b;
    } else {
      assert (a + b)[0] == a[0] && (a + b)[1..] == a[1..] + b;
      RenderItemsAppend(templateHtml, a[1..], b);
      var x := InterpolateWith(templateHtml, a[0]);
      assert x + (RenderItems(templateHtml, a[1..]) + RenderItems(templateHtml, b))
          == (x + RenderItems(templateHtml, a[1..])) + RenderItems(templateHtml, b);
    }
  }

  /** Any value that is not an array renders exactly as the one-item array holding it. */
  lemma SingleItemArray(templateHtml: string, x: Json)
    requires !x.JArr?
    ensures RenderedMarkup(templateHtml, JArr([x])) == RenderedMarkup(templateHtml, x)
  {
    assert [x][1..] == [];
    assert RenderItems(templateHtml, [x]) == InterpolateWith(templateHtml, x) + RenderItems(templateHtml, []);
    assert InterpolateWith(templateHtml, x) + "" == InterpolateWith(templateHtml, x);
  }

  /** Two renders in a row keep the first render's markup and add the second's after it. */
  lemma RendersAccumulate(target: Target, first: Json, second: Json, region: Region)
    requires target != ElementTarget(None)
    ensures var html := if target.TemplateTarget? then target.templateHtml else target.inner.value;
      RenderJsonWithTemplate(target, second, RenderJsonWithTemplate(target, first, region)).before
        == region.before + RenderedMarkup(html, first) + RenderedMarkup(html, second)
  {
  }

  /** `n` copies of `s`. */
  function Repeat(s: string, n: nat): string
    decreases n
  {
    if n == 0 then "" else s + Repeat(s, n - 1)
  }

  /** A template without `{` renders as itself, once per item, whatever the items hold. */
  lemma {:induction false} PlainTemplateRepeats(templateHtml: string, items: seq<Json>)
    requires '{' !in templateHtml
    ensures RenderItems(templateHtml, items) == Repeat(templateHtml, |items|)
    decreases |items|
  {
    if |items| > 0 {
      InterpolateWithoutBrace(templateHtml, ValueOf(items[0]));
      PlainTemplateRepeats(templateHtml, items[1..]);
    }
  }

  lemma SplitSingleKey()
    ensures Split("a", '.') == ["a"]
  {
    var s := "a";
    assert s[0] == 'a' && s[1..] == "";
    var rest := Split(s[1..], '.');
    assert rest == [""];
    assert [s[0]] + rest[0] == "a" && rest[1..] == [];
  }

  /**
   * Where the two renderers part: `{{a}}` against `{"a": null}` renders
   * `null` here and nothing in the extension of `src/jrx.ts`.
   */
  lemma NullLeafRendersNull()
    ensures InterpolateWith("{{a}}", JObj(map["a" := JNull])) == "null"
    ensures Interpolate("{{a}}", Jrx.ValueOf(JObj(map["a" := JNull]))) == ""
  {
    var data := JObj(map["a" := JNull]);
    SplitSingleKey();
    assert Walk(Some(data), ["a"]) == Some(JNull) by {
      assert ["a"][1..] == [];
    }
    assert PlaceholderText("", "a", "") + "" == "{{a}}";
    assert InterpolateWith("{{a}}", data) == "null" by {
      InterpolatePlaceholder("", "a", "", "", ValueOf(data));
    }
    assert Interpolate("{{a}}", Jrx.ValueOf(data)) == "" by {
      InterpolatePlaceholder("", "a", "", "", Jrx.ValueOf(data));
    }
  }
}

=== FILE: styleblock.dfy ===
/**
 * The `<style>` element of a component file: locating it with
 * `/<style[^>]*>([\s\S]*?)<\/style>/i`, reading its text, and splicing the
 * merged styles back in (`loadComponent`).
 */
module StyleBlocks {
  import opened Wrappers
  import opened Text

  /**
   * One match: the open tag spans `[start, innerStart)` and ends in `>`, the
   * captured text is `[innerStart, innerEnd)`, and `</style>` follows.
   */
  datatype StyleBlock = StyleBlock(start: nat, innerStart: nat, innerEnd: nat) {
    /** One past the closing tag. */
    function End(): nat { innerEnd + 8 }
  }

  /** `<style`, in any letter case, at position `i`. */
  predicate OpenTagAt(s: string, i: nat) {
    WordAtIgnoreCase(s, i, "<style")
  }

  /** `</style>`, in any letter case, at position `i`. */
  predicate CloseTagAt(s: string, i: nat) {
    WordAtIgnoreCase(s, i, "</style>")
  }

  /** `s` holds no `</style>` in any letter case. */
  predicate NoCloseTag(s: string) {
    forall k: nat :: k <= |s| ==> !CloseTagAt(s, k)
  }

  /** The first `c` at or after `from`. */
  function FindChar(s: string, from: nat, c: char): (r: Option<nat>)
    requires from <= |s|
    ensures r.Some? ==> from <= r.value < |s| && s[r.value] == c
    ensures r.Some? ==> forall k :: from <= k < r.value ==> s[k] != c
    ensures r.None? ==> forall k :: from <= k < |s| ==> s[k] != c
    decreases |s| - from
  {
    if from == |s| then None
    else if s[from] == c then Some(from)
    else FindChar(s, from + 1, c)
  }

  /** The first `</style>` at or after `from`: what the lazy `[\s\S]*?` stops at. */
  function FindCloseTag(s: string, from: nat): (r: Option<nat>)
    requires from <= |s|
    ensures r.Some? ==> from <= r.value && CloseTagAt(s, r.value)
    ensures r.Some? ==> forall k :: from <= k < r.value ==> !CloseTagAt(s, k)
    ensures r.None? ==> forall k :: from <= k <= |s| ==> !CloseTagAt(s, k)
    decreases |s| - from
  {
    if CloseTagAt(s, from) then Some(from)
    else if from == |s| then None
    else FindCloseTag(s, from + 1)
  }

  /**
   * The regular expression tried at position `i`: `<style`, then `[^>]*>`
   * (which can only end at the first `>`), then the shortest text up to the
   * first `</style>`.
   */
  function MatchAt(s: string, i: nat): (r: Option<StyleBlock>)
    requires i <= |s|
    ensures r.Some? ==> r.value.start == i && i + 7 <= r.value.innerStart <= r.value.innerEnd <= |s| - 8
  {
    if !OpenTagAt(s, i) then None
    else match FindChar(s, i + 6, '>')
      case None => None
      case Some(k) =>
        match FindCloseTag(s, k + 1)
        case None => None
        case Some(e) => Some(StyleBlock(i, k + 1, e))
  }

  /** A match starts with an open tag, has `>` just before its text and `</style>` just after it. */
  lemma MatchAtIsTagged(s: string, i: nat)
    requires i <= |s| && MatchAt(s, i).Some?
    ensures OpenTagAt(s, i)
    ensures s[MatchAt(s, i).value.innerStart - 1] == '>'
    ensures CloseTagAt(s, MatchAt(s, i).value.innerEnd)
  {
  }

  /** `content.match(...)`: the leftmost position where the expression matches. */
  function FindStyleBlock(s: string, from: nat): (r: Option<StyleBlock>)
    requires from <= |s|
    ensures r.Some? ==> from <= r.value.start <= |s| && MatchAt(s, r.value.start) == r
    ensures forall i :: from <= i <= |s| && (r.None? || i < r.value.start) ==> MatchAt(s, i).None?
    decreases |s| - from
  {
    if from == |s| then MatchAt(s, from)
    else if MatchAt(s, from).Some? then MatchAt(s, from)
    else FindStyleBlock(s, from + 1)
  }

  /** `styleMatch ? styleMatch[1] : ''`: the text of the first style element. */
  function ComponentStyles(content: string): string {
    match FindStyleBlock(content, 0)
    case Some(b) => content[b.innerStart..b.innerEnd]
    case None => ""
  }

  /**
   * The `$` patterns that `String.prototype.replace` expands in a replacement
   * string when the expression has no capture group, as in the splice:
   * `$$`, `$&`, `` $` `` and `$'`; every other `$`, `$1` included, is literal.
   */
  function ExpandReplacement(t: string, matched: string, before: string, after: string): string
    decreases |t|
  {
    if |t| == 0 then ""
    else if t[0] == '$' && |t| >= 2 && t[1] in "$&`'" then
      var piece := if t[1] == '$' then "$" else if t[1] == '&' then matched
                   else if t[1] == '`' then before else after;
      piece + ExpandReplacement(t[2..], matched, before, after)
    else [t[0]] + ExpandReplacement(t[1..], matched, before, after)
  }

  /** The element the loader writes around the merged styles. */
  function StyleElement(styles: string): string {
    "<style>\n" + styles + "\n</style>"
  }

  /**
   * The splice in `loadComponent`: the first style element is replaced by one
   * holding the merged styles; without one, a new element is put in front, but
   * only when there are styles to hold.
   */
  function SpliceStyles(content: string, merged: string): string {
    match FindStyleBlock(content, 0)
    case Some(b) =>
      var replacement := ExpandReplacement(StyleElement(merged), content[b.start..b.End()],
                                           content[..b.start], content[b.End()..]);
      content[..b.start] + replacement + content[b.End()..]
    case None =>
      if merged != "" then "\n" + StyleElement(merged) + "\n" + content else content
  }

  // ---------------------------------------------------------------------------
  // Properties
  // ---------------------------------------------------------------------------

  /** A replacement without `$` is inserted literally. */
  lemma {:induction false} ExpandWithoutDollar(t: string, matched: string, before: string, after: string)
    requires '$' !in t
    ensures ExpandReplacement(t, matched, before, after) == t
    decreases |t|
  {
    if |t| > 0 {
      assert t[0] in t;
      assert forall c :: c in t[1..] ==> c in t;
      ExpandWithoutDollar(t[1..], matched, before, after);
      assert t == [t[0]] + t[1..];
    }
  }

  /** `$&` in the styles re-inserts the whole matched element. */
  lemma ExpandMatchedPattern(rest: string, matched: string, before: string, after: string)
    ensures ExpandReplacement("$&" + rest, matched, before, after)
         == matched + ExpandReplacement(rest, matched, before, after)
  {
    var t := "$&" + rest;
    assert t[0] == '$' && t[1] == '&';
    assert t[2..] == rest;
  }

  /** `$1` is not a pattern here: the expression has no capture group. */
  lemma GroupReferenceIsLiteral(rest: string, matched: string, before: string, after: string)
    ensures ExpandReplacement("$1" + rest, matched, before, after)
         == "$1" + ExpandReplacement(rest, matched, before, after)
  {
    var t := "$1" + rest;
    assert t[0] == '$' && t[1] == '1' && t[1] !in "$&`'";
    assert t[1..] == "1" + rest;
    assert ("1" + rest)[1..] == rest;
  }

  /**
   * An open tag in front of a complete match always completes too: its `>` and
   * `</style>` are found no later than those of the later match.
   */
  lemma {:induction false} OpenTagBeforeMatch(s: string, i: nat, j: nat)
    requires i <= j <= |s| && OpenTagAt(s, i) && MatchAt(s, j).Some?
    ensures MatchAt(s, i).Some?
  {
    var b := MatchAt(s, j).value;
    MatchAtIsTagged(s, j);
    var gt := FindChar(s, i + 6, '>');
    assert s[b.innerStart - 1] == '>';
    assert gt.Some? && gt.value <= b.innerStart - 1;
    var close := FindCloseTag(s, gt.value + 1);
    assert CloseTagAt(s, b.innerEnd);
    assert close.Some?;
  }

  /** Hence no `<style` at all precedes the block that is found. */
  lemma {:induction false} NoOpenTagBeforeBlock(s: string)
    requires FindStyleBlock(s, 0).Some?
    ensures forall i :: 0 <= i < FindStyleBlock(s, 0).value.start ==> !OpenTagAt(s, i)
  {
    var b := FindStyleBlock(s, 0).value;
    forall i | 0 <= i < b.start ensures !OpenTagAt(s, i) {
      assert MatchAt(s, i).None?;
      if OpenTagAt(s, i) {
        MatchAtIsTagged(s, b.start);
        OpenTagBeforeMatch(s, i, b.start);
      }
    }
  }

  /** A match with none before it is the one the search returns. */
  lemma FirstMatchIsFound(s: string, n: nat)
    requires n <= |s| && MatchAt(s, n).Some?
    requires forall i :: 0 <= i < n ==> MatchAt(s, i).None?
    ensures FindStyleBlock(s, 0) == MatchAt(s, n)
  {
    var r := FindStyleBlock(s, 0);
    assert r.Some?;
    assert r.value.start <= n;
  }

  /** Without an open tag there is no match. */
  lemma NoOpenTagNoMatch(s: string, n: nat)
    requires n <= |s|
    requires forall i :: 0 <= i < n ==> !OpenTagAt(s, i)
    ensures forall i :: 0 <= i < n ==> MatchAt(s, i).None?
  {
  }

  /** `<style>` written by the loader is an open tag whose `>` comes right after it. */
  lemma WrittenOpenTag(t: string, n: nat)
    requires n + 7 <= |t| && t[n..n + 7] == "<style>"
    ensures OpenTagAt(t, n)
    ensures FindChar(t, n + 6, '>') == Some(n + 6)
  {
    forall k | 0 <= k < 6 ensures LowerChar(t[n + k]) == "<style"[k] {
      assert t[n + k] == t[n..n + 7][k];
    }
    assert t[n + 6] == t[n..n + 7][6];
  }

  /** A window of eight characters containing a line feed is not a closing tag. */
  lemma LineFeedBreaksCloseTag(t: string, k: nat, d: nat)
    requires k + 8 <= |t| && d < 8 && t[k + d] == '\n'
    ensures !CloseTagAt(t, k)
  {
    assert LowerChar(t[k + d]) != "</style>"[d];
  }

  /**
   * Where the loader has written `\n`, then text `x` free of closing tags,
   * then `\n</style>`, the first closing tag from the line feed on is the
   * written one.
   */
  lemma WrittenCloseTag(t: string, n: nat, x: string)
    requires n + 17 + |x| <= |t|
    requires t[n + 7] == '\n' && t[n + 8..n + 8 + |x|] == x
    requires t[n + 8 + |x|..n + 17 + |x|] == "\n</style>"
    requires NoCloseTag(x)
    ensures FindCloseTag(t, n + 7) == Some(n + 9 + |x|)
  {
    var e := n + 8 + |x|;
    forall m | 0 <= m < 8 ensures LowerChar(t[e + 1 + m]) == "</style>"[m] {
      assert t[e + 1 + m] == t[e..e + 9][m + 1];
    }
    assert CloseTagAt(t, e + 1);
    assert t[e] == t[e..e + 9][0];
    forall k | n + 7 <= k <= e ensures !CloseTagAt(t, k) {
      if k == n + 7 {
        LineFeedBreaksCloseTag(t, k, 0);
      } else if k + 8 <= e {
        var j: nat := k - n - 8;
        forall m | j <= m < j + 8 ensures x[m] == t[m + n + 8] {
          assert x[m] == t[n + 8..e][m];
        }
        assert !CloseTagAt(x, j);
      } else {
        LineFeedBreaksCloseTag(t, k, e - k);
      }
    }
  }

  /** The loader's element at offset `n` is a match of the expression. */
  lemma WrittenMatch(t: string, n: nat, x: string)
    requires n + 17 + |x| <= |t|
    requires t[n..n + 8] == "<style>\n" && t[n + 8..n + 8 + |x|] == x
    requires t[n + 8 + |x|..n + 17 + |x|] == "\n</style>"
    requires NoCloseTag(x)
    ensures MatchAt(t, n) == Some(StyleBlock(n, n + 7, n + 9 + |x|))
  {
    assert t[n..n + 7] == t[n..n + 8][..7];
    assert t[n + 7] == t[n..n + 8][7];
    WrittenOpenTag(t, n);
    WrittenCloseTag(t, n, x);
  }

  /** ... and, when no open tag precedes it, the block found. */
  lemma WrittenBlockIsFound(t: string, n: nat, x: string)
    requires n + 17 + |x| <= |t|
    requires t[n..n + 8] == "<style>\n" && t[n + 8..n + 8 + |x|] == x
    requires t[n + 8 + |x|..n + 17 + |x|] == "\n</style>"
    requires NoCloseTag(x)
    requires forall i :: 0 <= i < n ==> !OpenTagAt(t, i)
    ensures FindStyleBlock(t, 0) == Some(StyleBlock(n, n + 7, n + 9 + |x|))
    ensures ComponentStyles(t) == "\n" + x + "\n"
  {
    WrittenMatch(t, n, x);
    NoOpenTagNoMatch(t, n);
    FirstMatchIsFound(t, n);
    WrittenText(t, n, x);
  }

  lemma WrittenText(t: string, n: nat, x: string)
    requires n + 17 + |x| <= |t|
    requires t[n..n + 8] == "<style>\n" && t[n + 8..n + 8 + |x|] == x
    requires t[n + 8 + |x|..n + 17 + |x|] == "\n</style>"
    ensures t[n + 7..n + 9 + |x|] == "\n" + x + "\n"
  {
    assert t[n + 7] == t[n..n + 8][7];
    assert t[n + 8 + |x|] == t[n + 8 + |x|..n + 17 + |x|][0];
    assert t[n + 7..n + 9 + |x|] == [t[n + 7]] + t[n + 8..n + 8 + |x|] + [t[n + 8 + |x|]];
  }

  /** Where `StyleElement(x)` lands in `p + StyleElement(x) + q`. */
  lemma ElementLayout(p: string, x: string, q: string)
    ensures var t := p + StyleElement(x) + q; var n := |p|;
      n + 17 + |x| <= |t| && t[..n] == p
      && t[n..n + 8] == "<style>\n" && t[n + 8..n + 8 + |x|] == x
      && t[n + 8 + |x|..n + 17 + |x|] == "\n</style>"
  {
    var t := p + StyleElement(x) + q;
    assert t == p + ("<style>\n" + (x + ("\n</style>" + q)));
  }

  /** Characters below `n` agree, and both strings open a tag at `n`. */
  lemma OpenTagsAgreeBefore(s: string, t: string, n: nat)
    requires n <= |s| && n <= |t| && s[..n] == t[..n]
    requires OpenTagAt(s, n) && OpenTagAt(t, n)
    ensures forall i :: 0 <= i < n ==> (OpenTagAt(s, i) <==> OpenTagAt(t, i))
  {
    forall p | 0 <= p < n + 6 ensures LowerChar(s[p]) == LowerChar(t[p]) {
      if p < n {
        assert s[p] == s[..n][p];
        assert t[p] == t[..n][p];
      } else {
        assert LowerChar(s[n + (p - n)]) == "<style"[p - n];
        assert LowerChar(t[n + (p - n)]) == "<style"[p - n];
      }
    }
  }

  lemma LineFeedIsNoOpenTag(t: string)
    requires |t| > 0 && t[0] == '\n'
    ensures !OpenTagAt(t, 0)
  {
    assert LowerChar(t[0 + 0]) != "<style"[0];
  }

  lemma ElementHasNoDollar(x: string)
    requires '$' !in x
    ensures '$' !in StyleElement(x)
  {
    var e := StyleElement(x);
    forall i | 0 <= i < |e| ensures e[i] != '$' {
      if 8 <= i < 8 + |x| {
        assert e[i] == x[i - 8];
      }
    }
  }

  lemma SpliceAtBlock(content: string, merged: string, b: StyleBlock)
    requires '$' !in merged
    requires FindStyleBlock(content, 0) == Some(b)
    ensures SpliceStyles(content, merged) == content[..b.start] + StyleElement(merged) + content[b.End()..]
  {
    ElementHasNoDollar(merged);
    ExpandWithoutDollar(StyleElement(merged), content[b.start..b.End()], content[..b.start],
                        content[b.End()..]);
  }

  lemma OpenTagAtSplice(t: string, n: nat)
    requires n + 8 <= |t| && t[n..n + 8] == "<style>\n"
    ensures OpenTagAt(t, n)
  {
    assert t[n..n + 7] == t[n..n + 8][..7];
    WrittenOpenTag(t, n);
  }

  /** The splice over an existing element puts the loader's element at its place. */
  lemma SpliceReplacesBlock(content: string, merged: string, b: StyleBlock)
    requires '$' !in merged && NoCloseTag(merged)
    requires FindStyleBlock(content, 0) == Some(b)
    ensures ComponentStyles(SpliceStyles(content, merged)) == "\n" + merged + "\n"
  {
    var p, q := content[..b.start], content[b.End()..];
    var t := p + StyleElement(merged) + q;
    SpliceAtBlock(content, merged, b);
    ElementLayout(p, merged, q);
    NoOpenTagBeforeBlock(content);
    assert OpenTagAt(content, b.start);
    OpenTagAtSplice(t, b.start);
    OpenTagsAgreeBefore(content, t, b.start);
    WrittenBlockIsFound(t, b.start, merged);
  }

  /** Without an element, a non-empty merge is put in front of the content on a line of its own. */
  lemma SplicePrependShape(content: string, merged: string)
    requires merged != "" && FindStyleBlock(content, 0).None?
    ensures SpliceStyles(content, merged) == "\n" + StyleElement(merged) + ("\n" + content)
  {
  }

  /** Without an element, the prepended one is the first found and holds the merged styles. */
  lemma SplicePrependsElement(content: string, merged: string)
    requires NoCloseTag(merged) && merged != ""
    requires FindStyleBlock(content, 0).None?
    ensures ComponentStyles(SpliceStyles(content, merged)) == "\n" + merged + "\n"
  {
    var q := "\n" + content;
    var t := "\n" + StyleElement(merged) + q;
    SplicePrependShape(content, merged);
    ElementLayout("\n", merged, q);
    LineFeedIsNoOpenTag(t);
    WrittenBlockIsFound(t, 1, merged);
  }

  /**
   * Round trip: after the splice, the style text read back is the merged
   * styles between two line feeds, provided the merged styles hold no `$` and
   * no closing tag; and when there was no element and nothing to add, there
   * is still none.
   */
  lemma SpliceThenRead(content: string, merged: string)
    requires '$' !in merged && NoCloseTag(merged)
    ensures FindStyleBlock(content, 0).None? && merged == "" ==> ComponentStyles(SpliceStyles(content, merged)) == ""
    ensures FindStyleBlock(content, 0).Some? || merged != "" ==>
      ComponentStyles(SpliceStyles(content, merged)) == "\n" + merged + "\n"
  {
    match FindStyleBlock(content, 0)
    case Some(b) =>
      SpliceReplacesBlock(content, merged, b);
    case None =>
      if merged != "" {
        SplicePrependsElement(content, merged);
      }
  }
}

=== FILE: styles.dfy ===
/**
 * Stylesheet scoping for loaded components (`processStyles`): every rule
 * header of the external stylesheet is rewritten so that its selectors apply
 * inside the component's class, and the component's own `<style>` text is
 * appended after it.
 */
module Styles {
  import opened Wrappers
  import opened Text
  import ComponentRegistry

  /** `componentName.replace(/\.hpx$/i, '').toLowerCase()`: the scoping class name. */
  function ComponentClass(componentName: string): (c: string)
    ensures |c| <= |componentName|
    ensures forall i :: 0 <= i < |c| ==> !IsAsciiUpper(c[i])
  {
    ToLower(ComponentRegistry.StripHpxSuffix(componentName))
  }

  predicate IsBrace(c: char) { c == '{' || c == '}' }

  predicate BraceFree(s: string) {
    forall i :: 0 <= i < |s| ==> !IsBrace(s[i])
  }

  predicate AllBraceFree(parts: seq<string>) {
    forall i :: 0 <= i < |parts| ==> BraceFree(parts[i])
  }

  function CountChar(s: string, c: char): (n: nat)
    ensures n <= |s|
    decreases |s|
  {
    if |s| == 0 then 0 else (if s[0] == c then 1 else 0) + CountChar(s[1..], c)
  }

  /** Length of the longest brace-free prefix. */
  function BraceFreeRun(s: string): (n: nat)
    ensures n <= |s|
    ensures forall i :: 0 <= i < n ==> !IsBrace(s[i])
    ensures n == |s| || IsBrace(s[n])
    decreases |s|
  {
    if |s| > 0 && !IsBrace(s[0]) then 1 + BraceFreeRun(s[1..]) else 0
  }

  /**
   * Whether `([^{}]+){` matches at the start of `css`, and if so the length of
   * the captured run. Since the run is greedy and cannot contain a brace, the
   * match exists exactly when the maximal brace-free prefix is non-empty and
   * is followed by `{`.
   */
  function RuleHeadAt(css: string): (r: Option<nat>)
    ensures r.Some? <==> exists n :: 1 <= n < |css| && css[n] == '{' && BraceFree(css[..n])
    ensures r.Some? ==> 1 <= r.value < |css| && css[r.value] == '{' && BraceFree(css[..r.value])
  {
    var n := BraceFreeRun(css);
    assert forall m :: 1 <= m < |css| && css[m] == '{' && BraceFree(css[..m]) ==> m == n by {
      forall m | 1 <= m < |css| && css[m] == '{' && BraceFree(css[..m]) ensures m == n {
        assert forall i :: 0 <= i < m ==> css[..m][i] == css[i];
      }
    }
    assert n >= 1 && n < |css| && css[n] == '{' ==> BraceFree(css[..n]) by {
      forall i | 0 <= i < n && n <= |css| ensures css[..n][i] == css[i] { }
    }
    if n >= 1 && n < |css| && css[n] == '{' then Some(n) else None
  }

  /** A selector mentioning `:host` or `:root` stays global; any other is prefixed with the scope. */
  function ScopeSelector(selector: string, scope: string): (r: string)
    ensures Contains(selector, ":host") || Contains(selector, ":root") ==> r == selector
    ensures !(Contains(selector, ":host") || Contains(selector, ":root")) ==> r == scope + " " + selector
  {
    if Contains(selector, ":host") || Contains(selector, ":root") then selector
    else scope + " " + selector
  }

  function TrimAll(parts: seq<string>): (r: seq<string>)
    ensures |r| == |parts|
    ensures forall i :: 0 <= i < |r| ==> r[i] == Trim(parts[i])
  {
    seq(|parts|, i requires 0 <= i < |parts| => Trim(parts[i]))
  }

  /** `.filter(s => s.length > 0)`. */
  function NonEmpty(parts: seq<string>): (r: seq<string>)
    ensures |r| <= |parts|
    ensures forall i :: 0 <= i < |r| ==> r[i] != "" && r[i] in parts
    decreases |parts|
  {
    if |parts| == 0 then []
    else (if parts[0] == "" then [] else [parts[0]]) + NonEmpty(parts[1..])
  }

  function ScopeAll(parts: seq<string>, scope: string): (r: seq<string>)
    ensures |r| == |parts|
    ensures forall i :: 0 <= i < |r| ==> r[i] == ScopeSelector(parts[i], scope)
  {
    seq(|parts|, i requires 0 <= i < |parts| => ScopeSelector(parts[i], scope))
  }

  /** The selector list of one rule header, split on `,`, trimmed, emptied of blanks, scoped, re-joined. */
  function ScopedSelectors(run: string, scope: string): string {
    Join(ScopeAll(NonEmpty(TrimAll(Split(run, ','))), scope), ", ")
  }

  /**
   * The replacement for one matched rule header `run{`. At-rules are kept
   * verbatim, brace included. Other headers become the scoped selector list;
   * the program emits it without the `{` it consumed (`reemitBrace` false),
   * the corrected rewrite puts ` {` back (`reemitBrace` true).
   */
  function RewriteHeader(run: string, scope: string, reemitBrace: bool): string {
    if StartsWith(Trim(run), "@") then run + "{"
    else if reemitBrace then ScopedSelectors(run, scope) + " {"
    else ScopedSelectors(run, scope)
  }

  /**
   * `css.replace(/([^{}]+){/g, ...)`: the global scan tries a match at each
   * position, replaces it and resumes behind it, or copies one character and
   * moves on.
   */
  function RewriteRulesWith(css: string, scope: string, reemitBrace: bool): string
    decreases |css|
  {
    if |css| == 0 then ""
    else match RuleHeadAt(css)
      case Some(n) => RewriteHeader(css[..n], scope, reemitBrace) + RewriteRulesWith(css[n + 1..], scope, reemitBrace)
      case None => [css[0]] + RewriteRulesWith(css[1..], scope, reemitBrace)
  }

  /** The rewrite as the program performs it. */
  function RewriteRules(css: string, scope: string): string {
    RewriteRulesWith(css, scope, false)
  }

  /** The rewrite with each non-at-rule `{` restored. */
  function RewriteRulesIntended(css: string, scope: string): string {
    RewriteRulesWith(css, scope, true)
  }

  /**
   * `processStyles(componentName, componentStyles, externalStyles)`: with
   * external CSS present and non-empty, its scoped rewrite (as the program
   * performs it), a blank line, then the component's styles; otherwise exactly
   * the component's styles.
   */
  function ProcessStyles(componentName: string, componentStyles: string, externalStyles: Option<string>): (r: string)
    ensures externalStyles.None? || externalStyles == Some("") ==> r == componentStyles
    ensures externalStyles.Some? && externalStyles.value != "" ==>
      r == RewriteRules(externalStyles.value, "." + ComponentClass(componentName)) + "\n\n" + componentStyles
  {
    var scope := "." + ComponentClass(componentName);
    var external := if externalStyles.Some? && externalStyles.value != ""
                    then RewriteRules(externalStyles.value, scope) + "\n\n"
                    else "";
    external + componentStyles
  }

  // ---------------------------------------------------------------------------
  // Properties
  // ---------------------------------------------------------------------------

  /** The class of `base.hpx` (extension in any letter case) is the lower-cased base name. */
  lemma {:induction false} ComponentClassOfHpxFile(base: string, ext: string)
    requires |ext| == 4 && EqualsIgnoreCase(ext, ".hpx")
    ensures ComponentClass(base + ext) == ToLower(base)
  {
    var s := base + ext;
    assert s[|s| - 4..] == ext;
    assert s[..|s| - 4] == base;
  }

  lemma {:induction false} CountCharAppend(a: string, b: string, c: char)
    ensures CountChar(a + b, c) == CountChar(a, c) + CountChar(b, c)
    decreases |a|
  {
    if |a| == 0 {
      assert a + b == b;
    } else {
      assert (a + b)[0] == a[0];
      assert (a + b)[1..] == a[1..] + b;
      CountCharAppend(a[1..], b, c);
    }
  }

  lemma {:induction false} CountOfBraceFree(s: string, c: char)
    requires BraceFree(s) && IsBrace(c)
    ensures CountChar(s, c) == 0
    decreases |s|
  {
    if |s| > 0 {
      assert BraceFree(s[1..]) by {
        forall i | 0 <= i < |s[1..]| ensures !IsBrace(s[1..][i]) { assert s[1..][i] == s[i + 1]; }
      }
      CountOfBraceFree(s[1..], c);
    }
  }

  lemma {:induction false} BraceFreeSlice(s: string, lo: nat, hi: nat)
    requires BraceFree(s) && lo <= hi <= |s|
    ensures BraceFree(s[lo..hi])
  {
    forall i | 0 <= i < hi - lo ensures !IsBrace(s[lo..hi][i]) { assert s[lo..hi][i] == s[lo + i]; }
  }

  lemma {:induction false} BraceFreeAppend(a: string, b: string)
    requires BraceFree(a) && BraceFree(b)
    ensures BraceFree(a + b)
  {
    forall i | 0 <= i < |a + b| ensures !IsBrace((a + b)[i]) {
      if i >= |a| { assert (a + b)[i] == b[i - |a|]; }
    }
  }

  lemma {:induction false} TrimBraceFree(s: string)
    requires BraceFree(s)
    ensures BraceFree(Trim(s))
  {
    var t := TrimStart(s);
    BraceFreeSlice(s, |s| - |t|, |s|);
    BraceFreeSlice(t, 0, |TrimEnd(t)|);
  }

  lemma {:induction false} SplitBraceFree(s: string, sep: char)
    requires BraceFree(s)
    ensures AllBraceFree(Split(s, sep))
    decreases |s|
  {
    if |s| > 0 {
      BraceFreeSlice(s, 1, |s|);
      SplitBraceFree(s[1..], sep);
      if s[0] != sep {
        var rest := Split(s[1..], sep);
        BraceFreeAppend([s[0]], rest[0]);
        var r := Split(s, sep);
        assert r == [[s[0]] + rest[0]] + rest[1..];
        forall i | 0 <= i < |r| ensures BraceFree(r[i]) {
          if i > 0 { assert r[i] == rest[i]; }
        }
      } else {
        var rest := Split(s[1..], sep);
        var r := Split(s, sep);
        assert r == [""] + rest;
        forall i | 0 <= i < |r| ensures BraceFree(r[i]) {
          if i > 0 { assert r[i] == rest[i - 1]; }
        }
      }
    }
  }

  lemma {:induction false} JoinBraceFree(parts: seq<string>, sep: string)
    requires AllBraceFree(parts) && BraceFree(sep)
    ensures BraceFree(Join(parts, sep))
    decreases |parts|
  {
    if |parts| > 1 {
      assert AllBraceFree(parts[1..]) by {
        forall i | 0 <= i < |parts[1..]| ensures BraceFree(parts[1..][i]) { assert parts[1..][i] == parts[i + 1]; }
      }
      JoinBraceFree(parts[1..], sep);
      BraceFreeAppend(parts[0], sep);
      BraceFreeAppend(parts[0] + sep, Join(parts[1..], sep));
    }
  }

  /** With a brace-free scope, the scoped selector list of a brace-free run is brace-free. */
  lemma {:induction false} ScopedSelectorsBraceFree(run: string, scope: string)
    requires BraceFree(run) && BraceFree(scope)
    ensures BraceFree(ScopedSelectors(run, scope))
  {
    var pieces := Split(run, ',');
    SplitBraceFree(run, ',');
    var trimmed := TrimAll(pieces);
    TrimAllBraceFree(pieces);
    var kept := NonEmpty(trimmed);
    NonEmptyBraceFree(trimmed);
    var scoped := ScopeAll(kept, scope);
    ScopeAllBraceFree(kept, scope);
    JoinBraceFree(scoped, ", ");
  }

  lemma {:induction false} TrimAllBraceFree(parts: seq<string>)
    requires AllBraceFree(parts)
    ensures AllBraceFree(TrimAll(parts))
  {
    var trimmed := TrimAll(parts);
    forall i | 0 <= i < |trimmed| ensures BraceFree(trimmed[i]) { TrimBraceFree(parts[i]); }
  }

  lemma {:induction false} NonEmptyBraceFree(parts: seq<string>)
    requires AllBraceFree(parts)
    ensures AllBraceFree(NonEmpty(parts))
  {
    var kept := NonEmpty(parts);
    forall i | 0 <= i < |kept| ensures BraceFree(kept[i]) {
      var j :| 0 <= j < |parts| && parts[j] == kept[i];
    }
  }

  lemma {:induction false} ScopeAllBraceFree(parts: seq<string>, scope: string)
    requires AllBraceFree(parts) && BraceFree(scope)
    ensures AllBraceFree(ScopeAll(parts, scope))
  {
    var scoped := ScopeAll(parts, scope);
    BraceFreeAppend(scope, " ");
    forall i | 0 <= i < |scoped| ensures BraceFree(scoped[i]) {
      BraceFreeAppend(scope + " ", parts[i]);
    }
  }

  /** Brace counts of one rewritten header: no `}` and at most the one `{` re-emitted. */
  lemma {:induction false} HeaderBraces(run: string, scope: string, reemitBrace: bool)
    requires BraceFree(run) && BraceFree(scope)
    ensures CountChar(RewriteHeader(run, scope, reemitBrace), '}') == 0
    ensures CountChar(RewriteHeader(run, scope, reemitBrace), '{')
         == (if reemitBrace || StartsWith(Trim(run), "@") then 1 else 0)
  {
    if StartsWith(Trim(run), "@") {
      CountCharAppend(run, "{", '}');
      CountCharAppend(run, "{", '{');
      CountOfBraceFree(run, '}');
      CountOfBraceFree(run, '{');
    } else {
      var sel := ScopedSelectors(run, scope);
      ScopedSelectorsBraceFree(run, scope);
      CountOfBraceFree(sel, '}');
      CountOfBraceFree(sel, '{');
      if reemitBrace {
        CountCharAppend(sel, " {", '}');
        CountCharAppend(sel, " {", '{');
      }
    }
  }

  /** The rewrite copies every `}` of the stylesheet, in the program and in the corrected form alike. */
  lemma {:induction false} RewriteKeepsClosingBraces(css: string, scope: string, reemitBrace: bool)
    requires BraceFree(scope)
    ensures CountChar(RewriteRulesWith(css, scope, reemitBrace), '}') == CountChar(css, '}')
    decreases |css|
  {
    if |css| > 0 {
      match RuleHeadAt(css)
      case Some(n) =>
        HeaderBraces(css[..n], scope, reemitBrace);
        RewriteKeepsClosingBraces(css[n + 1..], scope, reemitBrace);
        CountCharAppend(RewriteHeader(css[..n], scope, reemitBrace), RewriteRulesWith(css[n + 1..], scope, reemitBrace), '}');
        SplitAtHead(css, n, '}');
        CountOfBraceFree(css[..n], '}');
      case None =>
        RewriteKeepsClosingBraces(css[1..], scope, reemitBrace);
        CountCharAppend([css[0]], RewriteRulesWith(css[1..], scope, reemitBrace), '}');
    }
  }

  /** The corrected rewrite also keeps every `{`. */
  lemma {:induction false} RewriteIntendedKeepsOpeningBraces(css: string, scope: string)
    requires BraceFree(scope)
    ensures CountChar(RewriteRulesIntended(css, scope), '{') == CountChar(css, '{')
    decreases |css|
  {
    if |css| > 0 {
      match RuleHeadAt(css)
      case Some(n) =>
        HeaderBraces(css[..n], scope, true);
        RewriteIntendedKeepsOpeningBraces(css[n + 1..], scope);
        CountCharAppend(RewriteHeader(css[..n], scope, true), RewriteRulesIntended(css[n + 1..], scope), '{');
        SplitAtHead(css, n, '{');
        CountOfBraceFree(css[..n], '{');
      case None =>
        RewriteIntendedKeepsOpeningBraces(css[1..], scope);
        CountCharAppend([css[0]], RewriteRulesIntended(css[1..], scope), '{');
    }
  }

  lemma {:induction false} SplitAtHead(css: string, n: nat, c: char)
    requires 1 <= n < |css| && css[n] == '{'
    ensures CountChar(css, c) == CountChar(css[..n], c) + (if c == '{' then 1 else 0) + CountChar(css[n + 1..], c)
  {
    assert css == css[..n] + ("{" + css[n + 1..]);
    CountCharAppend(css[..n], "{" + css[n + 1..], c);
    assert ("{" + css[n + 1..])[1..] == css[n + 1..];
  }

  /** Text with no `{` has no rule header, so the rewrite leaves it as it is. */
  lemma {:induction false} RewriteWithoutRulesIsIdentity(css: string, scope: string, reemitBrace: bool)
    requires '{' !in css
    ensures RewriteRulesWith(css, scope, reemitBrace) == css
    decreases |css|
  {
    if |css| > 0 {
      assert RuleHeadAt(css).None? by {
        forall n | 1 <= n < |css| ensures css[n] != '{' { assert css[n] in css; }
      }
      assert forall c :: c in css[1..] ==> c in css;
      RewriteWithoutRulesIsIdentity(css[1..], scope, reemitBrace);
      assert css == [css[0]] + css[1..];
    }
  }

  /** A single selector without commas, braces or `:host`/`:root` is prefixed with the scope. */
  lemma {:induction false} ScopedSingleSelector(sel: string, scope: string)
    requires sel != "" && Trim(sel) == sel && ',' !in sel
    requires !Contains(sel, ":host") && !Contains(sel, ":root")
    ensures ScopedSelectors(sel, scope) == scope + " " + sel
  {
    SplitWithoutSeparator(sel, ',');
    assert TrimAll([sel]) == [sel];
    assert NonEmpty([sel]) == [sel] by {
      assert [sel][1..] == [];
    }
    assert ScopeAll([sel], scope) == [scope + " " + sel];
  }

  lemma {:induction false} SplitWithoutSeparator(s: string, sep: char)
    requires sep !in s
    ensures Split(s, sep) == [s]
    decreases |s|
  {
    if |s| > 0 {
      assert s[0] in s;
      assert forall c :: c in s[1..] ==> c in s;
      SplitWithoutSeparator(s[1..], sep);
      assert s == [s[0]] + s[1..];
    }
  }

  /** An ordinary single-selector header: scoped, and the consumed `{` re-emitted only by the corrected rewrite. */
  lemma {:induction false} HeaderOfSingleSelector(sel: string, scope: string)
    requires sel != "" && Trim(sel) == sel && ',' !in sel && !StartsWith(sel, "@")
    requires !Contains(sel, ":host") && !Contains(sel, ":root")
    ensures RewriteHeader(sel, scope, false) == scope + " " + sel
    ensures RewriteHeader(sel, scope, true) == scope + " " + sel + " {"
  {
    ScopedSingleSelector(sel, scope);
  }

  /** A non-empty brace-free prefix followed by `{` is a rule header of exactly that length. */
  lemma {:induction false} RuleHeadOfSelector(sel: string, rest: string)
    requires sel != "" && BraceFree(sel)
    ensures RuleHeadAt(sel + "{" + rest) == Some(|sel|)
  {
    var css := sel + "{" + rest;
    assert css[|sel|] == '{';
    assert css[..|sel|] == sel;
  }

  /** A stylesheet holding one rule: its header is rewritten, its body and `}` are copied. */
  lemma {:induction false} RewriteSingleRule(sel: string, body: string, scope: string, reemitBrace: bool)
    requires sel != "" && BraceFree(sel) && '{' !in body
    ensures RewriteRulesWith(sel + "{" + body + "}", scope, reemitBrace)
         == RewriteHeader(sel, scope, reemitBrace) + (body + "}")
  {
    var rest := body + "}";
    var css := sel + "{" + rest;
    assert css == sel + "{" + body + "}";
    RuleHeadOfSelector(sel, rest);
    assert css[..|sel|] == sel && css[|sel| + 1..] == rest;
    assert '{' !in rest by {
      assert forall c :: c in rest ==> c in body || c == '}';
    }
    RewriteWithoutRulesIsIdentity(rest, scope, reemitBrace);
  }

  /**
   * The program drops the `{` of an ordinary rule: `sel{body}` scoped to
   * `scope` becomes `scope sel body}`, so `p{x}` becomes `.c px}`.
   */
  lemma {:induction false} RewriteDropsRuleBrace(sel: string, body: string, scope: string)
    requires sel != "" && BraceFree(sel) && Trim(sel) == sel && ',' !in sel && !StartsWith(sel, "@")
    requires !Contains(sel, ":host") && !Contains(sel, ":root")
    requires '{' !in body
    ensures RewriteRules(sel + "{" + body + "}", scope) == scope + " " + sel + body + "}"
  {
    var css := sel + "{" + body + "}";
    var h := scope + " " + sel;
    HeaderOfSingleSelector(sel, scope);
    RewriteSingleRule(sel, body, scope, false);
    assert RewriteRulesWith(css, scope, false) == h + (body + "}");
    AppendAssoc(h, body, "}");
  }

  /** The corrected rewrite keeps the rule's `{`: `sel{body}` becomes `scope sel {body}`. */
  lemma {:induction false} RewriteIntendedSingleRule(sel: string, body: string, scope: string)
    requires sel != "" && BraceFree(sel) && Trim(sel) == sel && ',' !in sel && !StartsWith(sel, "@")
    requires !Contains(sel, ":host") && !Contains(sel, ":root")
    requires '{' !in body
    ensures RewriteRulesIntended(sel + "{" + body + "}", scope) == scope + " " + sel + " {" + body + "}"
  {
    var css := sel + "{" + body + "}";
    var h := scope + " " + sel + " {";
    HeaderOfSingleSelector(sel, scope);
    RewriteSingleRule(sel, body, scope, true);
    assert RewriteRulesWith(css, scope, true) == h + (body + "}");
    AppendAssoc(h, body, "}");
  }

  /** A name without braces gives a scope without braces. */
  lemma ClassOfBraceFreeName(componentName: string)
    requires BraceFree(componentName)
    ensures BraceFree("." + ComponentClass(componentName))
  {
    var stem := ComponentRegistry.StripHpxSuffix(componentName);
    var scope := "." + ComponentClass(componentName);
    assert forall i :: 0 <= i < |stem| ==> stem[i] == componentName[i];
    forall i | 0 <= i < |scope|
      ensures !IsBrace(scope[i])
    {
      if i > 0 {
        assert scope[i] == LowerChar(stem[i - 1]);
      }
    }
  }

  /** Processing keeps every `}` of the external stylesheet and of the component's own styles. */
  lemma {:induction false} ProcessStylesKeepsClosingBraces(componentName: string, own: string, external: string)
    requires external != "" && BraceFree(componentName)
    ensures CountChar(ProcessStyles(componentName, own, Some(external)), '}')
         == CountChar(external, '}') + CountChar(own, '}')
  {
    var rewritten := RewriteRules(external, "." + ComponentClass(componentName));
    ClassOfBraceFreeName(componentName);
    RewriteKeepsClosingBraces(external, "." + ComponentClass(componentName), false);
    CountCharAppend(rewritten, "\n\n", '}');
    CountCharAppend(rewritten + "\n\n", own, '}');
    assert CountChar("\n\n", '}') == 0 by { CountOfBraceFree("\n\n", '}'); }
  }

  /** External CSS with no `{` has no rule to scope: it is copied, then a blank line and the own styles. */
  lemma {:induction false} ProcessStylesWithoutRules(componentName: string, own: string, external: string)
    requires external != "" && '{' !in external
    ensures ProcessStyles(componentName, own, Some(external)) == external + "\n\n" + own
  {
    RewriteWithoutRulesIsIdentity(external, "." + ComponentClass(componentName), false);
  }

  /**
   * One external rule `sel{body}` for component `name` comes out as
   * `.name sel body}`, its `{` dropped, ahead of the component's own styles.
   */
  lemma {:induction false} ProcessStylesSingleRule(componentName: string, own: string, sel: string, body: string)
    requires sel != "" && BraceFree(sel) && Trim(sel) == sel && ',' !in sel && !StartsWith(sel, "@")
    requires !Contains(sel, ":host") && !Contains(sel, ":root")
    requires '{' !in body
    ensures ProcessStyles(componentName, own, Some(sel + "{" + body + "}"))
         == "." + ComponentClass(componentName) + " " + sel + body + "}" + "\n\n" + own
  {
    var scope := "." + ComponentClass(componentName);
    RewriteDropsRuleBrace(sel, body, scope);
  }

  lemma AppendAssoc(a: string, b: string, c: string)
    ensures a + (b + c) == a + b + c
  {
  }
}

=== FILE: text.dfy ===
/**
 * String helpers shared by every module: prefix and substring tests, the
 * JavaScript `\s` character class and `trim`, ASCII case folding, and the
 * `split`/`join` pair of `Array.prototype.join` / `String.prototype.split`
 * restricted to a one-character separator.
 */
module Text {

  predicate StartsWith(s: string, prefix: string) {
    |prefix| <= |s| && s[..|prefix|] == prefix
  }

  /** Texts that differ from a prefix at some position of it do not start with it. */
  lemma NotStartsWith(s: string, prefix: string, i: nat)
    requires i < |prefix| && (i >= |s| || s[i] != prefix[i])
    ensures !StartsWith(s, prefix)
  {
    if |prefix| <= |s| {
      assert s[..|prefix|][i] == s[i];
    }
  }

  predicate EndsWith(s: string, suffix: string) {
    |suffix| <= |s| && s[|s| - |suffix|..] == suffix
  }

  lemma EndsWithPrepend(a: string, b: string, t: string)
    requires EndsWith(b, t)
    ensures EndsWith(a + b, t)
  {
    assert (a + b)[|a + b| - |t|..] == b[|b| - |t|..];
  }

  /** `s.includes(p)`: `p` occurs somewhere in `s`. */
  predicate Contains(s: string, p: string)
    decreases |s|
  {
    StartsWith(s, p) || (|s| > 0 && Contains(s[1..], p))
  }

  lemma ContainsOfPrefixOccurrence(a: string, p: string, b: string)
    ensures Contains(a + p + b, p)
    decreases |a|
  {
    if |a| == 0 {
      assert a + p + b == p + b;
      assert (p + b)[..|p|] == p;
    } else {
      assert (a + p + b)[1..] == a[1..] + p + b;
      ContainsOfPrefixOccurrence(a[1..], p, b);
    }
  }

  /** The JavaScript `\s` class (WhiteSpace and LineTerminator code points). */
  predicate IsJsSpace(c: char) {
    c == '\t' || c == '\n' || c == '\U{000B}' || c == '\U{000C}' || c == '\r' || c == ' '
    || c == '\U{00A0}' || c == '\U{1680}' || ('\U{2000}' <= c <= '\U{200A}')
    || c == '\U{2028}' || c == '\U{2029}' || c == '\U{202F}' || c == '\U{205F}'
    || c == '\U{3000}' || c == '\U{FEFF}'
  }

  /** The characters a regular-expression `.` refuses to match. */
  predicate IsLineTerminator(c: char) {
    c == '\n' || c == '\r' || c == '\U{2028}' || c == '\U{2029}'
  }

  predicate IsAsciiUpper(c: char) { 'A' <= c <= 'Z' }

  predicate IsAsciiLetter(c: char) { 'A' <= c <= 'Z' || 'a' <= c <= 'z' }

  function LowerChar(c: char): (r: char)
    ensures !IsAsciiUpper(r)
    ensures IsAsciiUpper(c) || r == c
  {
    if IsAsciiUpper(c) then (c as int + 32) as char else c
  }

  /** `toLowerCase`, restricted to the ASCII letters. */
  function ToLower(s: string): (r: string)
    ensures |r| == |s|
    ensures forall i :: 0 <= i < |s| ==> r[i] == LowerChar(s[i])
  {
    if |s| == 0 then "" else [LowerChar(s[0])] + ToLower(s[1..])
  }

  lemma ToLowerAppend(a: string, b: string)
    ensures ToLower(a + b) == ToLower(a) + ToLower(b)
  {
    assert forall i :: 0 <= i < |a + b| ==> ToLower(a + b)[i] == (ToLower(a) + ToLower(b))[i];
  }

  /** Case-insensitive equality as a non-Unicode `/i` regular expression decides it. */
  predicate EqualsIgnoreCase(a: string, b: string) {
    ToLower(a) == ToLower(b)
  }

  /**
   * The lower-case word `w` occurs at `i` in `s` up to ASCII letter case: what
   * a literal in a regular expression with the `i` flag matches.
   */
  predicate WordAtIgnoreCase(s: string, i: nat, w: string) {
    i + |w| <= |s| && forall k :: 0 <= k < |w| ==> LowerChar(s[i + k]) == w[k]
  }

  /** For a lower-case word this is `EqualsIgnoreCase` on the window at `i`. */
  lemma WordAtIgnoreCaseIsWindowCompare(s: string, i: nat, w: string)
    requires forall k :: 0 <= k < |w| ==> !IsAsciiUpper(w[k])
    requires i + |w| <= |s|
    ensures WordAtIgnoreCase(s, i, w) <==> EqualsIgnoreCase(s[i..i + |w|], w)
  {
    var win := s[i..i + |w|];
    assert forall k :: 0 <= k < |w| ==> win[k] == s[i + k];
    assert ToLower(w) == w;
  }

  function TrimStart(s: string): (r: string)
    ensures |r| <= |s| && r == s[|s| - |r|..]
    ensures |r| == 0 || !IsJsSpace(r[0])
    decreases |s|
  {
    if |s| > 0 && IsJsSpace(s[0]) then TrimStart(s[1..]) else s
  }

  function TrimEnd(s: string): (r: string)
    ensures |r| <= |s| && r == s[..|r|]
    ensures |r| == 0 || !IsJsSpace(r[|r| - 1])
    decreases |s|
  {
    if |s| > 0 && IsJsSpace(s[|s| - 1]) then TrimEnd(s[..|s| - 1]) else s
  }

  /** `String.prototype.trim`. */
  function Trim(s: string): (r: string)
    ensures |r| == 0 || (!IsJsSpace(r[0]) && !IsJsSpace(r[|r| - 1]))
  {
    TrimEnd(TrimStart(s))
  }

  /** `s.split(sep)` for a one-character separator: never empty, pieces free of `sep`. */
  function Split(s: string, sep: char): (r: seq<string>)
    ensures |r| >= 1
    ensures forall i :: 0 <= i < |r| ==> sep !in r[i]
    decreases |s|
  {
    if |s| == 0 then [""]
    else if s[0] == sep then [""] + Split(s[1..], sep)
    else
      var rest := Split(s[1..], sep);
      [[s[0]] + rest[0]] + rest[1..]
  }

  /** `parts.join(sep)`. */
  function Join(parts: seq<string>, sep: string): string
    decreases |parts|
  {
    if |parts| == 0 then ""
    else if |parts| == 1 then parts[0]
    else parts[0] + sep + Join(parts[1..], sep)
  }

  lemma JoinAppendLast(parts: seq<string>, last: string, suffix: string, sep: string)
    ensures Join(parts + [last + suffix], sep) == Join(parts + [last], sep) + suffix
    decreases |parts|
  {
    if |parts| == 0 {
      assert parts + [last + suffix] == [last + suffix];
      assert parts + [last] == [last];
    } else {
      assert (parts + [last + suffix])[1..] == parts[1..] + [last + suffix];
      assert (parts + [last])[1..] == parts[1..] + [last];
      JoinAppendLast(parts[1..], last, suffix, sep);
    }
  }

  /** Concatenation of a sequence of strings (`join('')`). */
  function Concat(parts: seq<string>): string
    decreases |parts|
  {
    if |parts| == 0 then "" else parts[0] + Concat(parts[1..])
  }

  lemma ConcatAppend(a: seq<string>, b: seq<string>)
    ensures Concat(a + b) == Concat(a) + Concat(b)
    decreases |a|
  {
    if |a| == 0 {
      assert a + b == b;
    } else {
      assert (a + b)[1..] == a[1..] + b;
      ConcatAppend(a[1..], b);
    }
  }
}

=== FILE: wrappers.dfy ===
/** Absence-aware values: the model's stand-in for JavaScript's `undefined`/`null` returns. */
module Wrappers {

  /** `None` plays the role of `undefined` (or `null`) in the modelled code. */
  datatype Option<+T> = None | Some(value: T) {

    /** The carried value, or `default` when absent. */
    function GetOr(default: T): T {
      match this
      case Some(v) => v
      case None => default
    }
  }
}
